=== FILE: README.md ===
# SmartHomeIoT — a Dafny model of the home-automation core

SmartHomeIoT is a React Native phone app plus two small Python services on a
Raspberry Pi. The app controls an LED, groups devices into rooms, and stores
on/off schedules in the Firebase realtime database. On the Pi, one service
serves the LED over HTTP and the other polls the schedules once a minute.

This project models the state-management core of both sides as pure Dafny
functions over immutable data. It covers:

- the device, room, schedule, notification and theme stores of the app's
  React contexts;
- the realtime-database service: per-user collections, snapshot-to-list
  conversion, and the 100-entry device history;
- the schedule checker's firing rule, flattening and minute loop;
- the LED server's `POST /led` validation and its `GET /led` report;
- the schedule form and schedule list screens;
- the sign-in, sign-up and password-reset validators;
- the settings screen's server addresses and connection label.

Modelling choices:

- **The database tree.** A top-level path (`devices`, `rooms`, `schedules`,
  `deviceHistory`) maps each user id to that user's node. A node is a map
  from key to record, together with the order in which its keys enumerate.
  The order matters because `Object.keys(...)`, the history trim and the
  Python flattening all walk children in order. Here a new key enumerates
  last (insertion order). Firebase itself lists children by key, which
  agrees with insertion order for push ids but not for chosen keys such as
  `device-<timestamp>` (listed before `led-1`). Records are decoded JSON
  objects.
- **Injected I/O.** Every awaited call into code outside the model is a
  parameter:
  - An `Outcome` is `Done` or `Fails(message)`.
  - A Firebase call ends in a `Reply` (`{success, error}`).
  - A local-storage read ends in a `CacheEntry`: absent, unreadable, or the
    stored list.
  - An HTTP attempt ends in an `HttpOutcome`.
  - Clocks (`Date.now()`, `ServerValue.TIMESTAMP`, `datetime.now()`) are
    integers.
- **Effects.** A context operation returns its new state plus its effects:
  the list it writes to local storage, and the service calls it issues when
  a user is signed in. `Database.Perform` gives those calls their meaning on
  the tree.
- **Undefined service methods.** The screens call `updateSchedule` and
  `addSchedule` on the database service, which defines neither.
  `Database.Invoke` models calling a service method by name: an undefined
  name throws a `TypeError`, which the screens' `catch` blocks receive. The
  screens are modelled as written on top of it, and again with the call
  routed to a remote write that may fail (see "## Findings").
- **Field names.** Each file keeps its own field names.
  `ScheduleContext.js` stores `isEnabled`/`repeatDays`, while the schedule
  screens and the Pi read `enabled`/`repeat`. `Sync` states what that
  mismatch means on the Pi.

## Model

| member | source | states |
|---|---|---|
| Common.PowerText | SmartHomeIoT/src/context/DeviceContext.js:147 | a power state travels as "ON" exactly when it is on, otherwise "OFF" |
| Common.NatToStringRoundTrip | SmartHomeIoT/src/context/NotificationContext.js:67 | the decimal text of a clock value (`Date.now().toString()`) reads back as that value |
| Common.NatToStringInjective | SmartHomeIoT/src/context/NotificationContext.js:67 | ids made from different instants differ |
| Common.HourMinuteText | SmartHomeIoT/raspberry-pi/schedule_checker.py:131-133 | "HH:MM" is five characters, digits around a colon, and its two halves read back as the hour and the minute |
| Common.Split | SmartHomeIoT/src/screens/Schedule/AddScheduleScreen.js:43 | `split(':')` pieces contain no separator and join back to the original text |
| Common.FilterOut | SmartHomeIoT/src/context/DeviceContext.js:234-236 | `filter` keeps, in order, exactly the elements the predicate rejects, and the count of removed elements is the count of matches |
| Common.FilterOutAppendMatch | SmartHomeIoT/src/screens/Schedule/AddScheduleScreen.js:76-77 | filtering out a freshly appended matching element leaves what filtering the prefix leaves |
| Common.FindFirst | SmartHomeIoT/src/context/DeviceContext.js:125 | `find` gives the first position whose element matches, and none when no element matches |
| Json.Get | SmartHomeIoT/raspberry-pi/schedule_checker.py:144 | `dict.get(key, default)`: the stored value when the key is present, otherwise the default |
| Json.Put | SmartHomeIoT/src/services/firebase/databaseService.js:56-64 | a `set` leaves the child holding the value and every other child as it was, keeps an existing key's position, and keeps every key listed once; a new key is placed last (insertion order) |
| Json.Remove | SmartHomeIoT/src/services/firebase/databaseService.js:98-102 | a `remove` drops exactly that child and keeps the others in their order |
| Json.RemoveAfterPut | SmartHomeIoT/src/services/firebase/databaseService.js:56-64 | removing a child just set under a fresh key restores the node exactly |
| Json.DropOldest | SmartHomeIoT/src/services/firebase/databaseService.js:160-169 | removing the first `count` keys keeps the newest keys, in order, with their values |
| Entities.DeviceDecodeEncoded | SmartHomeIoT/src/services/firebase/databaseService.js:56-64 | any record carrying a device's fields, whatever else it holds, reads back as that device |
| Entities.RoomDecodeEncoded | SmartHomeIoT/src/services/firebase/databaseService.js:233-237 | any record carrying a room's fields reads back as that room |
| Entities.ScheduleDecodeEncoded | SmartHomeIoT/src/services/firebase/databaseService.js:289-296 | any record carrying a schedule's fields reads back as that schedule |
| Entities.JsonToStrings | SmartHomeIoT/src/screens/Schedule/ScheduleScreen.js:111-126 | a JSON array reads as strings exactly when every item is a string, each item in place |
| Listing.WithKey | SmartHomeIoT/src/services/firebase/databaseService.js:43-46 | the spread `{ id: key, ...value }` agrees with the reference `Listed`: a stored `id` wins, otherwise `id` is the key |
| Listing.SnapshotList | SmartHomeIoT/src/services/firebase/databaseService.js:43-46 | one record per child, in the node's order; record i is the stored child when it has an `id` and the child with `id` set to its key when it has none (the reference `Listed`) |
| Listing.SnapshotListIds | SmartHomeIoT/src/services/firebase/databaseService.js:43-46 | a listed record's `id` is the stored `id` when the child has one (it wins the spread) and the key otherwise; so it equals the key exactly when the stored record has no `id` or the same one; the other fields are the stored ones |
| Listing.LastN | SmartHomeIoT/src/services/firebase/databaseService.js:185-189 | `limitToLast(limit)` keeps the newest `min(limit, size)` children with their values |
| Listing.NewestFirst | SmartHomeIoT/src/services/firebase/databaseService.js:191-199 | the last `limit` records of the listing, newest first |
| Database.PutUserNode | SmartHomeIoT/src/services/firebase/databaseService.js:27 | writing one user's node leaves every other user's node as it was |
| Database.ReadList | SmartHomeIoT/src/services/firebase/databaseService.js:34-55 | a read lists the user's records in the node's order; no user or a failed read gives [] and never throws |
| Database.Subscribed | SmartHomeIoT/src/services/firebase/databaseService.js:114-129 | the subscription callback receives the same list a successful read gives: one record per stored key with its fields and its key as `id` (unless it stores an `id`) |
| Database.SetRecord | SmartHomeIoT/src/services/firebase/databaseService.js:56-75 | a point write replaces exactly the record at the key for the signed-in user; no user or a failure gives a `{success:false}` reply and no change |
| Database.UpdateRecord | SmartHomeIoT/src/services/firebase/databaseService.js:76-97 | an update merges the fields into exactly that record; no user or a failure gives `{success:false}` and no change |
| Database.RemoveRecord | SmartHomeIoT/src/services/firebase/databaseService.js:98-113 | a delete removes exactly that key and keeps the remaining order; no user or a failure gives `{success:false}` and no change |
| Database.RemoveUndoesSet | SmartHomeIoT/src/services/firebase/databaseService.js:56-113 | deleting a record just saved under a fresh key gives every user back their node, and both calls succeed |
| Database.SaveDevice | SmartHomeIoT/src/services/firebase/databaseService.js:56-75 | `saveDevice` touches only the devices path, writing the device plus `updatedAt` at its id |
| Database.DeleteDevice | SmartHomeIoT/src/services/firebase/databaseService.js:98-113 | `deleteDevice` touches only the devices path, removing the key |
| Database.TrimHistory | SmartHomeIoT/src/services/firebase/databaseService.js:152-171 | more than 100 entries are cut to the newest 100 in order; fewer are kept as they are |
| Database.AddDeviceHistory | SmartHomeIoT/src/services/firebase/databaseService.js:140-178 | one entry is pushed then trimmed for the signed-in user only; a failed push or no user gives `{success:false}` and no change; a failed trim keeps the push and reports failure |
| Database.HistoryKeepsNewest | SmartHomeIoT/src/services/firebase/databaseService.js:140-171 | after a successful append and trim, at most 100 entries remain, the newest is the entry just pushed, and it carries `action` "ON"/"OFF" for the new state |
| Database.GetDeviceHistory | SmartHomeIoT/src/services/firebase/databaseService.js:183-210 | at most `limit` entries, the newest first; [] with no user, on failure, or for a non-positive limit |
| Database.UpdateDeviceState | SmartHomeIoT/src/services/firebase/databaseService.js:76-97 | only that device's `isOn`/`lastUpdated` change, and exactly one history entry is appended; rooms and schedules are untouched |
| Database.SaveRoom | SmartHomeIoT/src/services/firebase/databaseService.js:233-248 | `saveRoom` touches only the rooms path, writing the room at its id |
| Database.DeleteRoom | SmartHomeIoT/src/services/firebase/databaseService.js:249-266 | `deleteRoom` touches only the rooms path, removing the key |
| Database.SaveSchedule | SmartHomeIoT/src/services/firebase/databaseService.js:289-307 | `saveSchedule` touches only the schedules path, writing the schedule plus `updatedAt` at its id |
| Database.DeleteSchedule | SmartHomeIoT/src/services/firebase/databaseService.js:308-323 | `deleteSchedule` touches only the schedules path, removing the key |
| Database.Invoke | SmartHomeIoT/src/services/firebase/databaseService.js:21-380 | a method the service defines behaves as the remote write does; any other name fails |
| Database.PerformUnauthenticated | SmartHomeIoT/src/services/firebase/databaseService.js:15-19 | with nobody signed in, every service call returns `{success:false}` and changes nothing |
| Devices.DefaultDevices | SmartHomeIoT/src/context/DeviceContext.js:18-29 | the default list is the single LED `led-1`, off and online |
| Devices.FailureText | SmartHomeIoT/src/context/DeviceContext.js:190-193 | a failed toggle reports the last error's message, or the default text when it has none; never an empty text |
| Devices.SetPower | SmartHomeIoT/src/context/DeviceContext.js:154-160 | only the devices with that id change, to the new power state and stamp |
| Devices.SetPowerLastWins | SmartHomeIoT/src/context/DeviceContext.js:154-160 | of two power changes to one id, the later decides |
| Devices.ToggleBackRestores | SmartHomeIoT/src/context/DeviceContext.js:154-160 | toggling a device and toggling it back restores it up to its `lastUpdated` stamp; the other devices stay unchanged |
| Devices.ToggleDevice | SmartHomeIoT/src/context/DeviceContext.js:119-194 | busy: refused, nothing sent, state unchanged. Unknown id: refused, nothing sent. Otherwise 1 to 3 POSTs of the target state with a pause only between attempts; success on the first OK sets only that device, connects, caches and mirrors; after three failures only the guard is released and the last error is reported |
| Devices.CheckConnection | SmartHomeIoT/src/context/DeviceContext.js:244-266 | the status passes through connecting, ends connected exactly when the probe answered OK and disconnected otherwise, and nothing else changes |
| Devices.NewDevice | SmartHomeIoT/src/context/DeviceContext.js:213-223 | a new device has the given id or `device-<now>`, is off and offline, at brightness 100 |
| Devices.GeneratedDeviceIdsDistinct | SmartHomeIoT/src/context/DeviceContext.js:215 | generated ids from different instants differ |
| Devices.AddDevice | SmartHomeIoT/src/context/DeviceContext.js:213-232 | exactly one device is appended and the others keep their order; the list is cached, and mirrored only when signed in |
| Devices.RemoveDevice | SmartHomeIoT/src/context/DeviceContext.js:234-242 | exactly the devices with that id go: the result is the list with those left out, the rest kept in order and with their multiplicity; the list is cached and the delete is mirrored only when signed in |
| Devices.RemoveUndoesAdd | SmartHomeIoT/src/context/DeviceContext.js:213-242 | removing a device just added under a fresh id gives back the original state |
| Devices.UpdateDeviceBrightness | SmartHomeIoT/src/context/DeviceContext.js:196-211 | only `brightness`/`lastUpdated` of matching devices change; one remote save is issued, only when signed in and the device exists |
| Devices.OnDevicesPush | SmartHomeIoT/src/context/DeviceContext.js:53-63 | a non-empty push replaces the list and is cached; an empty one keeps the list and seeds the defaults remotely; loading ends either way |
| Devices.LoadLocalDevices | SmartHomeIoT/src/context/DeviceContext.js:85-99 | the cached list when one is stored, the default devices when nothing is stored or it cannot be parsed; loading ends |
| Rooms.DefaultRooms | SmartHomeIoT/src/context/RoomContext.js:17-36 | three default rooms: living room, bedroom, kitchen |
| Rooms.AddRoom | SmartHomeIoT/src/context/RoomContext.js:109-124 | exactly one room, with the given id or `room-<now>`, is appended; the others keep their order; mirrored only when signed in |
| Rooms.FindAfterAdd | SmartHomeIoT/src/context/RoomContext.js:109-124 | a room added under a new id is what `getRoomById` then returns |
| Rooms.ApplyRoomPatch | SmartHomeIoT/src/context/RoomContext.js:128 | `{...room, ...updates}`: a field the update carries wins, the others stay |
| Rooms.UpdateRoom | SmartHomeIoT/src/context/RoomContext.js:126-139 | the update is merged into the matching rooms only, and the length is kept; the merged room is mirrored only when signed in |
| Rooms.FindAfterUpdate | SmartHomeIoT/src/context/RoomContext.js:126-153 | an update that keeps the id leaves the room findable with the merged fields |
| Rooms.RemoveRoom | SmartHomeIoT/src/context/RoomContext.js:141-149 | exactly the rooms with that id go: the result is a subsequence whose length is the original less the number of matching rooms, so every other room stays, in order and with its multiplicity; mirrored only when signed in |
| Rooms.GetRoomById | SmartHomeIoT/src/context/RoomContext.js:151-153 | the first room with that id, and none exactly when no room has it |
| Rooms.NoneAfterRemove | SmartHomeIoT/src/context/RoomContext.js:141-153 | after a removal no room is found by the removed id |
| Rooms.LoadLocalRooms | SmartHomeIoT/src/context/RoomContext.js:72-86 | the cached list, or the three defaults when nothing is stored or it cannot be parsed |
| Rooms.LoadFirebaseRooms | SmartHomeIoT/src/context/RoomContext.js:53-70 | a non-empty remote list becomes the list and is cached; an empty one seeds and shows the defaults; a failing cache write falls back to local storage |
| Schedules.AddSchedule | SmartHomeIoT/src/context/ScheduleContext.js:59-76 | exactly one enabled schedule, with the given id or `schedule-<now>` and `createdAt`, is appended; mirrored only when signed in |
| Schedules.ApplySchedulePatch | SmartHomeIoT/src/context/ScheduleContext.js:80 | `{...schedule, ...updates}`: a field the update carries wins, the others stay |
| Schedules.UpdateSchedule | SmartHomeIoT/src/context/ScheduleContext.js:78-91 | the update is merged into the matching schedules only, and the length is kept |
| Schedules.ToggleSchedule | SmartHomeIoT/src/context/ScheduleContext.js:93-98 | an unknown id changes nothing and calls nothing; otherwise `isEnabled` of that id becomes the negation of the first match's flag, and a signed-in user's first match is saved remotely |
| Schedules.ToggleTwiceRestores | SmartHomeIoT/src/context/ScheduleContext.js:93-98 | toggling twice restores the list |
| Schedules.RemoveSchedule | SmartHomeIoT/src/context/ScheduleContext.js:100-108 | exactly the schedules with that id go: the result is a subsequence whose length is the original less the number of matching schedules, so every other schedule stays, in order and with its multiplicity; mirrored only when signed in |
| Schedules.SchedulesForDevice | SmartHomeIoT/src/context/ScheduleContext.js:110-112 | exactly the schedules of that device: a subsequence holding only that device's schedules, with length the total less the number of other devices' schedules, so each of them appears in order and with its multiplicity |
| Schedules.OnSchedulesPush | SmartHomeIoT/src/context/ScheduleContext.js:28-33 | a push, even an empty one, replaces the list and is cached |
| Schedules.LoadLocalSchedules | SmartHomeIoT/src/context/ScheduleContext.js:38-49 | the cached list when stored; otherwise the list is unchanged |
| Schedules.ApplyChange | SmartHomeIoT/src/context/ScheduleContext.js:28-108 | each add, update, removal, toggle or push caches exactly the list it produces; the one that caches nothing (a toggle of an unknown id) keeps the list |
| Schedules.CacheTracksState | SmartHomeIoT/src/context/ScheduleContext.js:28-108 | after any run of changes whose cache writes all complete, starting from a cache that matches the list, the cache still holds the in-memory list, so a reload gives it back; a failed write in the last change leaves the previously cached list (the error is only logged) |
| Schedules.LastWriteFails | SmartHomeIoT/src/context/ScheduleContext.js:51-57 | a failed cache write in a run's last change leaves whatever the run had cached before it, since `saveSchedulesLocal` only logs the error |
| Notifications.FromMessage | SmartHomeIoT/src/context/NotificationContext.js:66-73 | a new item is unread, titled "SmartHome" when the message has no title, with an empty body when it has none |
| Notifications.AddNotification | SmartHomeIoT/src/context/NotificationContext.js:65-76 | the new item goes first, followed by the newest older items, at most 50 in all |
| Notifications.AddKeepsCap | SmartHomeIoT/src/context/NotificationContext.js:75 | the inbox never grows past 50, and below the cap nothing is dropped |
| Notifications.MarkAsRead | SmartHomeIoT/src/context/NotificationContext.js:94-98 | only the items with that id become read, and the length is kept |
| Notifications.MarkAllAsRead | SmartHomeIoT/src/context/NotificationContext.js:100-102 | every item becomes read, and nothing else changes |
| Notifications.ClearNotifications | SmartHomeIoT/src/context/NotificationContext.js:104-106 | the inbox becomes empty |
| Notifications.UnreadCount | SmartHomeIoT/src/context/NotificationContext.js:108-110 | the number of positions holding an unread item; hence at most the inbox size, and zero exactly when everything is read |
| Notifications.MarkAllLeavesNoneUnread | SmartHomeIoT/src/context/NotificationContext.js:100-110 | after marking all read the unread count is 0 |
| Notifications.MarkAsReadCount | SmartHomeIoT/src/context/NotificationContext.js:94-110 | marking one id never raises the unread count, and lowers it when an unread item has that id |
| Theme.ParseMode | SmartHomeIoT/src/context/ThemeContext.js:32-35 | a stored string names a mode only if that mode stores as the string |
| Theme.ModeNameRoundTrip | SmartHomeIoT/src/context/ThemeContext.js:14-18 | every mode reads back from its stored name, and exactly "system", "light", "dark" are modes |
| Theme.IsDark | SmartHomeIoT/src/context/ThemeContext.js:58-60 | the system mode is dark exactly when the device scheme is dark; a fixed mode is dark exactly when it is the dark mode |
| Theme.SetTheme | SmartHomeIoT/src/context/ThemeContext.js:43-55 | the mode becomes exactly m and is persisted in a form that reads back as m |
| Theme.ToggleTheme | SmartHomeIoT/src/context/ThemeContext.js:63-66 | darkness flips, the mode is never "system" afterwards, and it is persisted |
| Theme.ToggleTwiceFromFixed | SmartHomeIoT/src/context/ThemeContext.js:63-66 | toggling twice from a fixed mode comes back to it |
| Theme.LoadThemePreference | SmartHomeIoT/src/context/ThemeContext.js:30-41 | a stored value is adopted only when it names a mode; otherwise the mode stays |
| ScheduleChecker.CurrentDay | SmartHomeIoT/raspberry-pi/schedule_checker.py:136-139 | weekday 0..6 names one of the seven three-letter days |
| Sync.CurrentDayIsFormKey | SmartHomeIoT/raspberry-pi/schedule_checker.py:136-139 | weekday 0..6 is named Mon..Sun in order, exactly the keys the schedule form stores in `repeat` |
| ScheduleChecker.CurrentTime | SmartHomeIoT/raspberry-pi/schedule_checker.py:131-133 | "HH:MM" with two-digit halves that read back as the hour and the minute |
| ScheduleChecker.CurrentTimeInjective | SmartHomeIoT/raspberry-pi/schedule_checker.py:131-133 | different minutes of the day render differently |
| ScheduleChecker.Stamped | SmartHomeIoT/raspberry-pi/schedule_checker.py:103-110 | a flattened record carries its key as `id` and its user as `uid` |
| ScheduleChecker.FlattenUsers | SmartHomeIoT/raspberry-pi/schedule_checker.py:103-110 | every element is the stamped record of one of the users, every record of every listed user is there, and no (uid, id) repeats |
| ScheduleChecker.Flatten | SmartHomeIoT/raspberry-pi/schedule_checker.py:71-114 | every schedule of every user appears exactly once, stamped; a failed read gives [] |
| ScheduleChecker.DayListed | SmartHomeIoT/raspberry-pi/schedule_checker.py:162 | Python's `in` on the `repeat` value: list membership, substring, or dict key; a number or boolean raises |
| ScheduleChecker.ShouldExecute | SmartHomeIoT/raspberry-pi/schedule_checker.py:142-162 | a falsy `enabled` (missing counts as true) or another time never fires; a one-time schedule fires unless executed today; a repeating one fires exactly on its listed days |
| ScheduleChecker.MarkExecuted | SmartHomeIoT/raspberry-pi/schedule_checker.py:165-168 | the id is recorded for today and every other entry stays |
| ScheduleChecker.OneTimeOncePerDay | SmartHomeIoT/raspberry-pi/schedule_checker.py:153-168 | a one-time schedule that fired and was marked does not fire again that day, but fires again on another day |
| ScheduleChecker.RepeatingIgnoresExecuted | SmartHomeIoT/raspberry-pi/schedule_checker.py:161-162 | a repeating schedule's verdict does not depend on the executed-today record |
| ScheduleChecker.RunPass | SmartHomeIoT/raspberry-pi/schedule_checker.py:197-208 | one pass only adds marks for today; an id gains a mark only if a schedule with that id was due now and its LED post succeeded; it posts at most one action per schedule, and only actions (default "OFF") of schedules due now |
| ScheduleChecker.Firing | SmartHomeIoT/raspberry-pi/schedule_checker.py:197-200 | the actions, in order, of the schedules `should_execute` accepts against a fixed executed-today dict; each is the action of such a schedule |
| ScheduleChecker.FiringSeesOwnIds | SmartHomeIoT/raspberry-pi/schedule_checker.py:151-156 | which schedules fire depends on the executed-today dict only at those schedules' own ids |
| ScheduleChecker.PassPostsFiring | SmartHomeIoT/raspberry-pi/schedule_checker.py:197-208 | with pairwise distinct ids, a pass that raises nothing posts exactly the actions of the schedules that should execute when it starts, in order |
| ScheduleChecker.QuietMinute | SmartHomeIoT/raspberry-pi/schedule_checker.py:197-207 | a minute at which no schedule is due posts and marks nothing |
| ScheduleChecker.FiredOneTimeIsMarked | SmartHomeIoT/raspberry-pi/schedule_checker.py:199-206 | a firing one-time schedule whose LED post succeeds is posted and marked executed today |
| LedServer.UpperIsOn | SmartHomeIoT/raspberry-pi/led_server.py:232 | `upper()` gives "ON" exactly for the case variants of "on" |
| LedServer.UpperIsOff | SmartHomeIoT/raspberry-pi/led_server.py:232 | `upper()` gives "OFF" exactly for the case variants of "off" and for "o"/"O" followed by the ligature "ﬀ" |
| LedServer.SetLed | SmartHomeIoT/raspberry-pi/led_server.py:66-77 | the LED takes the state and the change is stamped |
| LedServer.SetLedIdempotent | SmartHomeIoT/raspberry-pi/led_server.py:66-77 | setting the same state twice is setting it once, up to the stamp |
| LedServer.GetLed | SmartHomeIoT/raspberry-pi/led_server.py:211-219 | 200 with "ON" exactly when the LED is on, "OFF" exactly when it is off, and `is_on` matching |
| LedServer.CommandSpellings | SmartHomeIoT/raspberry-pi/led_server.py:229-235 | a string `state` is accepted as on or off exactly for the spellings that upper-case to "ON" or "OFF" |
| LedServer.PostLed | SmartHomeIoT/raspberry-pi/led_server.py:221-245 | invalid JSON, a missing `state` or another value gives 400 with the matching error text ("Invalid JSON", the missing-field text, or the ON/OFF text when a dict has a `state` that is not a command) and leaves the LED unchanged; 500 exactly when the handler raises: on a truthy number or boolean (the membership test), or on a list or string containing "state" (the subscript `data['state']`); an accepted command sets the LED and echoes the state |
| LedServer.PowerCommandAccepted | SmartHomeIoT/raspberry-pi/led_server.py:221-245 | the body the app and the checker send is accepted and sets the LED to that state |
| ScheduleForm.ToggleDay | SmartHomeIoT/src/screens/Schedule/AddScheduleScreen.js:74-82 | a selected day leaves the selection, an unselected one is appended, and every other day keeps its membership |
| ScheduleForm.ToggleDayTwice | SmartHomeIoT/src/screens/Schedule/AddScheduleScreen.js:74-82 | toggling a day twice restores the selected set, and restores the list exactly when the day was not selected |
| ScheduleForm.ToggleDayKeepsDistinct | SmartHomeIoT/src/screens/Schedule/AddScheduleScreen.js:74-82 | toggling never introduces a repeated day |
| ScheduleForm.SelectAllDays | SmartHomeIoT/src/screens/Schedule/AddScheduleScreen.js:85-91 | seven selected days clear; any other selection becomes all seven keys, Monday first |
| ScheduleForm.SelectAllTwice | SmartHomeIoT/src/screens/Schedule/AddScheduleScreen.js:85-91 | pressing "select all" twice from a partial selection clears it |
| ScheduleForm.FormatTime | SmartHomeIoT/src/screens/Schedule/AddScheduleScreen.js:59-63 | a valid time renders as zero-padded "HH:MM"; an invalid date renders as "NaN:NaN" |
| ScheduleForm.ParseNumber | SmartHomeIoT/src/screens/Schedule/AddScheduleScreen.js:43 | `Number(part)` gives a number exactly for an all-digit part |
| ScheduleForm.ParseNumberOfPad2 | SmartHomeIoT/src/screens/Schedule/AddScheduleScreen.js:43 | a two-digit field such as the form writes reads back as the number it was made from |
| ScheduleForm.InitialTime | SmartHomeIoT/src/screens/Schedule/AddScheduleScreen.js:42-50 | without a saved time the form starts at the current time; the result is always a well-formed time |
| ScheduleForm.InitialTimeOfFormatted | SmartHomeIoT/src/screens/Schedule/AddScheduleScreen.js:42-63 | opening a saved "HH:MM" in the form shows that same hour and minute |
| ScheduleForm.OnTimeChange | SmartHomeIoT/src/screens/Schedule/AddScheduleScreen.js:66-71 | a picked time replaces the time; a dismissed picker keeps it |
| ScheduleForm.InitialForm | SmartHomeIoT/src/screens/Schedule/AddScheduleScreen.js:42-55 | rendering an edit fails exactly when the stored `time` is truthy but not a string (it has no `split`); a new form starts at "ON" with no days; an edit opens at the time parsed from a string `time` and at now for a falsy one, and starts from the schedule's truthy action (else "ON"), from its `repeat` days when that is a list of strings, and from no days when `repeat` is missing or falsy |
| ScheduleForm.SetAction | SmartHomeIoT/src/screens/Schedule/AddScheduleScreen.js:173-196 | the action buttons set "ON" or "OFF" and leave time and days alone |
| ScheduleForm.EnabledFlag | SmartHomeIoT/src/screens/Schedule/AddScheduleScreen.js:107 | `enabled` is the edited schedule's non-null flag, and true otherwise |
| ScheduleForm.Payload | SmartHomeIoT/src/screens/Schedule/AddScheduleScreen.js:103-109 | the payload holds exactly time, action, repeat, enabled and `deviceId` "led-1" |
| ScheduleForm.Request | SmartHomeIoT/src/screens/Schedule/AddScheduleScreen.js:111-115 | an edit updates the existing id, a new schedule is added, both with the payload |
| ScheduleForm.HandleSaveAsWritten | SmartHomeIoT/src/screens/Schedule/AddScheduleScreen.js:94-124 | signed out: the sign-in alert and nothing sent; signed in: the request goes through the named service method, and a failure shows the fixed message |
| ScheduleForm.AsWrittenNeverSaves | SmartHomeIoT/src/screens/Schedule/AddScheduleScreen.js:111-115 | as written, saving never succeeds |
| ScheduleForm.HandleSave | SmartHomeIoT/src/screens/Schedule/AddScheduleScreen.js:94-124 | signed out: nothing is sent; otherwise the request is saved exactly when the remote write succeeds, and a failure shows the one fixed message "Không thể lưu lịch hẹn. Vui lòng thử lại." |
| ScheduleForm.SaveKeepsEnabledAndTime | SmartHomeIoT/src/screens/Schedule/AddScheduleScreen.js:42-109 | editing keeps the schedule's `enabled` flag and time; a new schedule is enabled |
| ScheduleList.LoadSchedules | SmartHomeIoT/src/screens/Schedule/ScheduleScreen.js:34-51 | signed out: an empty list; otherwise the `getSchedules` read of the user's schedules: the listing, or [] on a failed read |
| ScheduleList.SetEnabled | SmartHomeIoT/src/screens/Schedule/ScheduleScreen.js:77-81 | `enabled` flips on the schedules with that id only, and the length is kept |
| ScheduleList.ToggleItemAsWritten | SmartHomeIoT/src/screens/Schedule/ScheduleScreen.js:71-85 | the list flips only if the named service call succeeds; otherwise it is kept and the alert shows |
| ScheduleList.ToggleAsWrittenNeverApplies | SmartHomeIoT/src/screens/Schedule/ScheduleScreen.js:71-85 | as written, the switch never changes the list and always alerts |
| ScheduleList.ToggleItem | SmartHomeIoT/src/screens/Schedule/ScheduleScreen.js:71-85 | the list flips exactly when the remote update succeeds; on failure it is unchanged and the alert shows |
| ScheduleList.ToggleTwiceRestores | SmartHomeIoT/src/screens/Schedule/ScheduleScreen.js:71-85 | two successful flips restore every schedule |
| ScheduleList.WithoutId | SmartHomeIoT/src/screens/Schedule/ScheduleScreen.js:100 | exactly the schedules with that id leave the list: a subsequence whose length is the original less the number of matching items, so every other item stays, in order and with its multiplicity |
| ScheduleList.DeleteItemAsWritten | SmartHomeIoT/src/screens/Schedule/ScheduleScreen.js:97-104 | as written, the schedule leaves the list whatever the database replied |
| ScheduleList.DeleteAsWrittenIgnoresFailure | SmartHomeIoT/src/screens/Schedule/ScheduleScreen.js:97-104 | a delete the database refused still shortens the list and shows no alert |
| ScheduleList.DeleteItem | SmartHomeIoT/src/screens/Schedule/ScheduleScreen.js:88-108 | the schedule leaves the list exactly when the database removed it; a refusal keeps it and alerts |
| ScheduleList.DayLabel | SmartHomeIoT/src/screens/Schedule/ScheduleScreen.js:115-125 | a known day key shows its label, and an unknown token shows as itself |
| ScheduleList.DayMapAgreesWithForm | SmartHomeIoT/src/screens/Schedule/ScheduleScreen.js:116-124 | the list's day labels are the form's, key for key |
| ScheduleList.FormatRepeatDays | SmartHomeIoT/src/screens/Schedule/ScheduleScreen.js:111-126 | once for none, daily for seven, otherwise the labels joined by ", " |
| ScheduleList.FormatFormSelections | SmartHomeIoT/src/screens/Schedule/ScheduleScreen.js:111-126 | "select all" shows daily, pressing it again shows once, and a single day shows its label |
| AuthForms.Trim | SmartHomeIoT/src/screens/Auth/LoginScreen.js:33 | `trim()` leaves no white space at either end |
| AuthForms.TrimIsSlice | SmartHomeIoT/src/screens/Auth/LoginScreen.js:33 | `trim()` returns a slice of the text with only white space cut from its two ends |
| AuthForms.TrimEmptyIffBlank | SmartHomeIoT/src/screens/Auth/LoginScreen.js:33 | trimming leaves nothing exactly when the text is all white space |
| AuthForms.TestEmail | SmartHomeIoT/src/screens/Auth/LoginScreen.js:35 | a single scan decides `/\S+@\S+\.\S+/.test(s)` |
| AuthForms.ExampleEmails | SmartHomeIoT/src/screens/Auth/LoginScreen.js:35 | the pattern accepts "user@example.com" and an address inside text, and refuses "user@example" and "@example.com" |
| AuthForms.Utf16Length | SmartHomeIoT/src/screens/Auth/LoginScreen.js:41 | `length` counts one or two units per character |
| AuthForms.EmailError | SmartHomeIoT/src/screens/Auth/LoginScreen.js:33-37 | blank gives the required error, a malformed email the invalid error, and no error exactly otherwise |
| AuthForms.PasswordError | SmartHomeIoT/src/screens/Auth/LoginScreen.js:39-43 | empty gives the required error, under six units the short error, and no error exactly otherwise |
| AuthForms.LoginErrors | SmartHomeIoT/src/screens/Auth/LoginScreen.js:30-47 | an email or password error is recorded exactly when that field fails, and none exactly when both pass |
| AuthForms.RegisterErrors | SmartHomeIoT/src/screens/Auth/RegisterScreen.js:32-57 | each of name, email, password and confirmation has an error exactly when its own check fails, independently |
| AuthForms.RegistrableCanSignIn | SmartHomeIoT/src/screens/Auth/RegisterScreen.js:32-57 | a form sign-up accepts passes the sign-in and reset checks too |
| AuthForms.RefusalText | SmartHomeIoT/src/screens/Auth/LoginScreen.js:53-54 | an alert shows exactly for a refused request, with its error or the default text |
| AuthForms.HandleLogin | SmartHomeIoT/src/screens/Auth/LoginScreen.js:49-56 | `login` is called exactly for valid input; otherwise the errors are shown |
| AuthForms.HandleRegister | SmartHomeIoT/src/screens/Auth/RegisterScreen.js:59-66 | `register` is called exactly for valid input; otherwise the errors are shown |
| AuthForms.OnEmailChange | SmartHomeIoT/src/screens/Auth/ForgotPasswordScreen.js:106-109 | typing replaces the email and clears the error |
| AuthForms.HandleResetPassword | SmartHomeIoT/src/screens/Auth/ForgotPasswordScreen.js:29-64 | an invalid email only sets its error and sends nothing; the success flag is set only after a valid email's reset succeeded |
| Settings.LoadServerUrls | SmartHomeIoT/src/context/DeviceContext.js:68-83 | a stored non-empty address replaces the current one; a failed read changes nothing |
| Settings.SaveUrl | SmartHomeIoT/src/screens/Settings/SettingsScreen.js:41-57 | an address without `http://`/`https://` is refused with nothing changed; otherwise exactly the targeted address changes in memory, and in storage only when the write completes; the success alert shows either way, and only a completed LED-server write schedules a re-check |
| Settings.SavedUrlsAreWebUrls | SmartHomeIoT/src/screens/Settings/SettingsScreen.js:41-57 | only web addresses are ever stored |
| Settings.SaveThenLoad | SmartHomeIoT/src/context/DeviceContext.js:68-83 | an accepted address whose write completed survives a restart and the other is unaffected; a refused one, or one whose write failed, changes nothing a restart loads |
| Settings.TestConnectionAlert | SmartHomeIoT/src/screens/Settings/SettingsScreen.js:59-66 | a success alert exactly when the connection check passed |
| Settings.StatusLabel | SmartHomeIoT/src/screens/Settings/SettingsScreen.js:185-186 | connected, connecting and disconnected each have their own label |
| Settings.TestConnectionAgreesWithLabel | SmartHomeIoT/src/screens/Settings/SettingsScreen.js:59-66 | a test shows "connecting", then "connected" exactly when the Pi answered OK, which is exactly when the alert reports success |
| Sync.SavedDeviceIsListed | SmartHomeIoT/src/services/firebase/databaseService.js:34-75 | a device saved by `saveDevice` is listed by `getDevices` as that same device |
| Sync.FormTimeIsCheckerTime | SmartHomeIoT/src/screens/Schedule/AddScheduleScreen.js:59-63 | the form's "HH:MM" is the text the checker's clock produces for the same minute |
| Sync.FormScheduleFiresAtItsTime | SmartHomeIoT/raspberry-pi/schedule_checker.py:142-162 | an enabled form schedule fires at its minute: once a day with no days, exactly on the selected days otherwise |
| Sync.FormScheduleQuietOtherwise | SmartHomeIoT/raspberry-pi/schedule_checker.py:147-148 | a form schedule never fires at any other minute |
| Sync.OnceLabelMatchesChecker | SmartHomeIoT/src/screens/Schedule/ScheduleScreen.js:111-126 | the list shows "once" exactly when the Pi treats the schedule as one-time |
| Sync.ContextScheduleIgnoresSwitch | SmartHomeIoT/src/context/ScheduleContext.js:59-98 | a schedule stored through ScheduleContext is one-time on the Pi and fires at its time whatever its `isEnabled` and `repeatDays` say |

## Left out

- Network and timing: `fetch`, `AbortController`, the 8 s, 5 s and 500 ms
  timeouts, and the Pi's `time.sleep` loop. Each attempt, probe or
  pause is an abstract outcome or counter, and the clocks are parameters.
- Storage and backends: AsyncStorage and the Firebase SDK are replaced by
  injected outcomes for every read, every database write, the rooms cache
  write after a remote load, the schedule cache writes of a run of changes,
  and the server-address writes. The other AsyncStorage writes (the device,
  room and schedule caches after a single change, and the theme) are effects
  naming what is written, with no outcome: a failure is only logged and
  changes no in-memory state. Fire-and-forget writes, React state batching and stale
  closures are not modelled; `isToggling` is a plain state field.
- `camera_server.py`, the camera screens, `messagingService.js`,
  `localNotifications.js`, `authService.js` and `AuthContext.js`. These are
  hardware, streaming and thin wrappers over FCM, Notifee and Firebase Auth.
- The rendering screens, navigation, `App.js`, styles and `config.js`. These
  hold no state rules of their own.
- The LED server's Flask routing, GPIO, `gpio_lock`, HTML page and `/health`
  handler. Only the request rules and the LED state are modelled.
- `getUserProfile` and `saveUserProfile` (databaseService.js:349-380). The
  core does not use them.
- Devices.ToggleDevice: requires that the environment supplies an outcome
  for each of the three possible attempts (`|attempts| > 2`). Unused
  outcomes are ignored.
- Database.Subscribed: requires a signed-in user. With nobody signed in,
  `getUid` throws before the listener is attached, and the contexts only
  subscribe when signed in.
- ScheduleForm.ParseNumber: models `Number()` only for runs of decimal
  digits. Signs, white space, hex and exponents are left out, because the
  text it parses is a saved "HH:MM".
- LedServer.StateText: abstracts `str()` of a non-string. Such a value is
  never "ON" or "OFF" after `upper()`, and it yields no command.
- LedServer.UpperChar: covers ASCII letters and U+FB00 (the one character
  whose upper case can form "OFF"). Other characters map to themselves,
  because they cannot produce "ON" or "OFF".
- ScheduleForm.InitialTime: models JavaScript `Date` only as a time of day or
  an invalid date. The date part, time zones and daylight saving are left
  out.
- ScheduleList.FormatRepeatDays: takes a missing `repeat` or a list of
  strings. A non-list `repeat`, a list holding a non-string (`[1, null]`
  shows as "1, "), and `dayMap` lookups of `Object.prototype` keys such as
  "constructor" are left out.
- Database.AddDeviceHistory: the trim reads keys in push order. That order
  equals `orderByChild('timestamp')` for entries stamped by the server
  clock.
- Listing order: children enumerate in insertion order. Firebase lists them
  by key, so a device saved under `device-<timestamp>` is listed before
  `led-1` there but after it here. Push ids agree with both.
- JSON numbers are integers. Fractions, NaN and infinities are left out, so
  the difference between JavaScript (NaN is falsy) and Python (NaN is
  truthy) does not arise.
- ScheduleForm.InitialForm: a `repeat` that is a truthy non-list, or a list
  holding a non-string, starts the form with no days, where
  `existingSchedule?.repeat || []` keeps the value and a save writes it
  back. The form's day list is modelled as a list of strings.
- ScheduleChecker.PassPostsFiring: assumes pairwise distinct ids. The
  executed-today dict is keyed by `id` alone, and two users may own
  schedules with the same key. A mark made earlier in the pass then
  silences a later one-time schedule with that id, which `RunPass` models
  but this lemma does not describe.
- Loading flags: `isLoading` is modelled where an operation ends it. The
  `finally` ordering around awaited calls is not.
- `handleNotificationAction` and `subscribeToScheduleAlerts`. These only log
  or subscribe to FCM topics.

## Findings

| source | as written | input that shows it | evidently intended | confidence | as-written member | corrected member |
|---|---|---|---|---|---|---|
| SmartHomeIoT/src/screens/Schedule/AddScheduleScreen.js:111-115 | calls `firebaseDatabase.updateSchedule` / `addSchedule`, neither of which the service defines; the `TypeError` lands in the `catch` | any signed-in save, new or edited | write the schedule through the service and report success | not executed | ScheduleForm.AsWrittenNeverSaves | ScheduleForm.HandleSave |
| SmartHomeIoT/src/screens/Schedule/ScheduleScreen.js:71-85 | calls `firebaseDatabase.updateSchedule`, which the service does not define | any flip of a schedule's switch | update the flag remotely, then flip it in the list | not executed | ScheduleList.ToggleAsWrittenNeverApplies | ScheduleList.ToggleItem |
| SmartHomeIoT/src/screens/Schedule/ScheduleScreen.js:97-104 | awaits `deleteSchedule`, which reports failure as `{success:false}` instead of throwing, then removes the schedule without looking at the reply | a confirmed delete while the database refuses the write | keep the schedule and show the delete-failed alert when the reply is a failure | not executed | ScheduleList.DeleteAsWrittenIgnoresFailure | ScheduleList.DeleteItem |

=== FILE: auth_forms.dfy ===
/** The input checks of the sign-in, sign-up and password-reset screens
    (src/screens/Auth/LoginScreen.js, RegisterScreen.js and
    ForgotPasswordScreen.js): the trimmed-emptiness test, the email pattern
    `/\S+@\S+\.\S+/`, the password length, and what each screen does with a
    form that passes or fails them. The authentication calls are inputs. */
module AuthForms {
  import opened Common
  import opened Database

  // ---------------------------------------------------------------------
  // White space and trimming

  /** JavaScript's `\s`, which is also what `String.prototype.trim` removes:
      the ASCII spaces and line breaks, no-break space, the Unicode space
      separators, the line and paragraph separators and the byte-order
      mark. */
  predicate IsSpace(c: char) {
    || c == '\t' || c == '\n' || c == '\U{B}' || c == '\U{C}' || c == '\r' || c == ' '
    || c == '\U{A0}' || c == '\U{1680}' || ('\U{2000}' <= c <= '\U{200A}')
    || c == '\U{2028}' || c == '\U{2029}' || c == '\U{202F}' || c == '\U{205F}'
    || c == '\U{3000}' || c == '\U{FEFF}'
  }

  predicate Blank(s: string) {
    forall i :: 0 <= i < |s| ==> IsSpace(s[i])
  }

  /** `s.trim()`: `s` without its leading and trailing white space. */
  function Trim(s: string): (r: string)
    ensures r == "" || (!IsSpace(r[0]) && !IsSpace(r[|r| - 1]))
    ensures |r| <= |s|
    decreases |s|
  {
    if |s| > 0 && IsSpace(s[0]) then Trim(s[1..])
    else if |s| > 0 && IsSpace(s[|s| - 1]) then Trim(s[..|s| - 1])
    else s
  }

  /** `s[i..j]` is `s` with its leading and trailing white space cut off. */
  predicate TrimmedSlice(s: string, i: nat, j: nat) {
    i <= j <= |s| && Blank(s[..i]) && Blank(s[j..])
  }

  /** Trimming only cuts white space off the two ends: the result is a
      slice of `s` with nothing but white space around it. */
  lemma {:induction false} TrimIsSlice(s: string)
    ensures exists i: nat, j: nat :: TrimmedSlice(s, i, j) && Trim(s) == s[i..j]
    decreases |s|
  {
    if |s| > 0 && IsSpace(s[0]) {
      TrimIsSlice(s[1..]);
      var i: nat, j: nat :| TrimmedSlice(s[1..], i, j) && Trim(s[1..]) == s[1..][i..j];
      SliceAfterSpace(s, i, j);
    } else if |s| > 0 && IsSpace(s[|s| - 1]) {
      TrimIsSlice(s[..|s| - 1]);
      var i: nat, j: nat :| TrimmedSlice(s[..|s| - 1], i, j) && Trim(s[..|s| - 1]) == s[..|s| - 1][i..j];
      SliceBeforeSpace(s, i, j);
    } else {
      assert TrimmedSlice(s, 0, |s|) && s == s[0..|s|];
    }
  }

  /** A white-space character in front keeps a trimmed slice trimmed. */
  lemma SliceAfterSpace(s: string, i: nat, j: nat)
    requires |s| > 0 && IsSpace(s[0]) && TrimmedSlice(s[1..], i, j)
    ensures TrimmedSlice(s, i + 1, j + 1) && s[1..][i..j] == s[i + 1..j + 1]
  {
    assert s[..i + 1] == [s[0]] + s[1..][..i];
    assert s[j + 1..] == s[1..][j..];
  }

  /** A white-space character at the end keeps a trimmed slice trimmed. */
  lemma SliceBeforeSpace(s: string, i: nat, j: nat)
    requires |s| > 0 && IsSpace(s[|s| - 1]) && TrimmedSlice(s[..|s| - 1], i, j)
    ensures TrimmedSlice(s, i, j) && s[..|s| - 1][i..j] == s[i..j]
  {
    assert s[..i] == s[..|s| - 1][..i];
    assert forall k :: 0 <= k < |s| - 1 - j ==> s[j..][k] == s[..|s| - 1][j..][k];
  }

  /** Trimming leaves nothing exactly when the text is all white space. */
  lemma {:induction false} TrimEmptyIffBlank(s: string)
    ensures Trim(s) == "" <==> Blank(s)
    decreases |s|
  {
    if |s| > 0 && IsSpace(s[0]) {
      TrimEmptyIffBlank(s[1..]);
      assert Blank(s) <==> Blank(s[1..]) by {
        assert forall i :: 1 <= i < |s| ==> s[i] == s[1..][i - 1];
      }
    } else if |s| > 0 && IsSpace(s[|s| - 1]) {
      TrimEmptyIffBlank(s[..|s| - 1]);
      assert !Blank(s) && !Blank(s[..|s| - 1]) by {
        assert s[..|s| - 1][0] == s[0];
      }
    }
  }

  // ---------------------------------------------------------------------
  // The email pattern

  /** `/\S+@\S+\.\S+/` matches with its `@` at `p` and its `.` at `q`: a
      non-space before the `@`, only non-spaces (at least one) between the
      two, and a non-space after the `.`. The pattern is not anchored, so
      anything may surround the match. */
  predicate MatchAt(s: string, p: int, q: int) {
    && 1 <= p && p + 1 < q && q + 1 < |s|
    && !IsSpace(s[p - 1]) && s[p] == '@' && s[q] == '.' && !IsSpace(s[q + 1])
    && forall k :: p < k < q ==> !IsSpace(s[k])
  }

  /** `/\S+@\S+\.\S+/.test(s)`. */
  predicate EmailShape(s: string) {
    exists p, q | 0 <= p < |s| && 0 <= q < |s| :: MatchAt(s, p, q)
  }

  /** The test as a single left-to-right scan: for each `@` preceded by a
      non-space, walk the run of non-spaces after it looking for a `.` that
      is followed by a non-space. */
  method TestEmail(s: string) returns (b: bool)
    ensures b == EmailShape(s)
  {
    var p := 1;
    while p < |s|
      invariant 1 <= p
      invariant forall p', q' :: 1 <= p' < p ==> !MatchAt(s, p', q')
      decreases |s| - p
    {
      if s[p] == '@' && !IsSpace(s[p - 1]) {
        var q := p + 1;
        while q < |s| && !IsSpace(s[q])
          invariant p + 1 <= q <= |s|
          invariant forall k :: p < k < q ==> !IsSpace(s[k])
          invariant forall q' :: q' < q ==> !MatchAt(s, p, q')
          decreases |s| - q
        {
          if s[q] == '.' && q > p + 1 && q + 1 < |s| && !IsSpace(s[q + 1]) {
            assert MatchAt(s, p, q);
            return true;
          }
          q := q + 1;
        }
        forall q' | q <= q'
          ensures !MatchAt(s, p, q')
        {
          if q < q' && q' + 1 < |s| {
            assert IsSpace(s[q]);
          }
        }
      }
      p := p + 1;
    }
    return false;
  }

  lemma ExampleEmails()
    ensures EmailShape("user@example.com")
    ensures EmailShape("see a@b.c here")
    ensures !EmailShape("user@example")
    ensures !EmailShape("@example.com")
  {
    assert MatchAt("user@example.com", 4, 12);
    assert MatchAt("see a@b.c here", 5, 7);
    var s := "user@example";
    forall p, q | 0 <= p < |s| && 0 <= q < |s| ensures !MatchAt(s, p, q) {
    }
    var t := "@example.com";
    forall p, q | 0 <= p < |t| && 0 <= q < |t| ensures !MatchAt(t, p, q) {
    }
  }

  // ---------------------------------------------------------------------
  // Field checks

  const EmailMissingText: string := "Vui lòng nhập email"
  const EmailInvalidText: string := "Email không hợp lệ"
  const PasswordMissingText: string := "Vui lòng nhập mật khẩu"
  const PasswordShortText: string := "Mật khẩu phải có ít nhất 6 ký tự"
  const NameMissingText: string := "Vui lòng nhập tên hiển thị"
  const ConfirmMismatchText: string := "Mật khẩu xác nhận không khớp"

  const MinPasswordLength: nat := 6

  /** `password.length`: UTF-16 code units, so a character outside the
      Basic Multilingual Plane counts twice. */
  function Utf16Length(s: string): (n: nat)
    ensures |s| <= n <= 2 * |s|
  {
    if |s| == 0 then 0 else (if s[0] as int >= 0x1_0000 then 2 else 1) + Utf16Length(s[1..])
  }

  /** The email field's error, if any. */
  function EmailError(email: string): (e: Option<string>)
    ensures e.None? <==> !Blank(email) && EmailShape(email)
    ensures Blank(email) ==> e == Some(EmailMissingText)
    ensures !Blank(email) && !EmailShape(email) ==> e == Some(EmailInvalidText)
  {
    TrimEmptyIffBlank(email);
    if Trim(email) == "" then Some(EmailMissingText)
    else if !EmailShape(email) then Some(EmailInvalidText)
    else None
  }

  /** The password field's error, if any (the password is not trimmed). */
  function PasswordError(password: string): (e: Option<string>)
    ensures e.None? <==> Utf16Length(password) >= MinPasswordLength
    ensures password == "" ==> e == Some(PasswordMissingText)
    ensures password != "" && Utf16Length(password) < MinPasswordLength ==> e == Some(PasswordShortText)
  {
    if password == "" then Some(PasswordMissingText)
    else if Utf16Length(password) < MinPasswordLength then Some(PasswordShortText)
    else None
  }

  /** `newErrors`: the field name of each failing check and its message. */
  type Errors = map<string, string>

  function Put(errors: Errors, field: string, e: Option<string>): (r: Errors)
    ensures e.None? ==> r == errors
    ensures e.Some? ==> r == errors[field := e.value]
  {
    if e.Some? then errors[field := e.value] else errors
  }

  /** LoginScreen's `validate()`. */
  function LoginErrors(email: string, password: string): (errors: Errors)
    ensures errors.Keys <= {"email", "password"}
    ensures "email" in errors <==> EmailError(email).Some?
    ensures "password" in errors <==> PasswordError(password).Some?
    ensures errors == map[] <==> !Blank(email) && EmailShape(email) && Utf16Length(password) >= MinPasswordLength
  {
    Put(Put(map[], "email", EmailError(email)), "password", PasswordError(password))
  }

  /** RegisterScreen's `validate()`: the sign-in checks, a non-blank display
      name and a matching confirmation. */
  function RegisterErrors(displayName: string, email: string, password: string, confirmPassword: string): (errors: Errors)
    ensures errors.Keys <= {"displayName", "email", "password", "confirmPassword"}
    ensures "displayName" in errors <==> Blank(displayName)
    ensures "confirmPassword" in errors <==> password != confirmPassword
    ensures "email" in errors <==> EmailError(email).Some?
    ensures "password" in errors <==> PasswordError(password).Some?
    ensures errors == map[] <==>
      && !Blank(displayName) && !Blank(email) && EmailShape(email)
      && Utf16Length(password) >= MinPasswordLength && password == confirmPassword
  {
    TrimEmptyIffBlank(displayName);
    var nameError := if Trim(displayName) == "" then Some(NameMissingText) else None;
    var confirmError := if password != confirmPassword then Some(ConfirmMismatchText) else None;
    var errors := Put(Put(Put(Put(map[], "displayName", nameError), "email", EmailError(email)), "password", PasswordError(password)),
                      "confirmPassword", confirmError);
    assert nameError.Some? ==> "displayName" in errors;
    assert EmailError(email).Some? ==> "email" in errors;
    assert PasswordError(password).Some? ==> "password" in errors;
    errors
  }

  /** The three screens agree: a form the sign-up screen accepts has
      credentials the sign-in screen accepts and an email the reset screen
      accepts. */
  lemma RegistrableCanSignIn(displayName: string, email: string, password: string, confirmPassword: string)
    requires RegisterErrors(displayName, email, password, confirmPassword) == map[]
    ensures LoginErrors(email, password) == map[]
    ensures EmailError(email).None?
  {
  }

  // ---------------------------------------------------------------------
  // Submitting

  /** What pressing the button does: shows the field errors and sends
      nothing, or sends the request and shows an alert when it is refused. */
  datatype Submitted = ShowErrors(errors: Errors) | Sent(alert: Option<string>)

  /** The alert for a refused request: its error, or the screen's default
      when that is empty. */
  function RefusalText(reply: Reply, default: string): (t: Option<string>)
    ensures reply.Success? <==> t.None?
    ensures reply.Failure? && reply.error != "" ==> t == Some(reply.error)
    ensures reply.Failure? && reply.error == "" ==> t == Some(default)
  {
    match reply
    case Success => None
    case Failure(e) => Some(if e != "" then e else default)
  }

  /** `handleLogin()`: `login(email, password)` is called only for a valid
      form; `reply` is its result. */
  function HandleLogin(email: string, password: string, reply: Reply): (r: Submitted)
    ensures r.Sent? <==> !Blank(email) && EmailShape(email) && Utf16Length(password) >= MinPasswordLength
    ensures r.ShowErrors? ==> r.errors == LoginErrors(email, password) && r.errors != map[]
    ensures r.Sent? ==> r.alert == RefusalText(reply, "Không thể đăng nhập")
  {
    var errors := LoginErrors(email, password);
    if errors != map[] then ShowErrors(errors) else Sent(RefusalText(reply, "Không thể đăng nhập"))
  }

  /** `handleRegister()`: `register(email, password, displayName)` is called
      only for a valid form. */
  function HandleRegister(displayName: string, email: string, password: string, confirmPassword: string, reply: Reply): (r: Submitted)
    ensures r.Sent? <==>
      && !Blank(displayName) && !Blank(email) && EmailShape(email)
      && Utf16Length(password) >= MinPasswordLength && password == confirmPassword
    ensures r.ShowErrors? ==> r.errors == RegisterErrors(displayName, email, password, confirmPassword)
    ensures r.Sent? ==> r.alert == RefusalText(reply, "Không thể đăng ký")
  {
    var errors := RegisterErrors(displayName, email, password, confirmPassword);
    if errors != map[] then ShowErrors(errors) else Sent(RefusalText(reply, "Không thể đăng ký"))
  }

  // ---------------------------------------------------------------------
  // Password reset

  /** ForgotPasswordScreen's state: the email, the error under it, and
      whether the reset mail was sent. */
  datatype ResetForm = ResetForm(email: string, error: string, success: bool)

  /** Typing in the email field replaces it and clears the error. */
  function OnEmailChange(f: ResetForm, text: string): (r: ResetForm)
    ensures r.email == text && r.error == "" && r.success == f.success
  {
    f.(email := text, error := "")
  }

  /** `handleResetPassword()`: an invalid email only sets the error; a
      valid one clears it and sends the reset, and `success` is set exactly
      when `reply` says so. The returned alert is the one a refusal shows. */
  function HandleResetPassword(f: ResetForm, reply: Reply): (r: (ResetForm, Option<string>))
    ensures EmailError(f.email).Some? ==> r == (f.(error := EmailError(f.email).value), None)
    ensures EmailError(f.email).None? ==>
      && r.0 == f.(error := "", success := f.success || reply.Success?)
      && r.1 == RefusalText(reply, "Không thể gửi email đặt lại mật khẩu")
    ensures r.0.success && !f.success ==> !Blank(f.email) && EmailShape(f.email) && reply.Success?
  {
    match EmailError(f.email)
    case Some(e) => (f.(error := e), None)
    case None =>
      var sent := f.(error := "");
      match reply
      case Success => (sent.(success := true), None)
      case Failure(_) => (sent, RefusalText(reply, "Không thể gửi email đặt lại mật khẩu"))
  }
}

=== FILE: common.dfy ===
/** Small shared vocabulary: optional values, the outcome of one I/O step,
    and decimal rendering of numbers (as JavaScript's template strings and
    `toString()` produce it for non-negative integers). */
module Common {

  datatype Option<+T> = None | Some(value: T) {
    function GetOr(default: T): T {
      match this
      case Some(v) => v
      case None => default
    }
  }

  /** The outcome of one awaited call into code outside the model
      (a Firebase request, an AsyncStorage write, an HTTP request):
      it either completes or rejects with an error message. */
  datatype Outcome = Done | Fails(message: string)

  /** What a local-storage read (`AsyncStorage.getItem` then `JSON.parse`)
      yields: nothing stored (`null` or the empty string), text that does not
      parse, or a parsed list. */
  datatype CacheEntry<T> = Absent | Unreadable | Stored(items: seq<T>)

  /** The text a power state travels as: the LED command body, the LED
      server's reply and the history entry's `action`. */
  function PowerText(on: bool): (t: string)
    ensures t == "ON" || t == "OFF"
    ensures (t == "ON") == on
  {
    if on then "ON" else "OFF"
  }

  predicate IsDigit(c: char) {
    '0' <= c <= '9'
  }

  function DigitChar(d: nat): (c: char)
    requires d < 10
    ensures IsDigit(c)
  {
    "0123456789"[d]
  }

  function DigitValue(c: char): nat
    requires IsDigit(c)
  {
    (c as int - '0' as int) as nat
  }

  /** Decimal text of a natural number, without leading zeros. */
  function NatToString(n: nat): (s: string)
    ensures |s| >= 1
    ensures forall i :: 0 <= i < |s| ==> IsDigit(s[i])
    ensures n >= 10 ==> s[0] != '0'
    decreases n
  {
    if n < 10 then [DigitChar(n)] else NatToString(n / 10) + [DigitChar(n % 10)]
  }

  /** Value of a string of decimal digits; the empty string is 0. */
  function DigitsValue(s: string): nat
    requires forall i :: 0 <= i < |s| ==> IsDigit(s[i])
  {
    if |s| == 0 then 0 else 10 * DigitsValue(s[..|s| - 1]) + DigitValue(s[|s| - 1])
  }

  lemma {:induction false} NatToStringRoundTrip(n: nat)
    ensures DigitsValue(NatToString(n)) == n
    decreases n
  {
    if n >= 10 {
      var s := NatToString(n);
      assert s[..|s| - 1] == NatToString(n / 10);
      NatToStringRoundTrip(n / 10);
    }
  }

  /** Different numbers never render to the same text. */
  lemma NatToStringInjective(a: nat, b: nat)
    requires NatToString(a) == NatToString(b)
    ensures a == b
  {
    NatToStringRoundTrip(a);
    NatToStringRoundTrip(b);
  }

  /** Two-digit decimal text with a leading zero (`strftime("%H")`,
      `String(n).padStart(2, '0')`). */
  function Pad2(n: nat): (s: string)
    requires n < 100
    ensures |s| == 2 && IsDigit(s[0]) && IsDigit(s[1])
    ensures DigitsValue(s) == n
  {
    var s := [DigitChar(n / 10), DigitChar(n % 10)];
    assert s[..1] == NatToString(n / 10);
    NatToStringRoundTrip(n / 10);
    s
  }

  /** A time of day as "HH:MM" (`strftime("%H:%M")` in Python, two
      `padStart(2, '0')` fields in JavaScript). */
  function HourMinuteText(hour: nat, minute: nat): (t: string)
    requires hour < 24 && minute < 60
    ensures |t| == 5 && t[2] == ':'
    ensures forall i :: 0 <= i < 5 && i != 2 ==> IsDigit(t[i])
    ensures t[..2] == Pad2(hour) && t[3..] == Pad2(minute)
    ensures DigitsValue(t[..2]) == hour && DigitsValue(t[3..]) == minute
  {
    var t := Pad2(hour) + ":" + Pad2(minute);
    assert t[..2] == Pad2(hour) && t[3..] == Pad2(minute);
    t
  }

  /** `sub` occurs in `s` as a contiguous piece (Python's `in` on strings). */
  predicate IsInfix<T(==)>(sub: seq<T>, s: seq<T>) {
    exists i: nat :: i <= |s| && OccursAt(sub, s, i)
  }

  predicate OccursAt<T(==)>(sub: seq<T>, s: seq<T>, i: nat) {
    i + |sub| <= |s| && s[i..i + |sub|] == sub
  }

  /** `parts.join(sep)`. */
  function JoinWith(parts: seq<string>, sep: string): string
    decreases |parts|
  {
    if |parts| == 0 then ""
    else if |parts| == 1 then parts[0]
    else parts[0] + sep + JoinWith(parts[1..], sep)
  }

  /** `s.split(sep)` for a one-character separator: the pieces between the
      separators, which joined back give `s`. */
  function Split(s: string, sep: char): (parts: seq<string>)
    ensures |parts| >= 1
    ensures JoinWith(parts, [sep]) == s
    ensures forall i :: 0 <= i < |parts| ==> sep !in parts[i]
    ensures sep !in s ==> parts == [s]
    decreases |s|
  {
    match FindFirst(s, (c: char) => c == sep)
    case None => [s]
    case Some(i) =>
      var rest := Split(s[i + 1..], sep);
      assert sep !in s[..i] by {
        forall j | 0 <= j < i ensures s[..i][j] != sep { }
      }
      assert s == s[..i] + [sep] + s[i + 1..];
      [s[..i]] + rest
  }

  predicate StartsWith(s: string, prefix: string) {
    |prefix| <= |s| && s[..|prefix|] == prefix
  }

  /** The number of elements of `s` that satisfy `p`. */
  function CountWhere<T>(s: seq<T>, p: T -> bool): (n: nat)
    ensures n <= |s|
  {
    if |s| == 0 then 0 else (if p(s[0]) then 1 else 0) + CountWhere(s[1..], p)
  }

  /** Counting over `s` followed by `x` adds one exactly when `x` counts. */
  lemma {:induction false} CountWhereSnoc<T>(s: seq<T>, x: T, p: T -> bool)
    ensures CountWhere(s + [x], p) == CountWhere(s, p) + (if p(x) then 1 else 0)
  {
    if |s| > 0 {
      assert (s + [x])[1..] == s[1..] + [x];
      CountWhereSnoc(s[1..], x, p);
    } else {
      assert (s + [x])[1..] == [];
    }
  }

  /** `sub` is `s` with some elements left out and the rest kept in order. */
  predicate IsSubsequence<T(==)>(sub: seq<T>, s: seq<T>)
    decreases |s|
  {
    if |sub| == 0 then true
    else if |s| == 0 then false
    else if sub[0] == s[0] then IsSubsequence(sub[1..], s[1..])
    else IsSubsequence(sub, s[1..])
  }

  /** `s.filter(x => !p(x))` keeps the elements that do not satisfy `p`, in order. */
  function FilterOut<T(==)>(s: seq<T>, p: T -> bool): (r: seq<T>)
    ensures |r| == |s| - CountWhere(s, p)
    ensures IsSubsequence(r, s)
    ensures forall i :: 0 <= i < |r| ==> r[i] in s && !p(r[i])
    ensures forall i :: 0 <= i < |s| && !p(s[i]) ==> s[i] in r
  {
    if |s| == 0 then []
    else
      var rest := FilterOut(s[1..], p);
      if p(s[0]) then
        assert |rest| > 0 ==> !p(rest[0]);
        rest
      else
        assert ([s[0]] + rest)[1..] == rest;
        [s[0]] + rest
  }

  /** A sequence with an element satisfying `p` has a positive count. */
  lemma {:induction false} CountPositive<T>(s: seq<T>, p: T -> bool, i: nat)
    requires i < |s| && p(s[i])
    ensures CountWhere(s, p) > 0
  {
    if i > 0 {
      CountPositive(s[1..], p, i - 1);
    }
  }

  /** Filtering out what nothing satisfies changes nothing. */
  lemma {:induction false} FilterOutNoMatch<T>(s: seq<T>, p: T -> bool)
    requires forall i :: 0 <= i < |s| ==> !p(s[i])
    ensures FilterOut(s, p) == s
  {
    if |s| > 0 {
      FilterOutNoMatch(s[1..], p);
      assert s == [s[0]] + s[1..];
    }
  }

  /** An appended element that is filtered out leaves no trace. */
  lemma {:induction false} FilterOutAppendMatch<T>(s: seq<T>, x: T, p: T -> bool)
    requires p(x)
    ensures FilterOut(s + [x], p) == FilterOut(s, p)
  {
    if |s| == 0 {
      assert [x][1..] == [];
    } else {
      assert (s + [x])[1..] == s[1..] + [x];
      FilterOutAppendMatch(s[1..], x, p);
    }
  }

  /** `s.findIndex(p)`: the position of the first element satisfying `p`. */
  function FindFirst<T>(s: seq<T>, p: T -> bool): (r: Option<nat>)
    ensures r.Some? ==> r.value < |s| && p(s[r.value]) && forall j :: 0 <= j < r.value ==> !p(s[j])
    ensures r.None? ==> forall j :: 0 <= j < |s| ==> !p(s[j])
  {
    if |s| == 0 then None
    else if p(s[0]) then Some(0)
    else
      match FindFirst(s[1..], p)
      case None => None
      case Some(k) => Some(k + 1)
  }
}

=== FILE: database.dfy ===
/** The realtime-database service of src/services/firebase/databaseService.js.
    The database is four trees, one per top-level path (`devices`, `rooms`,
    `schedules`, `deviceHistory`), each holding one node per user id whose
    children are the user's records. Every network request the service makes
    is an injected `Outcome`; the server clock (`ServerValue.TIMESTAMP`) and
    the key `push()` generates are injected values. */
module Database {
  import opened Common
  import opened Json
  import opened Entities
  import opened Listing

  /** One top-level path: user id -> that user's records. */
  type Tree = Node<Node<Obj>>

  predicate ValidTree(t: Tree) {
    t.Valid() && forall u :: u in t.children ==> t.children[u].Valid()
  }

  datatype Db = Db(devices: Tree, rooms: Tree, schedules: Tree, deviceHistory: Tree) {
    predicate Valid() {
      ValidTree(devices) && ValidTree(rooms) && ValidTree(schedules) && ValidTree(deviceHistory)
    }
  }

  /** The signed-in user's id (`auth().currentUser.uid`), or `None`. */
  type Session = Option<string>

  /** `{success: true}` or `{success: false, error}`. */
  datatype Reply = Success | Failure(error: string)

  const NotAuthenticated: string := "User not authenticated"

  /** Entries kept in a user's device history after every append. */
  const HistoryCap: nat := 100

  /** The records of user `uid` (an absent node reads as an empty one). */
  function UserNode(t: Tree, uid: string): (n: Node<Obj>)
    requires ValidTree(t)
    ensures n.Valid()
    ensures uid !in t.children ==> n.order == []
  {
    if uid in t.children then t.children[uid] else EmptyNode()
  }

  /** Replaces user `uid`'s node, leaving every other user's node as it was. */
  function PutUserNode(t: Tree, uid: string, n: Node<Obj>): (r: Tree)
    requires ValidTree(t) && n.Valid()
    ensures ValidTree(r)
    ensures UserNode(r, uid) == n
    ensures forall u :: u != uid ==> UserNode(r, u) == UserNode(t, u)
  {
    Put(t, uid, n)
  }

  // ---------------------------------------------------------------------
  // Snapshot -> list

  /** A read of one user's collection (`getDevices`, `getRooms`,
      `getSchedules`): every failure, including a missing user, reads as []. */
  function ReadList(t: Tree, session: Session, io: Outcome): (r: seq<Obj>)
    requires ValidTree(t)
    ensures session.None? || io.Fails? ==> r == []
    ensures session.Some? && io.Done? ==> r == SnapshotList(UserNode(t, session.value))
  {
    match session
    case None => []
    case Some(uid) => if io.Fails? then [] else SnapshotList(UserNode(t, uid))
  }

  /** What a subscription callback receives for user `uid`'s collection.
      The subscribe functions call `getUid()` outside their `try`, so they
      demand a signed-in user. */
  function Subscribed(t: Tree, session: Session): (r: seq<Obj>)
    requires ValidTree(t)
    requires session.Some?
    ensures r == ReadList(t, session, Done)
    ensures |r| == |UserNode(t, session.value).order|
  {
    SnapshotList(UserNode(t, session.value))
  }

  // ---------------------------------------------------------------------
  // Point writes

  datatype Written<T> = Written(state: T, reply: Reply)

  /** `ref(path/uid/key).set(value)`: on success the record at `key` is
      `value` and nothing else changes; every failure leaves the tree as it
      was and is reported, never thrown. */
  function SetRecord(t: Tree, session: Session, key: string, value: Obj, io: Outcome): (r: Written<Tree>)
    requires ValidTree(t)
    ensures ValidTree(r.state)
    ensures session.None? ==> r == Written(t, Failure(NotAuthenticated))
    ensures session.Some? && io.Fails? ==> r == Written(t, Failure(io.message))
    ensures session.Some? && io.Done? ==>
      && r.reply == Success
      && UserNode(r.state, session.value).children == UserNode(t, session.value).children[key := value]
      && (forall u :: u != session.value ==> UserNode(r.state, u) == UserNode(t, u))
  {
    match session
    case None => Written(t, Failure(NotAuthenticated))
    case Some(uid) =>
      if io.Fails? then Written(t, Failure(io.message))
      else Written(PutUserNode(t, uid, Put(UserNode(t, uid), key, value)), Success)
  }

  /** `ref(path/uid/key).update(fields)`: merges `fields` into the record at
      `key` (creating it when absent). */
  function UpdateRecord(t: Tree, session: Session, key: string, fields: Obj, io: Outcome): (r: Written<Tree>)
    requires ValidTree(t)
    ensures ValidTree(r.state)
    ensures session.None? ==> r == Written(t, Failure(NotAuthenticated))
    ensures session.Some? && io.Fails? ==> r == Written(t, Failure(io.message))
    ensures session.Some? && io.Done? ==>
      var before := UserNode(t, session.value).children;
      && r.reply == Success
      && UserNode(r.state, session.value).children
         == before[key := (if key in before then before[key] else map[]) + fields]
      && (forall u :: u != session.value ==> UserNode(r.state, u) == UserNode(t, u))
  {
    match session
    case None => Written(t, Failure(NotAuthenticated))
    case Some(uid) =>
      if io.Fails? then Written(t, Failure(io.message))
      else
        var n := UserNode(t, uid);
        var current := if key in n.children then n.children[key] else map[];
        Written(PutUserNode(t, uid, Put(n, key, current + fields)), Success)
  }

  /** `ref(path/uid/key).remove()`: only the record at `key` goes. */
  function RemoveRecord(t: Tree, session: Session, key: string, io: Outcome): (r: Written<Tree>)
    requires ValidTree(t)
    ensures ValidTree(r.state)
    ensures session.None? ==> r == Written(t, Failure(NotAuthenticated))
    ensures session.Some? && io.Fails? ==> r == Written(t, Failure(io.message))
    ensures session.Some? && io.Done? ==>
      && r.reply == Success
      && UserNode(r.state, session.value).children == UserNode(t, session.value).children - {key}
      && UserNode(r.state, session.value).order == Without(UserNode(t, session.value).order, key)
      && (forall u :: u != session.value ==> UserNode(r.state, u) == UserNode(t, u))
  {
    match session
    case None => Written(t, Failure(NotAuthenticated))
    case Some(uid) =>
      if io.Fails? then Written(t, Failure(io.message))
      else Written(PutUserNode(t, uid, Remove(UserNode(t, uid), key)), Success)
  }

  /** Removing a record just set under a fresh key gives every user back
      exactly the records they had. */
  lemma RemoveUndoesSet(t: Tree, uid: string, key: string, value: Obj)
    requires ValidTree(t) && key !in UserNode(t, uid).children
    ensures var set1 := SetRecord(t, Some(uid), key, value, Done);
      var removed := RemoveRecord(set1.state, Some(uid), key, Done);
      && set1.reply == Success && removed.reply == Success
      && forall u :: UserNode(removed.state, u) == UserNode(t, u)
  {
    RemoveAfterPut(UserNode(t, uid), key, value);
  }

  // ---------------------------------------------------------------------
  // Devices

  /** The record `saveDevice` writes: the device plus the server's `updatedAt`. */
  function StoredDevice(d: Device, serverNow: int): Obj {
    DeviceToObj(d)["updatedAt" := JNum(serverNow)]
  }

  function GetDevices(db: Db, session: Session, io: Outcome): seq<Obj>
    requires db.Valid()
  {
    ReadList(db.devices, session, io)
  }

  /** `saveDevice`: overwrites the record at the device's id; the other
      trees are untouched. */
  function SaveDevice(db: Db, session: Session, d: Device, serverNow: int, io: Outcome): (r: Written<Db>)
    requires db.Valid()
    ensures r.state.Valid()
    ensures r.state == db.(devices := r.state.devices)
    ensures SetRecord(db.devices, session, d.id, StoredDevice(d, serverNow), io) == Written(r.state.devices, r.reply)
  {
    var w := SetRecord(db.devices, session, d.id, StoredDevice(d, serverNow), io);
    Written(db.(devices := w.state), w.reply)
  }

  /** `deleteDevice`: removes only the record at `deviceId`. */
  function DeleteDevice(db: Db, session: Session, deviceId: string, io: Outcome): (r: Written<Db>)
    requires db.Valid()
    ensures r.state.Valid()
    ensures r.state == db.(devices := r.state.devices)
    ensures RemoveRecord(db.devices, session, deviceId, io) == Written(r.state.devices, r.reply)
  {
    var w := RemoveRecord(db.devices, session, deviceId, io);
    Written(db.(devices := w.state), w.reply)
  }

  // ---------------------------------------------------------------------
  // Device history

  /** The entry `addDeviceHistory` pushes. */
  function HistoryEntry(deviceId: string, isOn: bool, serverNow: int): Obj {
    map["deviceId" := JStr(deviceId), "action" := JStr(PowerText(isOn)),
        "timestamp" := JNum(serverNow)]
  }

  /** Keeps only the newest `HistoryCap` entries, dropping the oldest
      `|order| - HistoryCap` keys in one update. */
  function TrimHistory(n: Node<Obj>): (r: Node<Obj>)
    requires n.Valid()
    ensures r.Valid()
    ensures |r.order| == if |n.order| > HistoryCap then HistoryCap else |n.order|
    ensures r.order == n.order[|n.order| - |r.order|..]
    ensures forall k :: k in r.children ==> k in n.children && r.children[k] == n.children[k]
  {
    if |n.order| > HistoryCap then DropOldest(n, |n.order| - HistoryCap) else n
  }

  /** `addDeviceHistory`: pushes one entry under the fresh key `pushKey`,
      then trims. `append` is the outcome of the push, `trim` of the read
      and update that trim; a failed trim leaves the pushed entry in place. */
  function AddDeviceHistory(db: Db, session: Session, deviceId: string, isOn: bool, serverNow: int,
                            pushKey: string, append: Outcome, trim: Outcome): (r: Written<Db>)
    requires db.Valid()
    ensures r.state.Valid()
    ensures r.state == db.(deviceHistory := r.state.deviceHistory)
    ensures session.None? ==> r == Written(db, Failure(NotAuthenticated))
    ensures session.Some? && append.Fails? ==> r == Written(db, Failure(append.message))
    ensures session.Some? && append.Done? ==>
      var before := UserNode(db.deviceHistory, session.value);
      var pushed := Put(before, pushKey, HistoryEntry(deviceId, isOn, serverNow));
      && UserNode(r.state.deviceHistory, session.value) == (if trim.Done? then TrimHistory(pushed) else pushed)
      && r.reply == (if trim.Done? then Success else Failure(trim.message))
      && (forall u :: u != session.value ==> UserNode(r.state.deviceHistory, u) == UserNode(db.deviceHistory, u))
  {
    match session
    case None => Written(db, Failure(NotAuthenticated))
    case Some(uid) =>
      if append.Fails? then Written(db, Failure(append.message))
      else
        var pushed := Put(UserNode(db.deviceHistory, uid), pushKey, HistoryEntry(deviceId, isOn, serverNow));
        if trim.Fails? then
          Written(db.(deviceHistory := PutUserNode(db.deviceHistory, uid, pushed)), Failure(trim.message))
        else
          Written(db.(deviceHistory := PutUserNode(db.deviceHistory, uid, TrimHistory(pushed))), Success)
  }

  /** After a successful append and trim under a fresh push key, the user's
      history holds at most `HistoryCap` entries and the newest of them is
      the entry just pushed. */
  lemma HistoryKeepsNewest(db: Db, uid: string, deviceId: string, isOn: bool, serverNow: int, pushKey: string)
    requires db.Valid() && pushKey !in UserNode(db.deviceHistory, uid).children
    ensures var h := UserNode(AddDeviceHistory(db, Some(uid), deviceId, isOn, serverNow, pushKey, Done, Done).state.deviceHistory, uid);
      && 0 < |h.order| <= HistoryCap
      && h.order[|h.order| - 1] == pushKey
      && h.children[pushKey] == HistoryEntry(deviceId, isOn, serverNow)
  {
    var before := UserNode(db.deviceHistory, uid);
    var r := AddDeviceHistory(db, Some(uid), deviceId, isOn, serverNow, pushKey, Done, Done);
    assert UserNode(r.state.deviceHistory, uid) == TrimHistory(Put(before, pushKey, HistoryEntry(deviceId, isOn, serverNow)));
    TrimAfterPush(before, pushKey, HistoryEntry(deviceId, isOn, serverNow));
  }

  lemma TrimAfterPush(n: Node<Obj>, k: string, v: Obj)
    requires n.Valid() && k !in n.children
    ensures var r := TrimHistory(Put(n, k, v));
      0 < |r.order| <= HistoryCap && r.order[|r.order| - 1] == k && k in r.children && r.children[k] == v
  {
    var pushed := Put(n, k, v);
    var r := TrimHistory(pushed);
    assert pushed.order[|pushed.order| - 1] == k;
    assert r.order[|r.order| - 1] == pushed.order[|pushed.order| - 1];
    assert k in r.children;
  }

  /** `getDeviceHistory(limit)`: the last `limit` entries, newest first.
      Firebase rejects a non-positive `limitToLast`, which the service
      catches like every other failure. */
  function GetDeviceHistory(db: Db, session: Session, limit: nat, io: Outcome): (r: seq<Obj>)
    requires db.Valid()
    ensures |r| <= limit
    ensures session.None? || io.Fails? || limit == 0 ==> r == []
    ensures session.Some? && io.Done? ==> r == NewestFirst(UserNode(db.deviceHistory, session.value), limit)
  {
    match session
    case None => []
    case Some(uid) =>
      if io.Fails? || limit == 0 then [] else NewestFirst(UserNode(db.deviceHistory, uid), limit)
  }

  /** `updateDeviceState`: merges `{isOn, lastUpdated}` into that device's
      record, then logs one history entry. The history call reports its own
      failures instead of throwing, so they do not fail the update. */
  function UpdateDeviceState(db: Db, session: Session, deviceId: string, isOn: bool, serverNow: int,
                             pushKey: string, update: Outcome, append: Outcome, trim: Outcome): (r: Written<Db>)
    requires db.Valid()
    ensures r.state.Valid()
    ensures r.state.rooms == db.rooms && r.state.schedules == db.schedules
    ensures session.None? ==> r == Written(db, Failure(NotAuthenticated))
    ensures session.Some? && update.Fails? ==> r == Written(db, Failure(update.message))
    ensures session.Some? && update.Done? ==>
      var fields := map["isOn" := JBool(isOn), "lastUpdated" := JNum(serverNow)];
      var updated := UpdateRecord(db.devices, session, deviceId, fields, update).state;
      && r.reply == Success
      && r.state.devices == updated
      && r.state.deviceHistory
         == AddDeviceHistory(db.(devices := updated), session, deviceId, isOn, serverNow, pushKey, append, trim).state.deviceHistory
  {
    match session
    case None => Written(db, Failure(NotAuthenticated))
    case Some(uid) =>
      if update.Fails? then Written(db, Failure(update.message))
      else
        var fields := map["isOn" := JBool(isOn), "lastUpdated" := JNum(serverNow)];
        var db1 := db.(devices := UpdateRecord(db.devices, session, deviceId, fields, update).state);
        var logged := AddDeviceHistory(db1, session, deviceId, isOn, serverNow, pushKey, append, trim);
        Written(logged.state, Success)
  }

  // ---------------------------------------------------------------------
  // Rooms and schedules

  function GetRooms(db: Db, session: Session, io: Outcome): seq<Obj>
    requires db.Valid()
  {
    ReadList(db.rooms, session, io)
  }

  /** `saveRoom`: writes the room as it is (no `updatedAt`). */
  function SaveRoom(db: Db, session: Session, room: Room, io: Outcome): (r: Written<Db>)
    requires db.Valid()
    ensures r.state.Valid()
    ensures r.state == db.(rooms := r.state.rooms)
    ensures SetRecord(db.rooms, session, room.id, RoomToObj(room), io) == Written(r.state.rooms, r.reply)
  {
    var w := SetRecord(db.rooms, session, room.id, RoomToObj(room), io);
    Written(db.(rooms := w.state), w.reply)
  }

  function DeleteRoom(db: Db, session: Session, roomId: string, io: Outcome): (r: Written<Db>)
    requires db.Valid()
    ensures r.state.Valid()
    ensures r.state == db.(rooms := r.state.rooms)
    ensures RemoveRecord(db.rooms, session, roomId, io) == Written(r.state.rooms, r.reply)
  {
    var w := RemoveRecord(db.rooms, session, roomId, io);
    Written(db.(rooms := w.state), w.reply)
  }

  function GetSchedules(db: Db, session: Session, io: Outcome): seq<Obj>
    requires db.Valid()
  {
    ReadList(db.schedules, session, io)
  }

  /** The record `saveSchedule` writes: the schedule plus `updatedAt`. */
  function StoredSchedule(s: Schedule, serverNow: int): Obj {
    ScheduleToObj(s)["updatedAt" := JNum(serverNow)]
  }

  function SaveSchedule(db: Db, session: Session, s: Schedule, serverNow: int, io: Outcome): (r: Written<Db>)
    requires db.Valid()
    ensures r.state.Valid()
    ensures r.state == db.(schedules := r.state.schedules)
    ensures SetRecord(db.schedules, session, s.id, StoredSchedule(s, serverNow), io) == Written(r.state.schedules, r.reply)
  {
    var w := SetRecord(db.schedules, session, s.id, StoredSchedule(s, serverNow), io);
    Written(db.(schedules := w.state), w.reply)
  }

  function DeleteSchedule(db: Db, session: Session, scheduleId: string, io: Outcome): (r: Written<Db>)
    requires db.Valid()
    ensures r.state.Valid()
    ensures r.state == db.(schedules := r.state.schedules)
    ensures RemoveRecord(db.schedules, session, scheduleId, io) == Written(r.state.schedules, r.reply)
  {
    var w := RemoveRecord(db.schedules, session, scheduleId, io);
    Written(db.(schedules := w.state), w.reply)
  }

  // ---------------------------------------------------------------------
  // The calls the contexts make

  /** The names `firebaseDatabase` defines (the exported object's keys). */
  const ServiceMethods: set<string> := {
    "getDevicesRef", "getDevices", "saveDevice", "updateDeviceState", "deleteDevice", "subscribeToDevices",
    "addDeviceHistory", "getDeviceHistory", "getRooms", "saveRoom", "deleteRoom", "getSchedules",
    "saveSchedule", "deleteSchedule", "subscribeToSchedules", "getUserProfile", "saveUserProfile"
  }

  /** Calling `firebaseDatabase[name](...)` from a screen: a defined method
      completes as `remote` says; an undefined one is `undefined` and calling
      it throws a `TypeError`. */
  function Invoke(name: string, remote: Outcome): (r: Outcome)
    ensures name in ServiceMethods ==> r == remote
    ensures name !in ServiceMethods ==> r.Fails?
  {
    if name in ServiceMethods then remote else Fails("firebaseDatabase." + name + " is not a function")
  }

  /** One service call a context issues after a local change. */
  datatype Call =
    | SaveDeviceCall(device: Device)
    | UpdateDeviceStateCall(deviceId: string, isOn: bool)
    | DeleteDeviceCall(deviceId: string)
    | SaveRoomCall(room: Room)
    | DeleteRoomCall(roomId: string)
    | SaveScheduleCall(schedule: Schedule)
    | DeleteScheduleCall(scheduleId: string)

  /** What a context operation does besides changing its own state: the
      list it writes under its local-cache key (if any) and the service
      calls it issues, in order. */
  datatype Effects<T> = Effects(saved: Option<seq<T>>, calls: seq<Call>)

  /** What the server and network do with one call: the server clock, the
      push key, and the outcome of each request the call makes. */
  datatype Env = Env(serverNow: int, pushKey: string, first: Outcome, append: Outcome, trim: Outcome)

  function Perform(db: Db, session: Session, call: Call, env: Env): (r: Written<Db>)
    requires db.Valid()
    ensures r.state.Valid()
  {
    match call
    case SaveDeviceCall(d) => SaveDevice(db, session, d, env.serverNow, env.first)
    case UpdateDeviceStateCall(id, on) =>
      UpdateDeviceState(db, session, id, on, env.serverNow, env.pushKey, env.first, env.append, env.trim)
    case DeleteDeviceCall(id) => DeleteDevice(db, session, id, env.first)
    case SaveRoomCall(room) => SaveRoom(db, session, room, env.first)
    case DeleteRoomCall(id) => DeleteRoom(db, session, id, env.first)
    case SaveScheduleCall(s) => SaveSchedule(db, session, s, env.serverNow, env.first)
    case DeleteScheduleCall(id) => DeleteSchedule(db, session, id, env.first)
  }

  /** Every call made without a signed-in user fails with a reply and changes
      nothing: no service operation lets `getUid`'s error escape. */
  lemma PerformUnauthenticated(db: Db, call: Call, env: Env)
    requires db.Valid()
    ensures Perform(db, None, call, env) == Written(db, Failure(NotAuthenticated))
  {
  }
}

=== FILE: devices.dfy ===
/** The device store of src/context/DeviceContext.js: the in-memory device
    list, the connection indicator and the single-flight guard of the LED
    command. Requests to the Raspberry Pi are an injected sequence of HTTP
    outcomes, `Date.now()` an injected clock, and the local cache a
    `CacheEntry`. Each operation reports the list it writes to the local
    cache and the service calls it issues (see `Database.Call`). */
module Devices {
  import opened Common
  import opened Entities
  import opened Database

  datatype ConnStatus = Disconnected | Connecting | Connected

  datatype DeviceState = DeviceState(
    devices: seq<Device>,
    isLoading: bool,
    connectionStatus: ConnStatus,
    isToggling: bool)

  /** The provider's state before any effect has run. */
  const Initial: DeviceState := DeviceState([], true, Disconnected, false)

  const NoEffects: Effects<Device> := Effects(None, [])

  /** A state change together with its side effects. */
  datatype Step = Step(state: DeviceState, effects: Effects<Device>)

  const BusyText: string := "Đang xử lý..."
  const NotFoundText: string := "Device not found"
  const ToggleFailedText: string := "Không thể điều khiển thiết bị"

  /** Retries after the first attempt: three attempts in all. */
  const MaxRetries: nat := 2

  /** The default device list; `loadedAt` is the `Date.now()` taken when the
      module was loaded. */
  function DefaultDevices(loadedAt: int): (ds: seq<Device>)
    ensures |ds| == 1 && ds[0].id == "led-1" && !ds[0].isOn && ds[0].isOnline
  {
    [Device("led-1", "Đèn LED", "light", "living-room", false, 100, true, loadedAt)]
  }

  // ---------------------------------------------------------------------
  // HTTP

  /** What one `fetch` to the Pi gives: a response with a status, or a
      thrown error (network failure, abort after the timeout). */
  datatype HttpOutcome = Response(status: nat) | Thrown(message: string)

  /** `response.ok`. */
  predicate Ok(h: HttpOutcome) {
    h.Response? && 200 <= h.status <= 299
  }

  /** The `message` of the error an unsuccessful attempt ends with. */
  function ErrorMessage(h: HttpOutcome): (m: string)
    requires !Ok(h)
    ensures h.Response? ==> StartsWith(m, "HTTP error ") && |m| > |"HTTP error "|
  {
    match h
    case Response(status) => "HTTP error " + NatToString(status)
    case Thrown(message) => message
  }

  /** `lastError?.message || 'Không thể điều khiển thiết bị'`. */
  function FailureText(h: HttpOutcome): (t: string)
    requires !Ok(h)
    ensures t != ""
    ensures ErrorMessage(h) != "" ==> t == ErrorMessage(h)
    ensures ErrorMessage(h) == "" ==> t == ToggleFailedText
  {
    var m := ErrorMessage(h);
    if m == "" then ToggleFailedText else m
  }

  // ---------------------------------------------------------------------
  // Lookups and list updates keyed by id

  /** `devices.find(d => d.id === deviceId)`, as a position. */
  function FindDevice(ds: seq<Device>, id: string): (r: Option<nat>)
    ensures r.Some? ==> r.value < |ds| && ds[r.value].id == id && forall j :: 0 <= j < r.value ==> ds[j].id != id
    ensures r.None? ==> forall j :: 0 <= j < |ds| ==> ds[j].id != id
  {
    FindFirst(ds, (d: Device) => d.id == id)
  }

  /** The success branch of `toggleDevice`: every device with that id gets
      the new power state and the clock; only those two fields change. */
  function SetPower(ds: seq<Device>, id: string, on: bool, now: int): (r: seq<Device>)
    ensures |r| == |ds|
    ensures forall i :: 0 <= i < |ds| && ds[i].id != id ==> r[i] == ds[i]
    ensures forall i :: 0 <= i < |ds| && ds[i].id == id ==>
      r[i].isOn == on && r[i].lastUpdated == now && r[i].(isOn := ds[i].isOn, lastUpdated := ds[i].lastUpdated) == ds[i]
  {
    seq(|ds|, i requires 0 <= i < |ds| => if ds[i].id == id then ds[i].(isOn := on, lastUpdated := now) else ds[i])
  }

  /** `updateDeviceBrightness`'s map: only `brightness` and `lastUpdated` of
      the matching devices change. */
  function SetBrightness(ds: seq<Device>, id: string, brightness: int, now: int): (r: seq<Device>)
    ensures |r| == |ds|
    ensures forall i :: 0 <= i < |ds| && ds[i].id != id ==> r[i] == ds[i]
    ensures forall i :: 0 <= i < |ds| && ds[i].id == id ==>
      r[i].brightness == brightness && r[i].lastUpdated == now
      && r[i].(brightness := ds[i].brightness, lastUpdated := ds[i].lastUpdated) == ds[i]
  {
    seq(|ds|, i requires 0 <= i < |ds| => if ds[i].id == id then ds[i].(brightness := brightness, lastUpdated := now) else ds[i])
  }

  /** Of two power changes to the same id, the later one decides. */
  lemma SetPowerLastWins(ds: seq<Device>, id: string, a: bool, b: bool, t1: int, t2: int)
    ensures SetPower(SetPower(ds, id, a, t1), id, b, t2) == SetPower(ds, id, b, t2)
  {
  }

  /** A successful toggle followed by a successful toggle back restores the
      device's power state; only its time stamp differs, and no other device
      changes. */
  lemma ToggleBackRestores(ds: seq<Device>, id: string, t1: int, t2: int)
    requires FindDevice(ds, id).Some?
    ensures var i := FindDevice(ds, id).value;
      var on := ds[i].isOn;
      var back := SetPower(SetPower(ds, id, !on, t1), id, on, t2);
      && |back| == |ds|
      && back[i] == ds[i].(lastUpdated := t2)
      && forall j :: 0 <= j < |ds| && ds[j].id != id ==> back[j] == ds[j]
  {
    var i := FindDevice(ds, id).value;
    SetPowerLastWins(ds, id, !ds[i].isOn, ds[i].isOn, t1, t2);
  }

  // ---------------------------------------------------------------------
  // toggleDevice

  datatype ToggleResult = Toggled(state: bool) | NotToggled(error: string)

  /** `toggleDevice(deviceId)`. `attempts[k]` is what the k-th POST to
      `/led` gives; `sent` are the `state` values the POSTs carry, and
      `pauses` the 500 ms waits between attempts. */
  method ToggleDevice(s: DeviceState, deviceId: string, authenticated: bool, now: int, attempts: seq<HttpOutcome>)
      returns (result: ToggleResult, step: Step, sent: seq<string>, pauses: nat)
    requires |attempts| > MaxRetries
    ensures s.isToggling ==>
      result == NotToggled(BusyText) && step == Step(s, NoEffects) && sent == [] && pauses == 0
    ensures !s.isToggling && FindDevice(s.devices, deviceId).None? ==>
      result == NotToggled(NotFoundText) && step == Step(s, NoEffects) && sent == [] && pauses == 0
    ensures !s.isToggling && FindDevice(s.devices, deviceId).Some? ==>
      var target := !s.devices[FindDevice(s.devices, deviceId).value].isOn;
      && 1 <= |sent| <= MaxRetries + 1
      && (forall k :: 0 <= k < |sent| ==> sent[k] == PowerText(target))
      && (forall k :: 0 <= k < |sent| - 1 ==> !Ok(attempts[k]))
      && pauses == |sent| - 1
      && !step.state.isToggling
      && step.state.isLoading == s.isLoading
      && (Ok(attempts[|sent| - 1]) ==>
            && result == Toggled(target)
            && step.state.devices == SetPower(s.devices, deviceId, target, now)
            && step.state.connectionStatus == Connected
            && step.effects.saved == Some(step.state.devices)
            && step.effects.calls == (if authenticated then [UpdateDeviceStateCall(deviceId, target)] else []))
      && (!Ok(attempts[|sent| - 1]) ==>
            && |sent| == MaxRetries + 1
            && result == NotToggled(FailureText(attempts[MaxRetries]))
            && step == Step(s.(isToggling := false), NoEffects))
  {
    if s.isToggling {
      return NotToggled(BusyText), Step(s, NoEffects), [], 0;
    }
    var found := FindDevice(s.devices, deviceId);
    if found.None? {
      return NotToggled(NotFoundText), Step(s, NoEffects), [], 0;
    }
    var target := !s.devices[found.value].isOn;
    var body := PowerText(target);
    sent := [];
    pauses := 0;
    var attempt: nat := 0;
    while attempt <= MaxRetries
      invariant attempt <= MaxRetries + 1
      invariant |sent| == attempt
      invariant forall k :: 0 <= k < attempt ==> sent[k] == body && !Ok(attempts[k])
      invariant pauses == (if attempt == 0 then 0 else attempt - 1)
      invariant attempt == MaxRetries + 1 ==> pauses == MaxRetries
      decreases MaxRetries + 1 - attempt
    {
      if attempt > 0 {
        pauses := pauses + 1;
      }
      sent := sent + [body];
      if Ok(attempts[attempt]) {
        var updated := SetPower(s.devices, deviceId, target, now);
        var calls := if authenticated then [UpdateDeviceStateCall(deviceId, target)] else [];
        var state := s.(devices := updated, connectionStatus := Connected, isToggling := false);
        return Toggled(target), Step(state, Effects(Some(updated), calls)), sent, pauses;
      }
      attempt := attempt + 1;
    }
    result := NotToggled(FailureText(attempts[MaxRetries]));
    step := Step(s.(isToggling := false), NoEffects);
  }

  // ---------------------------------------------------------------------
  // checkConnection

  /** The statuses `checkConnection` sets, in order, and what it returns. */
  datatype Checked = Checked(trace: seq<ConnStatus>, state: DeviceState, reachable: bool)

  /** `checkConnection()` with `probe` the outcome of `GET /health`. */
  function CheckConnection(s: DeviceState, probe: HttpOutcome): (r: Checked)
    ensures |r.trace| == 2 && r.trace[0] == Connecting && r.trace[1] == r.state.connectionStatus
    ensures r.reachable <==> Ok(probe)
    ensures r.state.connectionStatus == Connected <==> r.reachable
    ensures r.state.connectionStatus != Connecting
    ensures r.state.(connectionStatus := s.connectionStatus) == s
  {
    var final := if Ok(probe) then Connected else Disconnected;
    Checked([Connecting, final], s.(connectionStatus := final), Ok(probe))
  }

  // ---------------------------------------------------------------------
  // List operations

  /** The fields `addDevice` takes from its argument; an empty `id` is
      falsy and gets replaced. */
  datatype DeviceDraft = DeviceDraft(id: string, name: string, deviceType: string, room: string)

  function GeneratedDeviceId(now: nat): string {
    "device-" + NatToString(now)
  }

  /** The device `addDevice` builds: the draft's id or `device-<now>`, off,
      full brightness, offline, stamped `now`. */
  function NewDevice(draft: DeviceDraft, now: nat): (d: Device)
    ensures d.id == (if draft.id != "" then draft.id else GeneratedDeviceId(now))
    ensures d.name == draft.name && d.deviceType == draft.deviceType && d.room == draft.room
    ensures !d.isOn && d.brightness == 100 && !d.isOnline && d.lastUpdated == now
  {
    Device(if draft.id != "" then draft.id else GeneratedDeviceId(now),
           draft.name, draft.deviceType, draft.room, false, 100, false, now)
  }

  /** Ids generated at different instants differ. */
  lemma GeneratedDeviceIdsDistinct(a: nat, b: nat)
    requires a != b
    ensures GeneratedDeviceId(a) != GeneratedDeviceId(b)
  {
    var p := "device-";
    if GeneratedDeviceId(a) == GeneratedDeviceId(b) {
      assert NatToString(a) == GeneratedDeviceId(a)[|p|..];
      assert NatToString(b) == GeneratedDeviceId(b)[|p|..];
      NatToStringInjective(a, b);
    }
  }

  /** `addDevice(device)`: exactly one device is appended; the others stay
      as they were, in order. */
  function AddDevice(s: DeviceState, draft: DeviceDraft, now: nat, authenticated: bool): (r: Step)
    ensures |r.state.devices| == |s.devices| + 1
    ensures r.state.devices[..|s.devices|] == s.devices
    ensures r.state.devices[|s.devices|] == NewDevice(draft, now)
    ensures r.state.(devices := s.devices) == s
    ensures r.effects.saved == Some(r.state.devices)
    ensures r.effects.calls == (if authenticated then [SaveDeviceCall(NewDevice(draft, now))] else [])
  {
    var d := NewDevice(draft, now);
    var devices := s.devices + [d];
    Step(s.(devices := devices), Effects(Some(devices), if authenticated then [SaveDeviceCall(d)] else []))
  }

  /** `removeDevice(deviceId)`: exactly the devices with that id go. */
  function RemoveDevice(s: DeviceState, deviceId: string, authenticated: bool): (r: Step)
    ensures forall i :: 0 <= i < |r.state.devices| ==> r.state.devices[i].id != deviceId && r.state.devices[i] in s.devices
    ensures forall i :: 0 <= i < |s.devices| && s.devices[i].id != deviceId ==> s.devices[i] in r.state.devices
    ensures |r.state.devices| == |s.devices| - CountWhere(s.devices, (d: Device) => d.id == deviceId)
    ensures IsSubsequence(r.state.devices, s.devices)
    ensures r.state.(devices := s.devices) == s
    ensures r.effects.saved == Some(r.state.devices)
    ensures r.effects.calls == (if authenticated then [DeleteDeviceCall(deviceId)] else [])
  {
    var devices := FilterOut(s.devices, (d: Device) => d.id == deviceId);
    Step(s.(devices := devices), Effects(Some(devices), if authenticated then [DeleteDeviceCall(deviceId)] else []))
  }

  /** Removing a device just added under a fresh id gives back the state
      before the add. */
  lemma RemoveUndoesAdd(s: DeviceState, draft: DeviceDraft, now: nat, authenticated: bool)
    requires forall i :: 0 <= i < |s.devices| ==> s.devices[i].id != NewDevice(draft, now).id
    ensures var added := AddDevice(s, draft, now, authenticated).state;
      RemoveDevice(added, NewDevice(draft, now).id, authenticated).state == s
  {
    var d := NewDevice(draft, now);
    var added := AddDevice(s, draft, now, authenticated).state;
    assert added.devices == s.devices + [d];
    FilterOutAppendMatch(s.devices, d, (x: Device) => x.id == d.id);
    FilterOutNoMatch(s.devices, (x: Device) => x.id == d.id);
  }

  /** `updateDeviceBrightness(deviceId, brightness)`: the updated device is
      saved remotely when signed in and the id is known. */
  function UpdateDeviceBrightness(s: DeviceState, deviceId: string, brightness: int, now: int, authenticated: bool): (r: Step)
    ensures r.state.devices == SetBrightness(s.devices, deviceId, brightness, now)
    ensures r.state.(devices := s.devices) == s
    ensures r.effects.saved == Some(r.state.devices)
    ensures |r.effects.calls| <= 1
    ensures |r.effects.calls| == 1 <==> authenticated && FindDevice(s.devices, deviceId).Some?
    ensures |r.effects.calls| == 1 ==>
      var i := FindDevice(s.devices, deviceId).value;
      r.effects.calls[0] == SaveDeviceCall(s.devices[i].(brightness := brightness, lastUpdated := now))
  {
    var devices := SetBrightness(s.devices, deviceId, brightness, now);
    var calls :=
      if !authenticated then []
      else match FindDevice(devices, deviceId)
        case None => []
        case Some(i) => [SaveDeviceCall(devices[i])];
    Step(s.(devices := devices), Effects(Some(devices), calls))
  }

  // ---------------------------------------------------------------------
  // Loading

  /** The `subscribeToDevices` callback: a non-empty list replaces the
      devices and is cached; an empty one seeds the defaults remotely and
      leaves the list as it was. */
  function OnDevicesPush(s: DeviceState, pushed: seq<Device>, loadedAt: int): (r: Step)
    ensures !r.state.isLoading
    ensures r.state.connectionStatus == s.connectionStatus && r.state.isToggling == s.isToggling
    ensures pushed != [] ==> r.state.devices == pushed && r.effects == Effects(Some(pushed), [])
    ensures pushed == [] ==> r.state.devices == s.devices && r.effects.saved == None
    ensures pushed == [] ==>
      && |r.effects.calls| == |DefaultDevices(loadedAt)|
      && (forall i :: 0 <= i < |r.effects.calls| ==> r.effects.calls[i] == SaveDeviceCall(DefaultDevices(loadedAt)[i]))
  {
    if |pushed| > 0 then Step(s.(devices := pushed, isLoading := false), Effects(Some(pushed), []))
    else Step(s.(isLoading := false), Effects(None, [SaveDeviceCall(DefaultDevices(loadedAt)[0])]))
  }

  /** `loadLocalDevices()`: the cached list, or the defaults when nothing is
      cached or the cache does not parse. */
  function LoadLocalDevices(s: DeviceState, cache: CacheEntry<Device>, loadedAt: int): (r: DeviceState)
    ensures !r.isLoading
    ensures r.connectionStatus == s.connectionStatus && r.isToggling == s.isToggling
    ensures cache.Stored? ==> r.devices == cache.items
    ensures !cache.Stored? ==> r.devices == DefaultDevices(loadedAt)
  {
    match cache
    case Stored(items) => s.(devices := items, isLoading := false)
    case _ => s.(devices := DefaultDevices(loadedAt), isLoading := false)
  }
}

=== FILE: entities.dfy ===
/** The entities the phone keeps in memory and mirrors to the realtime
    database (the context files under src/context), with their database encoding. */
module Entities {
  import opened Common
  import opened Json

  /** A controllable appliance. `deviceType` is the record's `type` field. */
  datatype Device = Device(
    id: string,
    name: string,
    deviceType: string,
    room: string,
    isOn: bool,
    brightness: int,
    isOnline: bool,
    lastUpdated: int)

  /** A room; devices refer to it by id through `Device.room`. */
  datatype Room = Room(id: string, name: string, icon: string, color: string)

  /** An automation entry as ScheduleContext.js stores it (`isEnabled`). */
  datatype Schedule = Schedule(
    id: string,
    deviceId: string,
    time: string,
    action: string,
    repeatDays: seq<string>,
    isEnabled: bool,
    createdAt: int)

  // ---------------------------------------------------------------------
  // Encoding as database records

  function DeviceToObj(d: Device): Obj {
    map[
      "id" := JStr(d.id), "name" := JStr(d.name), "type" := JStr(d.deviceType),
      "room" := JStr(d.room), "isOn" := JBool(d.isOn), "brightness" := JNum(d.brightness),
      "isOnline" := JBool(d.isOnline), "lastUpdated" := JNum(d.lastUpdated)]
  }

  const DeviceFields: set<string> :=
    {"id", "name", "type", "room", "isOn", "brightness", "isOnline", "lastUpdated"}

  /** Reads a device back from a record; `None` when a field is missing or
      has the wrong JSON type. */
  function DeviceFromObj(o: Obj): Option<Device> {
    if && "id" in o && o["id"].JStr?
       && "name" in o && o["name"].JStr?
       && "type" in o && o["type"].JStr?
       && "room" in o && o["room"].JStr?
       && "isOn" in o && o["isOn"].JBool?
       && "brightness" in o && o["brightness"].JNum?
       && "isOnline" in o && o["isOnline"].JBool?
       && "lastUpdated" in o && o["lastUpdated"].JNum?
    then Some(Device(o["id"].s, o["name"].s, o["type"].s, o["room"].s, o["isOn"].b,
                     o["brightness"].n, o["isOnline"].b, o["lastUpdated"].n))
    else None
  }

  /** Any record that agrees with a device's encoding on the device fields
      decodes to that device, whatever other fields it carries. */
  lemma DeviceDecodeEncoded(d: Device, o: Obj)
    requires forall f :: f in DeviceFields ==> f in o && o[f] == DeviceToObj(d)[f]
    ensures DeviceFromObj(o) == Some(d)
  {
    assert "id" in DeviceFields && "name" in DeviceFields && "type" in DeviceFields;
    assert "room" in DeviceFields && "isOn" in DeviceFields && "brightness" in DeviceFields;
    assert "isOnline" in DeviceFields && "lastUpdated" in DeviceFields;
  }

  function RoomToObj(r: Room): Obj {
    map["id" := JStr(r.id), "name" := JStr(r.name), "icon" := JStr(r.icon), "color" := JStr(r.color)]
  }

  const RoomFields: set<string> := {"id", "name", "icon", "color"}

  function RoomFromObj(o: Obj): Option<Room> {
    if && "id" in o && o["id"].JStr?
       && "name" in o && o["name"].JStr?
       && "icon" in o && o["icon"].JStr?
       && "color" in o && o["color"].JStr?
    then Some(Room(o["id"].s, o["name"].s, o["icon"].s, o["color"].s))
    else None
  }

  lemma RoomDecodeEncoded(r: Room, o: Obj)
    requires forall f :: f in RoomFields ==> f in o && o[f] == RoomToObj(r)[f]
    ensures RoomFromObj(o) == Some(r)
  {
    assert "id" in RoomFields && "name" in RoomFields && "icon" in RoomFields && "color" in RoomFields;
  }

  function StringsToJson(ss: seq<string>): (j: seq<Json>)
    ensures |j| == |ss|
    ensures forall i :: 0 <= i < |ss| ==> j[i] == JStr(ss[i])
  {
    seq(|ss|, i requires 0 <= i < |ss| => JStr(ss[i]))
  }

  /** The strings of a JSON array of strings; `None` if any item is not a string. */
  function JsonToStrings(items: seq<Json>): (r: Option<seq<string>>)
    ensures r.Some? ==> |r.value| == |items| && forall i :: 0 <= i < |items| ==> items[i] == JStr(r.value[i])
    ensures (forall i :: 0 <= i < |items| ==> items[i].JStr?) ==> r.Some?
  {
    if |items| == 0 then Some([])
    else if !items[0].JStr? then None
    else
      match JsonToStrings(items[1..])
      case None => None
      case Some(rest) => Some([items[0].s] + rest)
  }

  function ScheduleToObj(s: Schedule): Obj {
    map[
      "id" := JStr(s.id), "deviceId" := JStr(s.deviceId), "time" := JStr(s.time),
      "action" := JStr(s.action), "repeatDays" := JList(StringsToJson(s.repeatDays)),
      "isEnabled" := JBool(s.isEnabled), "createdAt" := JNum(s.createdAt)]
  }

  const ScheduleFields: set<string> :=
    {"id", "deviceId", "time", "action", "repeatDays", "isEnabled", "createdAt"}

  function ScheduleFromObj(o: Obj): Option<Schedule> {
    if && "id" in o && o["id"].JStr?
       && "deviceId" in o && o["deviceId"].JStr?
       && "time" in o && o["time"].JStr?
       && "action" in o && o["action"].JStr?
       && "repeatDays" in o && o["repeatDays"].JList?
       && JsonToStrings(o["repeatDays"].items).Some?
       && "isEnabled" in o && o["isEnabled"].JBool?
       && "createdAt" in o && o["createdAt"].JNum?
    then Some(Schedule(o["id"].s, o["deviceId"].s, o["time"].s, o["action"].s,
                       JsonToStrings(o["repeatDays"].items).value, o["isEnabled"].b, o["createdAt"].n))
    else None
  }

  lemma ScheduleDecodeEncoded(s: Schedule, o: Obj)
    requires forall f :: f in ScheduleFields ==> f in o && o[f] == ScheduleToObj(s)[f]
    ensures ScheduleFromObj(o) == Some(s)
  {
    assert "id" in ScheduleFields && "deviceId" in ScheduleFields && "time" in ScheduleFields;
    assert "action" in ScheduleFields && "repeatDays" in ScheduleFields;
    assert "isEnabled" in ScheduleFields && "createdAt" in ScheduleFields;
    var items := StringsToJson(s.repeatDays);
    var back := JsonToStrings(items);
    assert back.Some?;
    assert back.value == s.repeatDays;
  }
}

=== FILE: json.dfy ===
/** JSON values as the realtime database stores them, and nodes: the
    children of one database location together with the order in which
    `Object.keys` (JavaScript) and `dict.items()` (Python) enumerate them.
    A new child is enumerated after the existing ones. That is how push
    keys list; the database lists other keys in key order, which this
    model does not follow. */
module Json {
  import opened Common

  datatype Json =
    | JNull
    | JBool(b: bool)
    | JNum(n: int)
    | JStr(s: string)
    | JList(items: seq<Json>)
    | JObj(fields: map<string, Json>)

  type Obj = map<string, Json>

  /** Python truthiness of a decoded JSON value (`if not value`). */
  predicate PyTruthy(v: Json) {
    match v
    case JNull => false
    case JBool(b) => b
    case JNum(n) => n != 0
    case JStr(s) => s != ""
    case JList(items) => items != []
    case JObj(fields) => fields != map[]
  }

  /** JavaScript truthiness of the same value: unlike Python, an empty
      array or object is truthy. */
  predicate JsTruthy(v: Json) {
    match v
    case JNull => false
    case JBool(b) => b
    case JNum(n) => n != 0
    case JStr(s) => s != ""
    case JList(_) => true
    case JObj(_) => true
  }

  /** `o.get(key, default)` in Python, `o[key] ?? default` in JavaScript. */
  function Get(o: Obj, key: string, default: Json): (v: Json)
    ensures key in o ==> v == o[key]
    ensures key !in o ==> v == default
  {
    if key in o then o[key] else default
  }

  predicate NoDuplicates(s: seq<string>) {
    forall i, j :: 0 <= i < j < |s| ==> s[i] != s[j]
  }

  /** The children of one location: their values by key, and the order in
      which they are enumerated. */
  datatype Node<V> = Node(order: seq<string>, children: map<string, V>) {

    /** Every child is enumerated exactly once. */
    predicate Valid() {
      && NoDuplicates(order)
      && children.Keys == (set k | k in order)
    }

    /** The (key, value) pairs in enumeration order. */
    function Entries(): (es: seq<(string, V)>)
      requires Valid()
      ensures |es| == |order|
      ensures forall i :: 0 <= i < |es| ==> es[i].0 == order[i] && es[i].1 == children[order[i]]
    {
      seq(|order|, i requires 0 <= i < |order| => (order[i], children[order[i]]))
    }
  }

  function EmptyNode<V>(): (n: Node<V>)
    ensures n.Valid() && n.order == []
  {
    Node([], map[])
  }

  /** `s` without the element `k`, other elements kept in order. */
  function Without(s: seq<string>, k: string): (r: seq<string>)
    ensures forall x :: x in r <==> x in s && x != k
    ensures NoDuplicates(s) ==> NoDuplicates(r)
    ensures k !in s ==> r == s
  {
    if |s| == 0 then []
    else
      var rest := Without(s[1..], k);
      assert NoDuplicates(s) ==> s[0] !in s[1..];
      if s[0] == k then rest else [s[0]] + rest
  }

  /** A database `set` on the child `k`: the value is replaced in place, or
      the child is added after the existing ones. */
  function Put<V>(n: Node<V>, k: string, v: V): (r: Node<V>)
    requires n.Valid()
    ensures r.Valid()
    ensures r.children == n.children[k := v]
    ensures k in n.children ==> r.order == n.order
    ensures k !in n.children ==> r.order == n.order + [k]
  {
    if k in n.children then Node(n.order, n.children[k := v])
    else Node(n.order + [k], n.children[k := v])
  }

  /** A database `remove` of the child `k`: every other child stays, and
      stays in order. */
  function Remove<V>(n: Node<V>, k: string): (r: Node<V>)
    requires n.Valid()
    ensures r.Valid()
    ensures r.children == n.children - {k}
    ensures r.order == Without(n.order, k)
  {
    var order := Without(n.order, k);
    assert forall i :: 0 <= i < |order| ==> order[i] in order;
    Node(order, n.children - {k})
  }

  /** Removing the element last appended gives back the sequence before. */
  lemma {:induction false} WithoutAppended(s: seq<string>, k: string)
    requires k !in s
    ensures Without(s + [k], k) == s
  {
    if |s| > 0 {
      assert (s + [k])[1..] == s[1..] + [k];
      WithoutAppended(s[1..], k);
    }
  }

  /** Removing a child just added under a fresh key restores the node. */
  lemma RemoveAfterPut<V>(n: Node<V>, k: string, v: V)
    requires n.Valid() && k !in n.children
    ensures Remove(Put(n, k, v), k) == n
  {
    WithoutAppended(n.order, k);
    assert n.children[k := v] - {k} == n.children;
  }

  /** Only the oldest `count` children removed: the newest `|order| - count`
      stay, in order. */
  function DropOldest<V>(n: Node<V>, count: nat): (r: Node<V>)
    requires n.Valid()
    requires count <= |n.order|
    ensures r.Valid()
    ensures r.order == n.order[count..]
    ensures forall k :: k in r.children ==> k in n.children && r.children[k] == n.children[k]
  {
    var kept := n.order[count..];
    var r := Node(kept, map k | k in n.children && k in kept :: n.children[k]);
    assert forall k :: k in kept ==> k in n.order;
    r
  }
}

=== FILE: led_server.dfy ===
/** The LED endpoints of raspberry-pi/led_server.py: the LED's state and
    the `GET /led` and `POST /led` handlers. The GPIO pin, the lock and the
    clock are outside the model; the time stamp `set_led` records is an
    input. */
module LedServer {
  import opened Common
  import opened Json

  /** `led_state` and `last_updated` (`None` until the first change). */
  datatype LedState = LedState(on: bool, lastUpdated: Option<string>)

  const InitialLed: LedState := LedState(false, None)

  /** A handler's status code and JSON body (an uncaught exception answers
      500 with Flask's error page, modelled as an empty body). */
  datatype HttpReply = HttpReply(status: nat, body: Obj)

  const InvalidJsonText: string := "Invalid JSON"
  const MissingStateText: string := "Missing \"state\" field"
  const BadStateText: string := "State must be \"ON\" or \"OFF\""

  // ---------------------------------------------------------------------
  // str(value).upper()

  /** Python's `str.upper()` on one character, for the characters whose
      upper case can take part in "ON" or "OFF": ASCII letters, and the
      ligature U+FB00 which upper-cases to the two letters "FF". Every other
      character is kept as it is. */
  function UpperChar(c: char): (u: string)
    ensures 1 <= |u| <= 2
    ensures |u| == 2 <==> c == '\U{FB00}'
  {
    if 'a' <= c <= 'z' then [(c as int - 32) as char]
    else if c == '\U{FB00}' then "FF"
    else [c]
  }

  function Upper(s: string): (u: string)
    ensures |u| >= |s|
  {
    if |s| == 0 then "" else UpperChar(s[0]) + Upper(s[1..])
  }

  /** `str(value).upper()` when that can be "ON" or "OFF": only a string can
      (`str` of `None`, a boolean, a number, a list or a dict gives "None",
      "True", "False", digits or a bracketed form); `None` here stands for
      all of those. */
  function StateText(v: Json): (t: Option<string>)
    ensures t.Some? <==> v.JStr?
  {
    if v.JStr? then Some(Upper(v.s)) else None
  }

  /** The spellings of "on" the server accepts: any letter case. */
  predicate SpellsOn(x: string) {
    |x| == 2 && (x[0] == 'o' || x[0] == 'O') && (x[1] == 'n' || x[1] == 'N')
  }

  /** The spellings of "off" it accepts: any letter case, or `o`/`O`
      followed by the ligature U+FB00. */
  predicate SpellsOff(x: string) {
    || (|x| == 3 && (x[0] == 'o' || x[0] == 'O') && (x[1] == 'f' || x[1] == 'F') && (x[2] == 'f' || x[2] == 'F'))
    || (|x| == 2 && (x[0] == 'o' || x[0] == 'O') && x[1] == '\U{FB00}')
  }

  lemma UpperChar1(c: char, l: char)
    requires UpperChar(c) == [l]
    ensures l == 'O' <==> c == 'o' || c == 'O'
    ensures l == 'N' <==> c == 'n' || c == 'N'
    ensures l == 'F' <==> c == 'f' || c == 'F'
  {
  }

  lemma UpperTwo(x: string)
    requires |x| == 2
    ensures Upper(x) == UpperChar(x[0]) + UpperChar(x[1])
  {
    assert x[1..][1..] == [] && x[1..][0] == x[1];
    assert Upper(x[1..]) == UpperChar(x[1]) + Upper(x[1..][1..]);
  }

  lemma UpperThree(x: string)
    requires |x| == 3
    ensures Upper(x) == UpperChar(x[0]) + UpperChar(x[1]) + UpperChar(x[2])
  {
    assert x[1..][1..] == x[2..] && x[2..][1..] == [] && x[1..][0] == x[1] && x[2..][0] == x[2];
    assert Upper(x[2..]) == UpperChar(x[2]) + Upper(x[2..][1..]);
    assert Upper(x[1..]) == UpperChar(x[1]) + Upper(x[1..][1..]);
  }

  /** Exactly the spellings `SpellsOn` lists upper-case to "ON". */
  lemma {:induction false} UpperIsOn(x: string)
    ensures Upper(x) == "ON" <==> SpellsOn(x)
  {
    if |x| == 2 {
      UpperTwo(x);
      var a, b := UpperChar(x[0]), UpperChar(x[1]);
      if |a| == 1 && |b| == 1 {
        UpperChar1(x[0], a[0]);
        UpperChar1(x[1], b[0]);
        assert Upper(x) == [a[0], b[0]];
      }
    } else if |x| == 1 {
      assert x[1..] == [];
      assert Upper(x) == UpperChar(x[0]);
    }
  }

  /** Exactly the spellings `SpellsOff` lists upper-case to "OFF". */
  lemma {:induction false} UpperIsOff(x: string)
    ensures Upper(x) == "OFF" <==> SpellsOff(x)
  {
    if |x| == 3 {
      UpperThree(x);
      var a, b, c := UpperChar(x[0]), UpperChar(x[1]), UpperChar(x[2]);
      if |a| == 1 && |b| == 1 && |c| == 1 {
        UpperChar1(x[0], a[0]);
        UpperChar1(x[1], b[0]);
        UpperChar1(x[2], c[0]);
        assert Upper(x) == [a[0], b[0], c[0]];
      }
    } else if |x| == 2 {
      UpperTwo(x);
      var a, b := UpperChar(x[0]), UpperChar(x[1]);
      if |a| == 1 {
        UpperChar1(x[0], a[0]);
        if |b| == 1 {
          assert Upper(x) == [a[0], b[0]];
        } else {
          assert Upper(x) == [a[0], 'F', 'F'];
        }
      } else {
        assert Upper(x)[0] == 'F';
      }
    } else if |x| == 1 {
      assert x[1..] == [];
      assert Upper(x) == UpperChar(x[0]);
    }
  }

  // ---------------------------------------------------------------------
  // Handlers

  /** `set_led(state)`: the LED takes the state and the change is stamped. */
  function SetLed(s: LedState, on: bool, stamp: string): (r: LedState)
    ensures r.on == on && r.lastUpdated == Some(stamp)
  {
    LedState(on, Some(stamp))
  }

  /** Setting the same state twice is the same as setting it once (up to
      the stamp of the second call). */
  lemma SetLedIdempotent(s: LedState, on: bool, stamp1: string, stamp2: string)
    ensures SetLed(SetLed(s, on, stamp1), on, stamp2) == SetLed(s, on, stamp2)
  {
  }

  function LastUpdatedJson(s: LedState): (v: Json)
    ensures s.lastUpdated.None? <==> v == JNull
  {
    match s.lastUpdated
    case None => JNull
    case Some(t) => JStr(t)
  }

  /** `GET /led`: reports the state as text and as a flag. */
  function GetLed(s: LedState, gpioAvailable: bool): (r: HttpReply)
    ensures r.status == 200
    ensures "state" in r.body && "is_on" in r.body
    ensures r.body["state"] == JStr("ON") <==> s.on
    ensures r.body["state"] == JStr("OFF") <==> !s.on
    ensures r.body["is_on"] == JBool(s.on)
    ensures "last_updated" in r.body && (r.body["last_updated"] == JNull <==> s.lastUpdated.None?)
  {
    HttpReply(200, map["state" := JStr(PowerText(s.on)), "is_on" := JBool(s.on),
                       "last_updated" := LastUpdatedJson(s), "gpio_available" := JBool(gpioAvailable)])
  }

  /** The reply and the LED state after `POST /led`. */
  datatype Posted = Posted(reply: HttpReply, led: LedState)

  /** The command a body carries when `post_led` accepts it. */
  function Command(body: Option<Json>): (c: Option<bool>)
    ensures c.Some? ==> (body.Some? && body.value.JObj? && "state" in body.value.fields
                         && body.value.fields["state"].JStr?)
  {
    if body.Some? && body.value.JObj? && "state" in body.value.fields then
      match StateText(body.value.fields["state"])
      case Some(t) => if t == "ON" then Some(true) else if t == "OFF" then Some(false) else None
      case None => None
    else None
  }

  /** A body's `state` field is one of the accepted spellings exactly when it
      carries a command, and the spelling decides the command. */
  lemma CommandSpellings(x: string)
    ensures Command(Some(JObj(map["state" := JStr(x)]))) == Some(true) <==> SpellsOn(x)
    ensures Command(Some(JObj(map["state" := JStr(x)]))) == Some(false) <==> SpellsOff(x)
  {
    UpperIsOn(x);
    UpperIsOff(x);
  }

  /** `post_led()`. `body` is the parsed request body (`None` when it is not
      JSON). A dict with an accepted `state` sets the LED; a list or string
      that mentions "state", or a truthy number or boolean, makes the handler
      raise (500); everything else is refused with 400 and leaves the LED as
      it was. */
  function PostLed(s: LedState, body: Option<Json>, stamp: string): (r: Posted)
    ensures Command(body).Some? ==>
      && r.reply.status == 200
      && r.led == SetLed(s, Command(body).value, stamp)
      && "success" in r.reply.body && r.reply.body["success"] == JBool(true)
      && "state" in r.reply.body
      && r.reply.body["state"] == JStr(PowerText(Command(body).value))
    ensures Command(body).None? ==> r.led == s && r.reply.status in {400, 500}
    ensures r.reply.status == 500 <==>
      body.Some? && PyTruthy(body.value) &&
      match body.value
      case JList(items) => JStr("state") in items
      case JStr(t) => IsInfix("state", t)
      case JNum(_) => true
      case JBool(_) => true
      case _ => false
    ensures body.None? ==> r.reply == HttpReply(400, map["error" := JStr(InvalidJsonText)])
    ensures body.Some? && r.reply.status == 400 && !(body.value.JObj? && "state" in body.value.fields) ==>
      r.reply == HttpReply(400, map["error" := JStr(MissingStateText)])
    ensures body.Some? && body.value.JObj? && "state" in body.value.fields && Command(body).None? ==>
      r.reply == HttpReply(400, map["error" := JStr(BadStateText)])
  {
    if body.None? then Posted(HttpReply(400, map["error" := JStr(InvalidJsonText)]), s)
    else match body.value
      // `not data` or `'state' not in data`; an empty container fails the
      // membership test as well.
      case JObj(fields) =>
        if "state" !in fields then Posted(HttpReply(400, map["error" := JStr(MissingStateText)]), s)
        else
          var text := StateText(fields["state"]);
          if text != Some("ON") && text != Some("OFF") then Posted(HttpReply(400, map["error" := JStr(BadStateText)]), s)
          else
            var led := SetLed(s, text == Some("ON"), stamp);
            Posted(HttpReply(200, map["success" := JBool(true), "state" := JStr(PowerText(led.on)),
                                      "is_on" := JBool(led.on), "last_updated" := LastUpdatedJson(led)]), led)
      // `data['state']` on a list or a string raises.
      case JList(items) =>
        if JStr("state") in items then Posted(HttpReply(500, map[]), s)
        else Posted(HttpReply(400, map["error" := JStr(MissingStateText)]), s)
      case JStr(t) =>
        if IsInfix("state", t) then Posted(HttpReply(500, map[]), s)
        else Posted(HttpReply(400, map["error" := JStr(MissingStateText)]), s)
      // `'state' not in data` raises on a truthy number or boolean.
      case JNum(n) =>
        if n != 0 then Posted(HttpReply(500, map[]), s)
        else Posted(HttpReply(400, map["error" := JStr(MissingStateText)]), s)
      case JBool(b) =>
        if b then Posted(HttpReply(500, map[]), s)
        else Posted(HttpReply(400, map["error" := JStr(MissingStateText)]), s)
      case JNull => Posted(HttpReply(400, map["error" := JStr(MissingStateText)]), s)
  }

  /** The body the app and the schedule checker send, `{"state": "ON"}` or
      `{"state": "OFF"}`, is always accepted and sets the LED to that state;
      a following `GET /led` reports it. */
  lemma PowerCommandAccepted(s: LedState, on: bool, stamp: string, gpioAvailable: bool)
    ensures var r := PostLed(s, Some(JObj(map["state" := JStr(PowerText(on))])), stamp);
      && r.reply.status == 200 && r.led.on == on
      && GetLed(r.led, gpioAvailable).body["state"] == JStr(PowerText(on))
  {
    assert Upper("ON") == "ON" by { UpperIsOn("ON"); }
    assert Upper("OFF") == "OFF" by { UpperIsOff("OFF"); }
  }
}

=== FILE: listing.dfy ===
/** Reading a node back as the list the app sees: the snapshot-to-list
    conversion every `get*`/`subscribe*` function of
    src/services/firebase/databaseService.js applies, and the newest-first
    window of `getDeviceHistory`. */
module Listing {
  import opened Json

  /** How the child `rec` stored under `key` is listed: unchanged when it
      stores an `id` of its own, and otherwise with its key as `id`. */
  function Listed(key: string, rec: Obj): Obj {
    if "id" in rec then rec else rec["id" := JStr(key)]
  }

  /** `{id: key, ...rec}`: the stored fields come after `id`, so a stored
      `id` field overrides the key. */
  function WithKey(key: string, rec: Obj): (o: Obj)
    ensures o == Listed(key, rec)
  {
    map["id" := JStr(key)] + rec
  }

  /** `keys.map(key => ({id: key, ...children[key]}))`. */
  function ListKeys(keys: seq<string>, children: map<string, Obj>): (r: seq<Obj>)
    requires forall k :: k in keys ==> k in children
    ensures |r| == |keys|
    ensures forall i {:trigger r[i]} :: 0 <= i < |r| ==> r[i] == Listed(keys[i], children[keys[i]])
  {
    if |keys| == 0 then []
    else
      var rest := ListKeys(keys[1..], children);
      var r := [WithKey(keys[0], children[keys[0]])] + rest;
      assert forall i :: 1 <= i < |r| ==> r[i] == rest[i - 1] && keys[i] == keys[1..][i - 1];
      r
  }

  /** `Object.keys(data).map(key => ({id: key, ...data[key]}))`: one record
      per child, in order; each is the stored record, with the key added as
      `id` when it stores none. */
  function SnapshotList(n: Node<Obj>): (r: seq<Obj>)
    requires n.Valid()
    ensures |r| == |n.order|
    ensures forall i {:trigger r[i]} :: 0 <= i < |r| ==> r[i] == Listed(n.order[i], n.children[n.order[i]])
  {
    ListKeys(n.order, n.children)
  }

  /** Each listed record carries the stored fields, and its `id` is the
      stored one when there is one and its key otherwise; so it is the key
      exactly when the stored record has no `id` of its own or the same
      one. */
  lemma SnapshotListIds(n: Node<Obj>, i: nat)
    requires n.Valid() && i < |n.order|
    ensures var rec := n.children[n.order[i]];
      && "id" in SnapshotList(n)[i]
      && SnapshotList(n)[i]["id"] == Get(rec, "id", JStr(n.order[i]))
      && ("id" in rec ==> SnapshotList(n)[i]["id"] == rec["id"])
      && (SnapshotList(n)[i]["id"] == JStr(n.order[i]) <==> "id" !in rec || rec["id"] == JStr(n.order[i]))
      && (forall f :: f != "id" ==> (f in SnapshotList(n)[i] <==> f in rec))
      && (forall f :: f != "id" && f in rec ==> SnapshotList(n)[i][f] == rec[f])
  {
  }

  /** The newest `limit` children, oldest of them first (`limitToLast`). */
  function LastN(n: Node<Obj>, limit: nat): (r: Node<Obj>)
    requires n.Valid()
    ensures r.Valid()
    ensures |r.order| == if |n.order| < limit then |n.order| else limit
    ensures forall j :: 0 <= j < |r.order| ==> r.order[j] == n.order[|n.order| - |r.order| + j]
    ensures forall k :: k in r.children ==> k in n.children && r.children[k] == n.children[k]
  {
    if |n.order| <= limit then n else DropOldest(n, |n.order| - limit)
  }

  function Reverse<T>(s: seq<T>): (r: seq<T>)
    ensures |r| == |s|
    ensures forall i :: 0 <= i < |s| ==> r[i] == s[|s| - 1 - i]
  {
    if |s| == 0 then [] else [s[|s| - 1]] + Reverse(s[..|s| - 1])
  }

  /** The last `limit` children of `n` as listed records, newest first. */
  function NewestFirst(n: Node<Obj>, limit: nat): (r: seq<Obj>)
    requires n.Valid()
    ensures |r| == if |n.order| < limit then |n.order| else limit
    ensures forall i :: 0 <= i < |r| ==> r[i] == SnapshotList(n)[|n.order| - 1 - i]
  {
    var last := LastN(n, limit);
    var listed := SnapshotList(last);
    forall i | 0 <= i < |listed|
      ensures Reverse(listed)[i] == SnapshotList(n)[|n.order| - 1 - i]
    {
      LastNAt(n, limit, |listed| - 1 - i);
    }
    Reverse(listed)
  }

  /** The `j`-th of the newest `limit` children is the child at the
      corresponding position of `n`, with the same record. */
  lemma LastNAt(n: Node<Obj>, limit: nat, j: nat)
    requires n.Valid()
    requires j < |LastN(n, limit).order|
    ensures var last := LastN(n, limit);
      && |last.order| <= |n.order|
      && last.order[j] == n.order[|n.order| - |last.order| + j]
      && last.order[j] in last.children
      && last.children[last.order[j]] == n.children[last.order[j]]
  {
    var last := LastN(n, limit);
    assert last.order[j] in last.order;
  }

}

=== FILE: notifications.dfy ===
/** The in-app inbox of src/context/NotificationContext.js: newest first,
    at most fifty items, each with a read flag. */
module Notifications {
  import opened Common
  import opened Json

  datatype Notification = Notification(
    id: string,
    title: string,
    body: string,
    data: Obj,
    timestamp: int,
    read: bool)

  /** The parts of an incoming push message the inbox reads; `None` is an
      absent (or null) field. */
  datatype Message = Message(title: Option<string>, body: Option<string>, data: Option<Obj>)

  const InboxCap: nat := 50
  const DefaultTitle: string := "SmartHome"

  /** The notification built from `message` at clock `now`: unread, with the
      default title and an empty body when the message has none (an empty
      string counts as none). */
  function FromMessage(message: Message, now: nat): (n: Notification)
    ensures !n.read && n.id == NatToString(now) && n.timestamp == now
    ensures n.title == (if message.title.Some? && message.title.value != "" then message.title.value else DefaultTitle)
    ensures n.body == (if message.body.Some? then message.body.value else "")
    ensures n.data == message.data.GetOr(map[])
  {
    var title := if message.title.Some? && message.title.value != "" then message.title.value else DefaultTitle;
    Notification(NatToString(now), title, message.body.GetOr(""), message.data.GetOr(map[]), now, false)
  }

  /** `addNotification(message)`: the new item goes first and the list is
      cut back to fifty, dropping the oldest. */
  function AddNotification(inbox: seq<Notification>, message: Message, now: nat): (r: seq<Notification>)
    ensures |r| == if |inbox| + 1 <= InboxCap then |inbox| + 1 else InboxCap
    ensures r[0] == FromMessage(message, now)
    ensures r[1..] == inbox[..|r| - 1]
  {
    var all := [FromMessage(message, now)] + inbox;
    if |all| <= InboxCap then all else all[..InboxCap]
  }

  /** Adding keeps the inbox within its cap. */
  lemma AddKeepsCap(inbox: seq<Notification>, message: Message, now: nat)
    requires |inbox| <= InboxCap
    ensures |AddNotification(inbox, message, now)| <= InboxCap
    ensures |inbox| < InboxCap ==> AddNotification(inbox, message, now)[1..] == inbox
  {
  }

  /** `markAsRead(id)`: only the items with that id become read. */
  function MarkAsRead(inbox: seq<Notification>, id: string): (r: seq<Notification>)
    ensures |r| == |inbox|
    ensures forall i :: 0 <= i < |inbox| && inbox[i].id != id ==> r[i] == inbox[i]
    ensures forall i :: 0 <= i < |inbox| && inbox[i].id == id ==> r[i] == inbox[i].(read := true)
  {
    seq(|inbox|, i requires 0 <= i < |inbox| => if inbox[i].id == id then inbox[i].(read := true) else inbox[i])
  }

  /** `markAllAsRead()`. */
  function MarkAllAsRead(inbox: seq<Notification>): (r: seq<Notification>)
    ensures |r| == |inbox|
    ensures forall i :: 0 <= i < |inbox| ==> r[i] == inbox[i].(read := true)
  {
    seq(|inbox|, i requires 0 <= i < |inbox| => inbox[i].(read := true))
  }

  /** `clearNotifications()`. */
  function ClearNotifications(inbox: seq<Notification>): (r: seq<Notification>)
    ensures r == []
  {
    []
  }

  function IsUnread(n: Notification): bool {
    !n.read
  }

  /** `getUnreadCount()`: the number of unread items. */
  function UnreadCount(inbox: seq<Notification>): (c: nat)
    ensures c <= |inbox|
    ensures c == 0 <==> forall i :: 0 <= i < |inbox| ==> inbox[i].read
    ensures c == |set i | 0 <= i < |inbox| && !inbox[i].read|
  {
    UnreadCountIsZeroIffAllRead(inbox);
    UnreadCountIsCardinality(inbox);
    CountWhere(inbox, IsUnread)
  }

  /** The count is the number of positions holding an unread item. */
  lemma {:induction false} UnreadCountIsCardinality(inbox: seq<Notification>)
    ensures CountWhere(inbox, IsUnread) == |set i | 0 <= i < |inbox| && !inbox[i].read|
  {
    if |inbox| > 0 {
      var n := |inbox| - 1;
      var init := inbox[..n];
      UnreadCountIsCardinality(init);
      assert inbox == init + [inbox[n]];
      CountWhereSnoc(init, inbox[n], IsUnread);
      var before := set i | 0 <= i < n && !init[i].read;
      var all := set i | 0 <= i < |inbox| && !inbox[i].read;
      assert n !in before;
      if !inbox[n].read {
        assert all == before + {n};
      } else {
        assert all == before;
      }
    }
  }

  lemma {:induction false} UnreadCountIsZeroIffAllRead(inbox: seq<Notification>)
    ensures CountWhere(inbox, IsUnread) == 0 <==> forall i :: 0 <= i < |inbox| ==> inbox[i].read
  {
    if |inbox| > 0 {
      UnreadCountIsZeroIffAllRead(inbox[1..]);
      assert forall i :: 1 <= i < |inbox| ==> inbox[i] == inbox[1..][i - 1];
    }
  }

  /** After `markAllAsRead` nothing is unread. */
  lemma MarkAllLeavesNoneUnread(inbox: seq<Notification>)
    ensures UnreadCount(MarkAllAsRead(inbox)) == 0
  {
  }

  /** Marking one id read never raises the unread count, and lowers it when
      an unread item has that id. */
  lemma {:induction false} MarkAsReadCount(inbox: seq<Notification>, id: string)
    ensures UnreadCount(MarkAsRead(inbox, id)) <= UnreadCount(inbox)
    ensures (exists i :: 0 <= i < |inbox| && inbox[i].id == id && !inbox[i].read) ==>
      UnreadCount(MarkAsRead(inbox, id)) < UnreadCount(inbox)
  {
    if |inbox| > 0 {
      MarkAsReadCount(inbox[1..], id);
      assert MarkAsRead(inbox, id)[1..] == MarkAsRead(inbox[1..], id);
      if exists i :: 0 <= i < |inbox| && inbox[i].id == id && !inbox[i].read {
        var i :| 0 <= i < |inbox| && inbox[i].id == id && !inbox[i].read;
        if i > 0 {
          assert inbox[1..][i - 1] == inbox[i];
        }
      }
    }
  }
}

=== FILE: rooms.dfy ===
/** The room store of src/context/RoomContext.js: an ordered list of rooms
    changed optimistically, written to the local cache after every change
    and mirrored to the database only for a signed-in user. */
module Rooms {
  import opened Common
  import opened Entities
  import opened Database

  datatype RoomState = RoomState(rooms: seq<Room>, isLoading: bool)

  const Initial: RoomState := RoomState([], true)

  /** A state change together with its side effects. */
  datatype Step = Step(state: RoomState, effects: Effects<Room>)

  /** The three rooms every new account starts with (colours from
      src/styles/colors.js: primary, secondary, accent). */
  function DefaultRooms(): (rs: seq<Room>)
    ensures |rs| == 3
    ensures rs[0].id == "living-room" && rs[1].id == "bedroom" && rs[2].id == "kitchen"
  {
    [ Room("living-room", "Phòng khách", "home-outline", "#2563EB"),
      Room("bedroom", "Phòng ngủ", "bed-outline", "#10B981"),
      Room("kitchen", "Nhà bếp", "restaurant-outline", "#F59E0B") ]
  }

  /** `rooms.find(r => r.id === roomId)`, as a position. */
  function FindRoom(rs: seq<Room>, id: string): (r: Option<nat>)
    ensures r.Some? ==> r.value < |rs| && rs[r.value].id == id && forall j :: 0 <= j < r.value ==> rs[j].id != id
    ensures r.None? ==> forall j :: 0 <= j < |rs| ==> rs[j].id != id
  {
    FindFirst(rs, (x: Room) => x.id == id)
  }

  // ---------------------------------------------------------------------
  // addRoom

  /** The fields `addRoom` takes from its argument; an empty `id` is falsy
      and gets replaced. */
  datatype RoomDraft = RoomDraft(id: string, name: string, icon: string, color: string)

  function GeneratedRoomId(now: nat): string {
    "room-" + NatToString(now)
  }

  function NewRoom(draft: RoomDraft, now: nat): (r: Room)
    ensures r.id == (if draft.id != "" then draft.id else GeneratedRoomId(now))
    ensures r.(id := draft.id) == Room(draft.id, draft.name, draft.icon, draft.color)
  {
    Room(if draft.id != "" then draft.id else GeneratedRoomId(now), draft.name, draft.icon, draft.color)
  }

  /** `addRoom(room)`: exactly one room is appended; the others stay as
      they were, in order. */
  function AddRoom(s: RoomState, draft: RoomDraft, now: nat, authenticated: bool): (r: Step)
    ensures |r.state.rooms| == |s.rooms| + 1
    ensures r.state.rooms[..|s.rooms|] == s.rooms
    ensures r.state.rooms[|s.rooms|] == NewRoom(draft, now)
    ensures r.state.isLoading == s.isLoading
    ensures r.effects.saved == Some(r.state.rooms)
    ensures r.effects.calls == (if authenticated then [SaveRoomCall(NewRoom(draft, now))] else [])
  {
    var room := NewRoom(draft, now);
    var rooms := s.rooms + [room];
    Step(s.(rooms := rooms), Effects(Some(rooms), if authenticated then [SaveRoomCall(room)] else []))
  }

  /** A room added under an id no other room has is the one found by that id. */
  lemma FindAfterAdd(s: RoomState, draft: RoomDraft, now: nat, authenticated: bool)
    requires FindRoom(s.rooms, NewRoom(draft, now).id).None?
    ensures GetRoomById(AddRoom(s, draft, now, authenticated).state, NewRoom(draft, now).id) == Some(NewRoom(draft, now))
  {
    var rooms := AddRoom(s, draft, now, authenticated).state.rooms;
    var id := NewRoom(draft, now).id;
    assert forall j :: 0 <= j < |s.rooms| ==> rooms[j] == s.rooms[j];
    var found := FindRoom(rooms, id);
    assert found.Some? by { assert rooms[|s.rooms|].id == id; }
  }

  // ---------------------------------------------------------------------
  // updateRoom

  /** The keys an `updates` object carries; `None` keeps the room's value. */
  datatype RoomPatch = RoomPatch(id: Option<string>, name: Option<string>, icon: Option<string>, color: Option<string>)

  /** `{...room, ...updates}`. */
  function ApplyRoomPatch(room: Room, p: RoomPatch): (r: Room)
    ensures r.id == p.id.GetOr(room.id) && r.name == p.name.GetOr(room.name)
    ensures r.icon == p.icon.GetOr(room.icon) && r.color == p.color.GetOr(room.color)
  {
    Room(p.id.GetOr(room.id), p.name.GetOr(room.name), p.icon.GetOr(room.icon), p.color.GetOr(room.color))
  }

  /** `updateRoom(roomId, updates)`: the updates are merged into every room
      with that id and into no other; the list keeps its length and order.
      The first room that has `roomId` afterwards is saved remotely. */
  function UpdateRoom(s: RoomState, roomId: string, p: RoomPatch, authenticated: bool): (r: Step)
    ensures |r.state.rooms| == |s.rooms|
    ensures forall i :: 0 <= i < |s.rooms| && s.rooms[i].id != roomId ==> r.state.rooms[i] == s.rooms[i]
    ensures forall i :: 0 <= i < |s.rooms| && s.rooms[i].id == roomId ==> r.state.rooms[i] == ApplyRoomPatch(s.rooms[i], p)
    ensures r.state.isLoading == s.isLoading
    ensures r.effects.saved == Some(r.state.rooms)
    ensures |r.effects.calls| == (if authenticated && FindRoom(r.state.rooms, roomId).Some? then 1 else 0)
    ensures |r.effects.calls| == 1 ==> r.effects.calls[0] == SaveRoomCall(r.state.rooms[FindRoom(r.state.rooms, roomId).value])
  {
    var rooms := seq(|s.rooms|, i requires 0 <= i < |s.rooms| =>
      if s.rooms[i].id == roomId then ApplyRoomPatch(s.rooms[i], p) else s.rooms[i]);
    var calls :=
      if !authenticated then []
      else match FindRoom(rooms, roomId)
        case None => []
        case Some(i) => [SaveRoomCall(rooms[i])];
    Step(s.(rooms := rooms), Effects(Some(rooms), calls))
  }

  /** An update that keeps the id leaves the room findable by that id, with
      the new values. */
  lemma FindAfterUpdate(s: RoomState, roomId: string, p: RoomPatch, authenticated: bool)
    requires FindRoom(s.rooms, roomId).Some?
    requires p.id.None?
    ensures GetRoomById(UpdateRoom(s, roomId, p, authenticated).state, roomId)
         == Some(ApplyRoomPatch(s.rooms[FindRoom(s.rooms, roomId).value], p))
  {
    var before := s.rooms;
    var after := UpdateRoom(s, roomId, p, authenticated).state.rooms;
    var k := FindRoom(before, roomId).value;
    assert after[k].id == roomId;
    assert forall j :: 0 <= j < k ==> after[j].id != roomId;
    assert FindRoom(after, roomId) == Some(k);
  }

  // ---------------------------------------------------------------------
  // removeRoom, getRoomById

  /** `removeRoom(roomId)`: exactly the rooms with that id go; the others
      stay in order. */
  function RemoveRoom(s: RoomState, roomId: string, authenticated: bool): (r: Step)
    ensures forall i :: 0 <= i < |r.state.rooms| ==> r.state.rooms[i].id != roomId
    ensures forall i :: 0 <= i < |s.rooms| && s.rooms[i].id != roomId ==> s.rooms[i] in r.state.rooms
    ensures IsSubsequence(r.state.rooms, s.rooms)
    ensures |r.state.rooms| == |s.rooms| - CountWhere(s.rooms, (x: Room) => x.id == roomId)
    ensures r.state.isLoading == s.isLoading
    ensures r.effects.saved == Some(r.state.rooms)
    ensures r.effects.calls == (if authenticated then [DeleteRoomCall(roomId)] else [])
  {
    var rooms := FilterOut(s.rooms, (x: Room) => x.id == roomId);
    Step(s.(rooms := rooms), Effects(Some(rooms), if authenticated then [DeleteRoomCall(roomId)] else []))
  }

  /** `getRoomById(roomId)`: the first room with that id. */
  function GetRoomById(s: RoomState, roomId: string): (r: Option<Room>)
    ensures r.Some? <==> exists i :: 0 <= i < |s.rooms| && s.rooms[i].id == roomId
    ensures r.Some? ==> r.value.id == roomId
    ensures r.Some? ==> exists i :: 0 <= i < |s.rooms| && s.rooms[i] == r.value && forall j :: 0 <= j < i ==> s.rooms[j].id != roomId
  {
    match FindRoom(s.rooms, roomId)
    case None => None
    case Some(i) => Some(s.rooms[i])
  }

  /** After a removal, no room is found by the removed id. */
  lemma NoneAfterRemove(s: RoomState, roomId: string, authenticated: bool)
    ensures GetRoomById(RemoveRoom(s, roomId, authenticated).state, roomId).None?
  {
    var rooms := RemoveRoom(s, roomId, authenticated).state.rooms;
    assert forall i :: 0 <= i < |rooms| ==> rooms[i].id != roomId;
  }

  // ---------------------------------------------------------------------
  // Loading

  /** `loadLocalRooms()`: the cached list, or the defaults when nothing is
      cached or the cache does not parse. */
  function LoadLocalRooms(s: RoomState, cache: CacheEntry<Room>): (r: RoomState)
    ensures !r.isLoading
    ensures cache.Stored? ==> r.rooms == cache.items
    ensures !cache.Stored? ==> r.rooms == DefaultRooms()
  {
    match cache
    case Stored(items) => RoomState(items, false)
    case _ => RoomState(DefaultRooms(), false)
  }

  /** `loadFirebaseRooms()`. `remote` is what `getRooms` returns (it never
      throws), `cacheWrite` the outcome of the `AsyncStorage.setItem` that
      follows, and `cache` what the local cache holds before it. A remote
      list replaces the rooms, except that a failed cache write falls back
      to `loadLocalRooms`; an empty one seeds the defaults remotely and
      locally. */
  function LoadFirebaseRooms(s: RoomState, remote: seq<Room>, cacheWrite: Outcome, cache: CacheEntry<Room>): (r: Step)
    ensures !r.state.isLoading
    ensures remote != [] && cacheWrite.Done? ==> r == Step(RoomState(remote, false), Effects(Some(remote), []))
    ensures remote != [] && cacheWrite.Fails? ==> r == Step(LoadLocalRooms(s, cache), Effects(None, []))
    ensures remote == [] ==> r.state.rooms == DefaultRooms()
    ensures remote == [] ==> r.effects.saved == (if cacheWrite.Done? then Some(DefaultRooms()) else None)
    ensures remote == [] ==>
      && |r.effects.calls| == |DefaultRooms()|
      && (forall i :: 0 <= i < |DefaultRooms()| ==> r.effects.calls[i] == SaveRoomCall(DefaultRooms()[i]))
  {
    if |remote| > 0 then
      if cacheWrite.Done? then Step(RoomState(remote, false), Effects(Some(remote), []))
      else Step(LoadLocalRooms(s, cache), Effects(None, []))
    else
      var seeds := [SaveRoomCall(DefaultRooms()[0]), SaveRoomCall(DefaultRooms()[1]), SaveRoomCall(DefaultRooms()[2])];
      Step(RoomState(DefaultRooms(), false), Effects(if cacheWrite.Done? then Some(DefaultRooms()) else None, seeds))
  }
}

=== FILE: schedule_checker.dfy ===
/** The Raspberry Pi's schedule loop of raspberry-pi/schedule_checker.py:
    once a minute it reads every user's schedules, decides which are due and
    posts their action to the LED server. Its schedules are decoded JSON
    objects read with the field names `enabled`, `time`, `repeat`, `action`
    and `id`. The clock, the database read and the LED request are inputs. */
module ScheduleChecker {
  import opened Common
  import opened Json
  import opened Database

  // ---------------------------------------------------------------------
  // Clock

  /** `datetime.weekday()` 0..6 names Monday..Sunday. */
  const DayNames: seq<string> := ["Mon", "Tue", "Wed", "Thu", "Fri", "Sat", "Sun"]

  /** `get_current_day()`. */
  function CurrentDay(weekday: nat): (d: string)
    requires weekday < 7
    ensures d in DayNames && |d| == 3
  {
    DayNames[weekday]
  }

  /** `get_current_time()`: `strftime("%H:%M")`. */
  function CurrentTime(hour: nat, minute: nat): (t: string)
    requires hour < 24 && minute < 60
    ensures |t| == 5 && t[2] == ':'
    ensures forall i :: 0 <= i < 5 && i != 2 ==> IsDigit(t[i])
    ensures DigitsValue(t[..2]) == hour && DigitsValue(t[3..]) == minute
  {
    HourMinuteText(hour, minute)
  }

  /** Different minutes of the day render differently. */
  lemma CurrentTimeInjective(h1: nat, m1: nat, h2: nat, m2: nat)
    requires h1 < 24 && m1 < 60 && h2 < 24 && m2 < 60
    requires CurrentTime(h1, m1) == CurrentTime(h2, m2)
    ensures h1 == h2 && m1 == m2
  {
  }

  // ---------------------------------------------------------------------
  // Flattening the `schedules` tree

  /** The object the loop sees for record `key` of user `uid`: the stored
      fields with `id` and `uid` overwritten by the record's path. */
  function Stamped(t: Tree, uid: string, key: string): (o: Obj)
    requires ValidTree(t) && uid in t.children && key in t.children[uid].children
    ensures "id" in o && o["id"] == JStr(key) && "uid" in o && o["uid"] == JStr(uid)
  {
    t.children[uid].children[key]["id" := JStr(key)]["uid" := JStr(uid)]
  }

  /** The records of one user, in their order. */
  function FlattenUser(t: Tree, uid: string): (r: seq<Obj>)
    requires ValidTree(t) && uid in t.children
    ensures |r| == |t.children[uid].order|
    ensures forall i :: 0 <= i < |r| ==> r[i] == Stamped(t, uid, t.children[uid].order[i])
  {
    var n := t.children[uid];
    seq(|n.order|, i requires 0 <= i < |n.order| => Stamped(t, uid, n.order[i]))
  }

  /** `o` is the stamped record its own `uid` and `id` fields name, of one
      of the users `uids`. */
  predicate FromUsers(t: Tree, uids: seq<string>, o: Obj)
    requires ValidTree(t)
  {
    && "uid" in o && o["uid"].JStr? && o["uid"].s in uids
    && "id" in o && o["id"].JStr?
    && o["uid"].s in t.children && o["id"].s in t.children[o["uid"].s].children
    && o == Stamped(t, o["uid"].s, o["id"].s)
  }

  /** The (uid, id) pair a flattened record carries. */
  function PathOf(o: Obj): (Json, Json) {
    (Get(o, "uid", JNull), Get(o, "id", JNull))
  }

  /** No two elements carry the same (uid, id) pair. */
  predicate DistinctPaths(r: seq<Obj>) {
    forall i, j :: 0 <= i < j < |r| ==> PathOf(r[i]) != PathOf(r[j])
  }

  /** The records of the users `uids`, user by user. Every element is the
      stamped record its `uid` and `id` name; every record of those users is
      there; and no (uid, id) pair occurs twice. */
  function FlattenUsers(t: Tree, uids: seq<string>): (r: seq<Obj>)
    requires ValidTree(t) && forall k :: 0 <= k < |uids| ==> uids[k] in t.children
    ensures forall i :: 0 <= i < |r| ==> FromUsers(t, uids, r[i])
    ensures forall k, key :: 0 <= k < |uids| && key in t.children[uids[k]].children ==> Stamped(t, uids[k], key) in r
    ensures NoDuplicates(uids) ==> DistinctPaths(r)
    decreases |uids|
  {
    if |uids| == 0 then []
    else
      var head := FlattenUser(t, uids[0]);
      var rest := FlattenUsers(t, uids[1..]);
      var r := head + rest;
      FlattenSound(t, uids, head, rest, r);
      FlattenComplete(t, uids, head, rest, r);
      FlattenUnique(t, uids, head, rest, r);
      r
  }

  /** Induction step of `FlattenUsers`: every element comes from the tree. */
  lemma FlattenSound(t: Tree, uids: seq<string>, head: seq<Obj>, rest: seq<Obj>, r: seq<Obj>)
    requires ValidTree(t) && |uids| > 0 && forall k :: 0 <= k < |uids| ==> uids[k] in t.children
    requires head == FlattenUser(t, uids[0])
    requires forall i :: 0 <= i < |rest| ==> FromUsers(t, uids[1..], rest[i])
    requires r == head + rest
    ensures forall i :: 0 <= i < |r| ==> FromUsers(t, uids, r[i])
  {
    var n := t.children[uids[0]];
    forall i | 0 <= i < |r|
      ensures FromUsers(t, uids, r[i])
    {
      if i < |head| {
        assert r[i] == Stamped(t, uids[0], n.order[i]);
        assert n.order[i] in n.children;
      } else {
        assert r[i] == rest[i - |head|];
      }
    }
  }

  /** Induction step of `FlattenUsers`: every record of the users is there. */
  lemma FlattenComplete(t: Tree, uids: seq<string>, head: seq<Obj>, rest: seq<Obj>, r: seq<Obj>)
    requires ValidTree(t) && |uids| > 0 && forall k :: 0 <= k < |uids| ==> uids[k] in t.children
    requires head == FlattenUser(t, uids[0])
    requires forall k, key :: 0 <= k < |uids[1..]| && key in t.children[uids[1..][k]].children ==>
      Stamped(t, uids[1..][k], key) in rest
    requires r == head + rest
    ensures forall k, key :: 0 <= k < |uids| && key in t.children[uids[k]].children ==> Stamped(t, uids[k], key) in r
  {
    var n := t.children[uids[0]];
    forall k, key | 0 <= k < |uids| && key in t.children[uids[k]].children
      ensures Stamped(t, uids[k], key) in r
    {
      if k == 0 {
        var p :| 0 <= p < |n.order| && n.order[p] == key;
        assert r[p] == head[p];
      } else {
        assert uids[k] == uids[1..][k - 1];
        var q :| 0 <= q < |rest| && rest[q] == Stamped(t, uids[k], key);
        assert r[|head| + q] == rest[q];
      }
    }
  }

  /** Induction step of `FlattenUsers`: no (uid, id) pair repeats. */
  lemma FlattenUnique(t: Tree, uids: seq<string>, head: seq<Obj>, rest: seq<Obj>, r: seq<Obj>)
    requires ValidTree(t) && |uids| > 0 && forall k :: 0 <= k < |uids| ==> uids[k] in t.children
    requires head == FlattenUser(t, uids[0])
    requires forall i :: 0 <= i < |rest| ==> FromUsers(t, uids[1..], rest[i])
    requires NoDuplicates(uids[1..]) ==> DistinctPaths(rest)
    requires r == head + rest
    ensures NoDuplicates(uids) ==> DistinctPaths(r)
  {
    var n := t.children[uids[0]];
    assert forall i :: 0 <= i < |r| ==> r[i] == if i < |head| then head[i] else rest[i - |head|];
    if NoDuplicates(uids) {
      assert NoDuplicates(uids[1..]);
      forall i, j | 0 <= i < j < |r|
        ensures PathOf(r[i]) != PathOf(r[j])
      {
        if j < |head| {
          assert r[i]["id"] == JStr(n.order[i]) && r[j]["id"] == JStr(n.order[j]);
        } else if i < |head| {
          assert r[i]["uid"] == JStr(uids[0]);
          assert r[j] == rest[j - |head|];
          assert uids[0] !in uids[1..];
        } else {
          assert r[i] == rest[i - |head|] && r[j] == rest[j - |head|];
        }
      }
    }
  }

  /** `get_schedules_sdk()` / `get_schedules_rest()` on a successful read:
      every user's records, user by user, each stamped with its `id` and
      `uid`. A failed read yields []. */
  function Flatten(t: Tree, io: Outcome): (r: seq<Obj>)
    requires ValidTree(t)
    ensures io.Fails? ==> r == []
    ensures io.Done? ==> forall uid, key :: uid in t.children && key in t.children[uid].children ==> Stamped(t, uid, key) in r
    ensures forall i :: 0 <= i < |r| ==> FromUsers(t, t.order, r[i])
    ensures DistinctPaths(r)
  {
    if io.Fails? then []
    else
      assert forall k :: 0 <= k < |t.order| ==> t.order[k] in t.children;
      var r := FlattenUsers(t, t.order);
      forall uid, key | uid in t.children && key in t.children[uid].children
        ensures Stamped(t, uid, key) in r
      {
        var k :| 0 <= k < |t.order| && t.order[k] == uid;
      }
      r
  }

  // ---------------------------------------------------------------------
  // should_execute

  /** What `should_execute` does with one schedule: fires, declines, or
      raises (a `TypeError`, which the main loop's `except` catches). */
  datatype Verdict = Fire | Skip | Raises(error: string)

  /** Python values a `dict` can use as a key; a list or a dict cannot. */
  predicate Hashable(v: Json) {
    !v.JList? && !v.JObj?
  }

  /** `current_day in repeat` for a truthy `repeat`: membership in a list,
      a substring of a string, a key of a dict; a number or boolean is not
      iterable. */
  function DayListed(repeat: Json, day: string): (v: Verdict)
    requires PyTruthy(repeat)
    ensures v.Raises? <==> repeat.JNum? || repeat.JBool?
    ensures repeat.JList? ==> (v == Fire <==> JStr(day) in repeat.items)
    ensures repeat.JStr? ==> (v == Fire <==> IsInfix(day, repeat.s))
    ensures repeat.JObj? ==> (v == Fire <==> day in repeat.fields)
  {
    match repeat
    case JList(items) => if JStr(day) in items then Fire else Skip
    case JStr(s) => if IsInfix(day, s) then Fire else Skip
    case JObj(fields) => if day in fields then Fire else Skip
    case _ => Raises("TypeError: argument is not iterable")
  }

  /** A schedule whose `repeat` is missing or falsy runs at most once a day. */
  predicate OneTime(o: Obj) {
    !PyTruthy(Get(o, "repeat", JList([])))
  }

  /** `should_execute(schedule, current_time, current_day)`, with `today`
      the `%Y-%m-%d` date and `executed` the `executed_schedules` dict. */
  function ShouldExecute(o: Obj, currentTime: string, currentDay: string, today: string, executed: map<Json, string>): (v: Verdict)
    ensures !PyTruthy(Get(o, "enabled", JBool(true))) ==> v == Skip
    ensures Get(o, "time", JNull) != JStr(currentTime) ==> v == Skip
    ensures v == Fire ==> PyTruthy(Get(o, "enabled", JBool(true))) && "time" in o && o["time"] == JStr(currentTime)
    ensures PyTruthy(Get(o, "enabled", JBool(true))) && Get(o, "time", JNull) == JStr(currentTime) && OneTime(o) ==>
      && (v.Raises? <==> !Hashable(Get(o, "id", JNull)))
      && (v == Fire <==> Hashable(Get(o, "id", JNull)) && !(Get(o, "id", JNull) in executed && executed[Get(o, "id", JNull)] == today))
    ensures PyTruthy(Get(o, "enabled", JBool(true))) && Get(o, "time", JNull) == JStr(currentTime) && !OneTime(o) ==>
      v == DayListed(Get(o, "repeat", JList([])), currentDay)
  {
    if !PyTruthy(Get(o, "enabled", JBool(true))) then Skip
    else if Get(o, "time", JNull) != JStr(currentTime) then Skip
    else
      var repeat := Get(o, "repeat", JList([]));
      if !PyTruthy(repeat) then
        var id := Get(o, "id", JNull);
        if !Hashable(id) then Raises("TypeError: unhashable type")
        else if id in executed && executed[id] == today then Skip
        else Fire
      else DayListed(repeat, currentDay)
  }

  /** `mark_executed(schedule_id)`. */
  function MarkExecuted(executed: map<Json, string>, id: Json, today: string): (r: map<Json, string>)
    ensures id in r && r[id] == today
    ensures forall k :: k in executed && k != id ==> k in r && r[k] == executed[k]
    ensures r.Keys == executed.Keys + {id}
  {
    executed[id := today]
  }

  /** A one-time schedule that has fired and been marked does not fire again
      the same day, but fires again on any later day at its time. */
  lemma OneTimeOncePerDay(o: Obj, currentTime: string, currentDay: string, today: string, executed: map<Json, string>,
                          laterDay: string, later: string)
    requires OneTime(o)
    requires ShouldExecute(o, currentTime, currentDay, today, executed) == Fire
    requires later != today
    ensures ShouldExecute(o, currentTime, currentDay, today, MarkExecuted(executed, Get(o, "id", JNull), today)) == Skip
    ensures ShouldExecute(o, currentTime, laterDay, later, MarkExecuted(executed, Get(o, "id", JNull), today)) == Fire
  {
  }

  /** A repeating schedule's verdict ignores what has been executed. */
  lemma RepeatingIgnoresExecuted(o: Obj, currentTime: string, currentDay: string, today: string,
                                 e1: map<Json, string>, e2: map<Json, string>)
    requires !OneTime(o)
    ensures ShouldExecute(o, currentTime, currentDay, today, e1) == ShouldExecute(o, currentTime, currentDay, today, e2)
  {
  }

  // ---------------------------------------------------------------------
  // One pass of the main loop

  /** What one pass leaves behind: the executed-today dict, the actions posted
      to the LED server in order, and the error that ended the pass early. */
  datatype Pass = Pass(executed: map<Json, string>, sent: seq<Json>, error: Option<string>)

  /** Schedule `o` is due at `currentTime` and enabled (necessary for firing). */
  predicate DueNow(o: Obj, currentTime: string) {
    PyTruthy(Get(o, "enabled", JBool(true))) && "time" in o && o["time"] == JStr(currentTime)
  }

  /** `k` is in `after` with an entry that `before` did not have. */
  predicate NewMark(before: map<Json, string>, after: map<Json, string>, k: Json) {
    k in after && !(k in before && after[k] == before[k])
  }

  /** Some schedule with id `k` was due at `currentTime` and its post to
      the LED server succeeded. */
  predicate PostedOk(schedules: seq<Obj>, ledOk: seq<bool>, currentTime: string, k: Json)
    requires |ledOk| == |schedules|
  {
    exists i :: 0 <= i < |schedules| && ledOk[i] && DueNow(schedules[i], currentTime) && Get(schedules[i], "id", JNull) == k
  }

  /** The body of `while True` for one fetched list: each schedule that
      should execute has its `action` (default `'OFF'`) posted; `ledOk[i]`
      says whether that post answered 200. Only a successful post marks the
      schedule executed. A raised error ends the pass; marks made before it
      stay. */
  function RunPass(schedules: seq<Obj>, ledOk: seq<bool>, currentTime: string, currentDay: string, today: string,
                   executed: map<Json, string>): (r: Pass)
    requires |ledOk| == |schedules|
    ensures executed.Keys <= r.executed.Keys
    ensures forall k :: k in r.executed ==> (k in executed && r.executed[k] == executed[k]) || r.executed[k] == today
    ensures |r.sent| <= |schedules|
    ensures forall a :: a in r.sent ==>
      exists i :: 0 <= i < |schedules| && DueNow(schedules[i], currentTime) && Get(schedules[i], "action", JStr("OFF")) == a
    ensures forall k :: NewMark(executed, r.executed, k) ==> PostedOk(schedules, ledOk, currentTime, k)
    decreases |schedules|
  {
    if |schedules| == 0 then Pass(executed, [], None)
    else
      var o := schedules[0];
      match ShouldExecute(o, currentTime, currentDay, today, executed)
      case Raises(e) => Pass(executed, [], Some(e))
      case Skip => RunPassRest(schedules, ledOk, currentTime, currentDay, today, executed, executed, None)
      case Fire =>
        var id := Get(o, "id", JNull);
        if ledOk[0] && !Hashable(id) then Pass(executed, [Get(o, "action", JStr("OFF"))], Some("TypeError: unhashable type"))
        else
          var marked := if ledOk[0] then MarkExecuted(executed, id, today) else executed;
          RunPassRest(schedules, ledOk, currentTime, currentDay, today, executed, marked, Some(Get(o, "action", JStr("OFF"))))
  }

  /** The rest of a pass after its first schedule, with `posted` the action
      the first schedule sent, if any. */
  function RunPassRest(schedules: seq<Obj>, ledOk: seq<bool>, currentTime: string, currentDay: string, today: string,
                       executed: map<Json, string>, marked: map<Json, string>, posted: Option<Json>): (r: Pass)
    requires |ledOk| == |schedules| > 0
    requires executed.Keys <= marked.Keys
    requires forall k :: k in marked ==> (k in executed && marked[k] == executed[k]) || marked[k] == today
    requires posted.Some? ==> DueNow(schedules[0], currentTime) && posted.value == Get(schedules[0], "action", JStr("OFF"))
    requires forall k :: NewMark(executed, marked, k) ==>
      ledOk[0] && DueNow(schedules[0], currentTime) && Get(schedules[0], "id", JNull) == k
    ensures executed.Keys <= r.executed.Keys
    ensures forall k :: k in r.executed ==> (k in executed && r.executed[k] == executed[k]) || r.executed[k] == today
    ensures |r.sent| <= |schedules|
    ensures forall a :: a in r.sent ==>
      exists i :: 0 <= i < |schedules| && DueNow(schedules[i], currentTime) && Get(schedules[i], "action", JStr("OFF")) == a
    ensures forall k :: NewMark(executed, r.executed, k) ==> PostedOk(schedules, ledOk, currentTime, k)
    decreases |schedules|, 0
  {
    var rest := RunPass(schedules[1..], ledOk[1..], currentTime, currentDay, today, marked);
    var sent := (if posted.Some? then [posted.value] else []) + rest.sent;
    forall a | a in sent
      ensures exists i :: 0 <= i < |schedules| && DueNow(schedules[i], currentTime) && Get(schedules[i], "action", JStr("OFF")) == a
    {
      if a in rest.sent {
        var i :| 0 <= i < |schedules[1..]| && DueNow(schedules[1..][i], currentTime) && Get(schedules[1..][i], "action", JStr("OFF")) == a;
        assert schedules[1..][i] == schedules[i + 1];
      } else {
        assert DueNow(schedules[0], currentTime);
      }
    }
    forall k | NewMark(executed, rest.executed, k)
      ensures PostedOk(schedules, ledOk, currentTime, k)
    {
      if NewMark(marked, rest.executed, k) {
        var i :| 0 <= i < |schedules[1..]| && ledOk[1..][i] && DueNow(schedules[1..][i], currentTime)
          && Get(schedules[1..][i], "id", JNull) == k;
        assert schedules[1..][i] == schedules[i + 1] && ledOk[1..][i] == ledOk[i + 1];
      } else {
        assert NewMark(executed, marked, k);
      }
    }
    rest.(sent := sent)
  }

  /** The actions, in order, of the schedules whose verdict against
      `executed` is to fire. */
  function Firing(schedules: seq<Obj>, currentTime: string, currentDay: string, today: string,
                  executed: map<Json, string>): (r: seq<Json>)
    ensures |r| <= |schedules|
    ensures forall a :: a in r ==>
      exists i :: 0 <= i < |schedules| && ShouldExecute(schedules[i], currentTime, currentDay, today, executed) == Fire
        && Get(schedules[i], "action", JStr("OFF")) == a
  {
    if |schedules| == 0 then []
    else
      var rest := Firing(schedules[1..], currentTime, currentDay, today, executed);
      assert forall i :: 0 <= i < |schedules[1..]| ==> schedules[1..][i] == schedules[i + 1];
      (if ShouldExecute(schedules[0], currentTime, currentDay, today, executed) == Fire
       then [Get(schedules[0], "action", JStr("OFF"))] else []) + rest
  }

  /** No two schedules carry the same `id`. */
  predicate DistinctIds(schedules: seq<Obj>) {
    forall i, j :: 0 <= i < j < |schedules| ==> Get(schedules[i], "id", JNull) != Get(schedules[j], "id", JNull)
  }

  /** `e1` and `e2` say the same about key `k`. */
  predicate AgreeAt(e1: map<Json, string>, e2: map<Json, string>, k: Json) {
    (k in e1 <==> k in e2) && (k in e1 ==> e1[k] == e2[k])
  }

  /** Which schedules fire depends on the executed-today dict only at their
      own ids. */
  lemma {:induction false} FiringSeesOwnIds(schedules: seq<Obj>, currentTime: string, currentDay: string, today: string,
                                            e1: map<Json, string>, e2: map<Json, string>)
    requires forall i :: 0 <= i < |schedules| ==> AgreeAt(e1, e2, Get(schedules[i], "id", JNull))
    ensures Firing(schedules, currentTime, currentDay, today, e1) == Firing(schedules, currentTime, currentDay, today, e2)
  {
    if |schedules| > 0 {
      assert AgreeAt(e1, e2, Get(schedules[0], "id", JNull));
      assert forall i :: 0 <= i < |schedules[1..]| ==> schedules[1..][i] == schedules[i + 1];
      FiringSeesOwnIds(schedules[1..], currentTime, currentDay, today, e1, e2);
    }
  }

  /** A pass that ends without an error has posted exactly the actions of
      the schedules that were due when it began, in order, provided no two
      schedules share an id: the marks a pass makes can only silence a
      later schedule with the same id. */
  lemma {:induction false} PassPostsFiring(schedules: seq<Obj>, ledOk: seq<bool>, currentTime: string, currentDay: string,
                                           today: string, executed: map<Json, string>)
    requires |ledOk| == |schedules|
    requires DistinctIds(schedules)
    ensures var r := RunPass(schedules, ledOk, currentTime, currentDay, today, executed);
      r.error.None? ==> r.sent == Firing(schedules, currentTime, currentDay, today, executed)
    decreases |schedules|
  {
    if |schedules| > 0 {
      var o := schedules[0];
      var id := Get(o, "id", JNull);
      var v := ShouldExecute(o, currentTime, currentDay, today, executed);
      var marked := if v == Fire && ledOk[0] && Hashable(id) then MarkExecuted(executed, id, today) else executed;
      var tail := schedules[1..];
      assert forall i :: 0 <= i < |tail| ==> tail[i] == schedules[i + 1];
      assert DistinctIds(tail);
      PassPostsFiring(tail, ledOk[1..], currentTime, currentDay, today, marked);
      forall i | 0 <= i < |tail|
        ensures AgreeAt(marked, executed, Get(tail[i], "id", JNull))
      {
        assert Get(tail[i], "id", JNull) != id;
      }
      FiringSeesOwnIds(tail, currentTime, currentDay, today, marked, executed);
    }
  }

  /** When no schedule is due at `currentTime`, a pass posts nothing, marks
      nothing and raises nothing. */
  lemma {:induction false} QuietMinute(schedules: seq<Obj>, ledOk: seq<bool>, currentTime: string, currentDay: string,
                                       today: string, executed: map<Json, string>)
    requires |ledOk| == |schedules|
    requires forall i :: 0 <= i < |schedules| ==> Get(schedules[i], "time", JNull) != JStr(currentTime)
    ensures RunPass(schedules, ledOk, currentTime, currentDay, today, executed) == Pass(executed, [], None)
    decreases |schedules|
  {
    if |schedules| > 0 {
      assert forall i :: 0 <= i < |schedules[1..]| ==> schedules[1..][i] == schedules[i + 1];
      QuietMinute(schedules[1..], ledOk[1..], currentTime, currentDay, today, executed);
    }
  }

  /** A one-time schedule whose post succeeds is marked executed today. */
  lemma FiredOneTimeIsMarked(o: Obj, currentTime: string, currentDay: string, today: string, executed: map<Json, string>)
    requires OneTime(o)
    requires ShouldExecute(o, currentTime, currentDay, today, executed) == Fire
    ensures var r := RunPass([o], [true], currentTime, currentDay, today, executed);
      && r.error.None? && r.sent == [Get(o, "action", JStr("OFF"))]
      && Get(o, "id", JNull) in r.executed && r.executed[Get(o, "id", JNull)] == today
  {
    var marked := MarkExecuted(executed, Get(o, "id", JNull), today);
    assert RunPass([o][1..], [true][1..], currentTime, currentDay, today, marked) == Pass(marked, [], None);
  }
}

=== FILE: schedule_form.dfy ===
/** The add/edit form of src/screens/Schedule/AddScheduleScreen.js. It
    writes schedules with the field names the Raspberry Pi reads (`time`,
    `action`, `repeat`, `enabled`) for the fixed device `led-1`. The device
    clock and the time picker are inputs. */
module ScheduleForm {
  import opened Common
  import opened Json
  import opened Entities
  import opened Database

  // ---------------------------------------------------------------------
  // Days

  /** The keys of `DAYS`, Monday first, and their labels. */
  const DayKeys: seq<string> := ["Mon", "Tue", "Wed", "Thu", "Fri", "Sat", "Sun"]
  const DayLabels: seq<string> := ["T2", "T3", "T4", "T5", "T6", "T7", "CN"]

  /** `toggleDay(dayKey)`: a selected day is removed (every copy of it), an
      unselected one is appended. */
  function ToggleDay(days: seq<string>, key: string): (r: seq<string>)
    ensures key in r <==> key !in days
    ensures forall d :: d != key ==> (d in r <==> d in days)
    ensures key !in days ==> r == days + [key]
    ensures key in days ==> IsSubsequence(r, days)
  {
    if key in days then FilterOut(days, (d: string) => d == key) else days + [key]
  }

  /** Toggling a day twice brings back the same selection when it was not
      selected, and the same set of days in any case. */
  lemma ToggleDayTwice(days: seq<string>, key: string)
    ensures key !in days ==> ToggleDay(ToggleDay(days, key), key) == days
    ensures forall d :: d in ToggleDay(ToggleDay(days, key), key) <==> d in days
  {
    if key !in days {
      var once := days + [key];
      var twice := FilterOut(once, (d: string) => d == key);
      FilterOutAppendMatch(days, key, (d: string) => d == key);
      FilterOutNoMatch(days, (d: string) => d == key);
    }
  }

  /** Toggling never introduces a repeated day. */
  lemma ToggleDayKeepsDistinct(days: seq<string>, key: string)
    requires NoDuplicates(days)
    ensures NoDuplicates(ToggleDay(days, key))
  {
    if key in days {
      var r := ToggleDay(days, key);
      SubsequenceKeepsDistinct(r, days);
    }
  }

  lemma {:induction false} SubsequenceKeepsDistinct(sub: seq<string>, s: seq<string>)
    requires IsSubsequence(sub, s) && NoDuplicates(s)
    ensures NoDuplicates(sub)
    ensures forall x :: x in sub ==> x in s
    decreases |s|
  {
    if |sub| > 0 && |s| > 0 {
      assert NoDuplicates(s[1..]) by {
        forall i, j | 0 <= i < j < |s[1..]| ensures s[1..][i] != s[1..][j] {
          assert s[1..][i] == s[i + 1] && s[1..][j] == s[j + 1];
        }
      }
      if sub[0] == s[0] {
        SubsequenceKeepsDistinct(sub[1..], s[1..]);
        forall i, j | 0 <= i < j < |sub| ensures sub[i] != sub[j] {
          if i == 0 {
            assert sub[j] == sub[1..][j - 1];
            assert s[0] !in s[1..];
          } else {
            assert sub[i] == sub[1..][i - 1] && sub[j] == sub[1..][j - 1];
          }
        }
        forall x | x in sub ensures x in s {
          if x != sub[0] {
            assert x in sub[1..];
          }
        }
      } else {
        SubsequenceKeepsDistinct(sub, s[1..]);
      }
    }
  }

  /** `selectAllDays()`: clears a selection of seven days, otherwise selects
      all seven. */
  function SelectAllDays(days: seq<string>): (r: seq<string>)
    ensures |days| == 7 ==> r == []
    ensures |days| != 7 ==> |r| == 7 && forall i :: 0 <= i < 7 ==> r[i] == DayKeys[i]
  {
    if |days| == 7 then [] else DayKeys
  }

  /** Pressing "select all" twice from a partial selection clears it. */
  lemma SelectAllTwice(days: seq<string>)
    requires |days| != 7
    ensures SelectAllDays(SelectAllDays(days)) == []
  {
  }

  // ---------------------------------------------------------------------
  // Time

  /** A JavaScript `Date`'s time of day, or an invalid date. */
  datatype TimeValue = Clock(hour: nat, minute: nat) | InvalidTime {
    predicate WellFormed() {
      Clock? ==> hour < 24 && minute < 60
    }
  }

  /** `formatTime(date)`: "HH:MM", the form the Raspberry Pi compares
      against its clock, or "NaN:NaN" for an invalid date. */
  function FormatTime(t: TimeValue): (s: string)
    requires t.WellFormed()
    ensures t.Clock? ==> s == HourMinuteText(t.hour, t.minute)
    ensures t.InvalidTime? <==> s == "NaN:NaN"
  {
    match t
    case Clock(h, m) =>
      var s := HourMinuteText(h, m);
      assert s[0] != "NaN:NaN"[0];
      s
    case InvalidTime => "NaN:NaN"
  }

  /** `Number(part)` for the texts it can meet here: a run of decimal digits
      (the empty text is 0); anything else is `NaN` (`None`). */
  function ParseNumber(part: string): (n: Option<nat>)
    ensures n.Some? <==> forall i :: 0 <= i < |part| ==> IsDigit(part[i])
  {
    if forall i :: 0 <= i < |part| ==> IsDigit(part[i]) then Some(DigitsValue(part)) else None
  }

  /** A two-digit field reads back as its value, so the "HH:MM" the form
      saves is read back as the hour and minute it was made from. */
  lemma ParseNumberOfPad2(k: nat)
    requires k < 100
    ensures ParseNumber(Pad2(k)) == Some(k)
  {
  }

  /** `getInitialTime()`: the existing schedule's "H:M" set on today's date
      (so minutes and hours past their range carry over), or the present
      time `now` when there is none. A missing or non-numeric part gives an
      invalid date. */
  function InitialTime(existingTime: Option<string>, now: TimeValue): (t: TimeValue)
    requires now.WellFormed()
    ensures t.WellFormed()
    ensures existingTime.None? || existingTime.value == "" ==> t == now
  {
    if existingTime.None? || existingTime.value == "" then now
    else
      var parts := Split(existingTime.value, ':');
      var hours := ParseNumber(parts[0]);
      var minutes := if |parts| >= 2 then ParseNumber(parts[1]) else None;
      if hours.None? || minutes.None? then InvalidTime
      else
        var total := hours.value * 60 + minutes.value;
        Clock((total / 60) % 24, total % 60)
  }

  /** Opening a saved time in the form shows that same time. */
  lemma InitialTimeOfFormatted(t: TimeValue, now: TimeValue)
    requires t.WellFormed() && t.Clock? && now.WellFormed()
    ensures InitialTime(Some(FormatTime(t)), now) == t
  {
    var s := FormatTime(t);
    SplitTimeText(t.hour, t.minute);
    MinutesOfDay(t.hour, t.minute);
  }

  lemma SplitTimeText(hour: nat, minute: nat)
    requires hour < 24 && minute < 60
    ensures Split(HourMinuteText(hour, minute), ':') == [Pad2(hour), Pad2(minute)]
  {
    var s := HourMinuteText(hour, minute);
    assert FindFirst(s, (c: char) => c == ':') == Some(2);
    assert s[2 + 1..] == Pad2(minute);
  }

  lemma MinutesOfDay(hour: nat, minute: nat)
    requires hour < 24 && minute < 60
    ensures ((hour * 60 + minute) / 60) % 24 == hour && (hour * 60 + minute) % 60 == minute
  {
  }

  /** `onTimeChange`: a picked time replaces the time; a dismissed picker
      keeps it. */
  function OnTimeChange(time: TimeValue, picked: Option<TimeValue>): (r: TimeValue)
    ensures picked.Some? ==> r == picked.value
    ensures picked.None? ==> r == time
  {
    if picked.Some? then picked.value else time
  }

  // ---------------------------------------------------------------------
  // The form and its payload

  /** Every item is a string. */
  predicate AllStrings(items: seq<Json>) {
    forall i :: 0 <= i < |items| ==> items[i].JStr?
  }

  datatype Form = Form(time: TimeValue, action: Json, repeatDays: seq<string>)

  /** A stored `time` that `getInitialTime` cannot open: a truthy value
      that is not a string has no `split`, so rendering the form throws. */
  predicate TimeUnopenable(time: Json) {
    JsTruthy(time) && !time.JStr?
  }

  /** The form's initial state for the schedule being edited (`None` when
      adding): its time, its action when truthy (else "ON") and its repeat
      list when that is a list of strings (else none). `None` is the
      TypeError an unopenable `time` raises while the screen renders. */
  function InitialForm(existing: Option<Obj>, now: TimeValue): (r: Option<Form>)
    requires now.WellFormed()
    ensures r.None? <==> existing.Some? && TimeUnopenable(Get(existing.value, "time", JNull))
    ensures r.Some? ==> r.value.time.WellFormed()
    ensures existing.None? ==> r == Some(Form(now, JStr("ON"), []))
    ensures existing.Some? && r.Some? && !JsTruthy(Get(existing.value, "time", JNull)) ==> r.value.time == now
    ensures existing.Some? && Get(existing.value, "time", JNull).JStr? ==>
      r.Some? && r.value.time == InitialTime(Some(existing.value["time"].s), now)
    ensures existing.Some? && r.Some? && JsTruthy(Get(existing.value, "action", JNull)) ==>
      r.value.action == existing.value["action"]
    ensures existing.Some? && r.Some? && !JsTruthy(Get(existing.value, "action", JNull)) ==> r.value.action == JStr("ON")
    ensures existing.Some? && r.Some? && Get(existing.value, "repeat", JNull).JList?
            && AllStrings(existing.value["repeat"].items) ==>
      StringsToJson(r.value.repeatDays) == existing.value["repeat"].items
    ensures existing.Some? && r.Some? && !JsTruthy(Get(existing.value, "repeat", JNull)) ==> r.value.repeatDays == []
  {
    match existing
    case None => Some(Form(now, JStr("ON"), []))
    case Some(o) =>
      var stored := Get(o, "time", JNull);
      if TimeUnopenable(stored) then None
      else
        var time := if stored.JStr? then Some(stored.s) else None;
        var action := if JsTruthy(Get(o, "action", JNull)) then o["action"] else JStr("ON");
        var repeat := match Get(o, "repeat", JNull) case JList(items) => JsonToStrings(items).GetOr([]) case _ => [];
        Some(Form(InitialTime(time, now), action, repeat))
  }

  /** The action buttons set "ON" or "OFF". */
  function SetAction(f: Form, on: bool): (r: Form)
    ensures r.action == JStr(PowerText(on)) && r.time == f.time && r.repeatDays == f.repeatDays
  {
    f.(action := JStr(PowerText(on)))
  }

  /** `existingSchedule?.enabled ?? true`. */
  function EnabledFlag(existing: Option<Obj>): (v: Json)
    ensures existing.None? ==> v == JBool(true)
    ensures existing.Some? && "enabled" in existing.value && existing.value["enabled"] != JNull ==>
      v == existing.value["enabled"]
    ensures v != JNull
  {
    if existing.Some? && "enabled" in existing.value && existing.value["enabled"] != JNull then existing.value["enabled"]
    else JBool(true)
  }

  /** The device every schedule the form writes is for. */
  const FormDeviceId: string := "led-1"

  /** `scheduleData`. */
  function Payload(f: Form, existing: Option<Obj>): (o: Obj)
    requires f.time.WellFormed()
    ensures o.Keys == {"time", "action", "repeat", "enabled", "deviceId"}
    ensures o["time"] == JStr(FormatTime(f.time)) && o["action"] == f.action
    ensures o["repeat"] == JList(StringsToJson(f.repeatDays))
    ensures o["enabled"] == EnabledFlag(existing) && o["deviceId"] == JStr(FormDeviceId)
  {
    map["time" := JStr(FormatTime(f.time)), "action" := f.action, "repeat" := JList(StringsToJson(f.repeatDays)),
        "enabled" := EnabledFlag(existing), "deviceId" := JStr(FormDeviceId)]
  }

  // ---------------------------------------------------------------------
  // handleSave

  /** The write the form asks the service for. */
  datatype SaveRequest = UpdateRequest(id: Json, data: Obj) | AddRequest(data: Obj)

  /** What a press of "save" ends in: the sign-in alert (nothing sent), the
      screen closing after the request completed, or the failure alert with
      the message it shows. */
  datatype SaveResult = LoginRequired | Saved(request: SaveRequest) | SaveFailed(request: SaveRequest, message: string)

  /** The one message the failure alert shows, whatever the error was. */
  const SaveFailedText: string := "Không thể lưu lịch hẹn. Vui lòng thử lại."

  /** The request `handleSave` makes: an update of the edited schedule's
      `id`, or an add. */
  function Request(f: Form, existing: Option<Obj>): (q: SaveRequest)
    requires f.time.WellFormed()
    ensures existing.Some? <==> q.UpdateRequest?
    ensures q.data == Payload(f, existing)
    ensures existing.Some? ==> q.id == Get(existing.value, "id", JNull)
  {
    if existing.Some? then UpdateRequest(Get(existing.value, "id", JNull), Payload(f, existing))
    else AddRequest(Payload(f, existing))
  }

  /** The service method a request calls. */
  function MethodName(q: SaveRequest): string {
    if q.UpdateRequest? then "updateSchedule" else "addSchedule"
  }

  /** `handleSave()` as written: the request goes through `Invoke`, so it
      fails whenever the service has no method of that name. */
  function HandleSaveAsWritten(f: Form, authenticated: bool, existing: Option<Obj>, remote: Outcome): (r: SaveResult)
    requires f.time.WellFormed()
    ensures !authenticated ==> r == LoginRequired
    ensures authenticated ==> r.Saved? || r.SaveFailed?
    ensures authenticated ==> r.request == Request(f, existing)
    ensures r.SaveFailed? ==> r.message == SaveFailedText
  {
    if !authenticated then LoginRequired
    else
      var q := Request(f, existing);
      match Invoke(MethodName(q), remote)
      case Done => Saved(q)
      case Fails(_) => SaveFailed(q, SaveFailedText)
  }

  /** Neither `updateSchedule` nor `addSchedule` is a method of the service,
      so as written no press of "save" ever saves, whatever the network
      does. */
  lemma AsWrittenNeverSaves(f: Form, authenticated: bool, existing: Option<Obj>, remote: Outcome)
    requires f.time.WellFormed()
    ensures !HandleSaveAsWritten(f, authenticated, existing, remote).Saved?
  {
  }

  /** `handleSave()` with the two calls routed to a remote schedule write
      that completes as `remote` says: a signed-in user's request is saved
      exactly when that write completes. */
  function HandleSave(f: Form, authenticated: bool, existing: Option<Obj>, remote: Outcome): (r: SaveResult)
    requires f.time.WellFormed()
    ensures !authenticated ==> r == LoginRequired
    ensures authenticated && remote.Done? ==> r == Saved(Request(f, existing))
    ensures authenticated && remote.Fails? ==> r == SaveFailed(Request(f, existing), SaveFailedText)
  {
    if !authenticated then LoginRequired
    else match remote
      case Done => Saved(Request(f, existing))
      case Fails(_) => SaveFailed(Request(f, existing), SaveFailedText)
  }

  /** Editing keeps the schedule's `enabled` flag and time; a new schedule is
      enabled. */
  lemma SaveKeepsEnabledAndTime(existing: Obj, now: TimeValue)
    requires now.WellFormed()
    requires "time" in existing && existing["time"].JStr?
    requires exists t: TimeValue :: t.WellFormed() && t.Clock? && existing["time"].s == FormatTime(t)
    ensures var f := InitialForm(Some(existing), now);
      && f.Some?
      && Payload(f.value, Some(existing))["time"] == existing["time"]
      && ("enabled" in existing && existing["enabled"] != JNull ==>
            Payload(f.value, Some(existing))["enabled"] == existing["enabled"])
    ensures Payload(InitialForm(None, now).value, None)["enabled"] == JBool(true)
  {
    var t: TimeValue :| t.WellFormed() && t.Clock? && existing["time"].s == FormatTime(t);
    InitialTimeOfFormatted(t, now);
  }
}

=== FILE: schedule_list.dfy ===
/** The schedule list of src/screens/Schedule/ScheduleScreen.js: the
    signed-in user's schedules as read from the database (decoded JSON
    objects using the field names `enabled` and `repeat`), with a switch and
    a delete button per schedule. */
module ScheduleList {
  import opened Common
  import opened Json
  import opened Database
  import ScheduleForm

  /** The list after an action, and the alert it raised, if any. */
  datatype ListStep = ListStep(items: seq<Obj>, alert: Option<string>)

  const UpdateFailedText: string := "Không thể cập nhật lịch hẹn"
  const DeleteFailedText: string := "Không thể xóa lịch hẹn"

  /** `s.id === scheduleId` (a missing id reads as `null`). */
  predicate HasId(o: Obj, id: Json) {
    Get(o, "id", JNull) == id
  }

  /** `loadSchedules()`: nothing for a signed-out user, otherwise what
      `getSchedules` read from the user's schedules (it never throws, and
      reports failures as []). */
  function LoadSchedules(authenticated: bool, db: Db, session: Session, io: Outcome): (r: seq<Obj>)
    requires db.Valid()
    ensures !authenticated ==> r == []
    ensures authenticated ==> r == ReadList(db.schedules, session, io)
    ensures authenticated && session.Some? && io.Done? ==> |r| == |UserNode(db.schedules, session.value).order|
  {
    if authenticated then GetSchedules(db, session, io) else []
  }

  // ---------------------------------------------------------------------
  // Toggle

  /** The local update after a successful remote update: `enabled` becomes
      the negation of the switch's current value in every schedule with that
      id; the others are untouched. */
  function SetEnabled(items: seq<Obj>, scheduleId: Json, currentEnabled: Json): (r: seq<Obj>)
    ensures |r| == |items|
    ensures forall i :: 0 <= i < |items| && !HasId(items[i], scheduleId) ==> r[i] == items[i]
    ensures forall i :: 0 <= i < |items| && HasId(items[i], scheduleId) ==>
      r[i] == items[i]["enabled" := JBool(!JsTruthy(currentEnabled))]
  {
    seq(|items|, i requires 0 <= i < |items| =>
      if HasId(items[i], scheduleId) then items[i]["enabled" := JBool(!JsTruthy(currentEnabled))] else items[i])
  }

  /** `toggleSchedule(scheduleId, currentEnabled)` as written: the update goes
      through `Invoke("updateSchedule", ...)`. */
  function ToggleItemAsWritten(items: seq<Obj>, scheduleId: Json, currentEnabled: Json, remote: Outcome): (r: ListStep)
    ensures Invoke("updateSchedule", remote).Fails? ==> r == ListStep(items, Some(UpdateFailedText))
    ensures Invoke("updateSchedule", remote).Done? ==> r == ListStep(SetEnabled(items, scheduleId, currentEnabled), None)
  {
    match Invoke("updateSchedule", remote)
    case Done => ListStep(SetEnabled(items, scheduleId, currentEnabled), None)
    case Fails(_) => ListStep(items, Some(UpdateFailedText))
  }

  /** The service has no `updateSchedule`, so as written the switch never
      changes anything and always raises the alert. */
  lemma ToggleAsWrittenNeverApplies(items: seq<Obj>, scheduleId: Json, currentEnabled: Json, remote: Outcome)
    ensures ToggleItemAsWritten(items, scheduleId, currentEnabled, remote) == ListStep(items, Some(UpdateFailedText))
  {
  }

  /** `toggleSchedule` with its update routed to a remote write that
      completes as `remote` says: the list changes exactly when it does. */
  function ToggleItem(items: seq<Obj>, scheduleId: Json, currentEnabled: Json, remote: Outcome): (r: ListStep)
    ensures remote.Fails? ==> r == ListStep(items, Some(UpdateFailedText))
    ensures remote.Done? ==> r.alert.None? && r.items == SetEnabled(items, scheduleId, currentEnabled)
  {
    match remote
    case Done => ListStep(SetEnabled(items, scheduleId, currentEnabled), None)
    case Fails(_) => ListStep(items, Some(UpdateFailedText))
  }

  /** Flipping the switch twice, both writes succeeding, restores the
      schedules' `enabled` flag when it was a boolean. */
  lemma ToggleTwiceRestores(items: seq<Obj>, scheduleId: Json, b: bool)
    requires forall i :: 0 <= i < |items| && HasId(items[i], scheduleId) ==>
      "enabled" in items[i] && items[i]["enabled"] == JBool(b)
    ensures var once := ToggleItem(items, scheduleId, JBool(b), Done).items;
      var twice := ToggleItem(once, scheduleId, JBool(!b), Done).items;
      |twice| == |items| && forall i :: 0 <= i < |items| ==> twice[i] == items[i]
  {
    var once := ToggleItem(items, scheduleId, JBool(b), Done).items;
    var twice := ToggleItem(once, scheduleId, JBool(!b), Done).items;
    forall i | 0 <= i < |items|
      ensures twice[i] == items[i]
    {
      if HasId(items[i], scheduleId) {
        assert HasId(once[i], scheduleId);
        assert twice[i] == items[i]["enabled" := JBool(b)];
      }
    }
  }

  // ---------------------------------------------------------------------
  // Delete

  /** `prev.filter(s => s.id !== scheduleId)`. */
  function WithoutId(items: seq<Obj>, scheduleId: Json): (r: seq<Obj>)
    ensures forall i :: 0 <= i < |r| ==> !HasId(r[i], scheduleId)
    ensures forall i :: 0 <= i < |items| && !HasId(items[i], scheduleId) ==> items[i] in r
    ensures IsSubsequence(r, items)
    ensures |r| == |items| - CountWhere(items, (o: Obj) => HasId(o, scheduleId))
  {
    FilterOut(items, (o: Obj) => HasId(o, scheduleId))
  }

  /** The confirmed delete as written: `deleteSchedule` reports failures in
      its reply instead of throwing, so the catch never runs and the
      schedule leaves the list whatever the reply says. */
  function DeleteItemAsWritten(items: seq<Obj>, scheduleId: Json, reply: Reply): (r: ListStep)
    ensures r.alert.None?
    ensures r.items == WithoutId(items, scheduleId)
  {
    ListStep(WithoutId(items, scheduleId), None)
  }

  /** As written, a delete the database refused still removes the schedule
      from the screen and shows no alert. */
  lemma DeleteAsWrittenIgnoresFailure(items: seq<Obj>, scheduleId: Json, error: string)
    requires exists i :: 0 <= i < |items| && HasId(items[i], scheduleId)
    ensures DeleteItemAsWritten(items, scheduleId, Failure(error)).alert.None?
    ensures |DeleteItemAsWritten(items, scheduleId, Failure(error)).items| < |items|
  {
    var i :| 0 <= i < |items| && HasId(items[i], scheduleId);
    CountPositive(items, (o: Obj) => HasId(o, scheduleId), i);
  }

  /** The delete with the reply checked: the schedule leaves the list only
      when the database removed it; a refusal keeps it and raises the
      alert. */
  function DeleteItem(items: seq<Obj>, scheduleId: Json, reply: Reply): (r: ListStep)
    ensures reply.Success? ==> r == ListStep(WithoutId(items, scheduleId), None)
    ensures reply.Failure? ==> r == ListStep(items, Some(DeleteFailedText))
  {
    match reply
    case Success => ListStep(WithoutId(items, scheduleId), None)
    case Failure(_) => ListStep(items, Some(DeleteFailedText))
  }

  // ---------------------------------------------------------------------
  // formatRepeatDays

  /** `dayMap` of `formatRepeatDays`. */
  const DayMap: map<string, string> :=
    map["Mon" := "T2", "Tue" := "T3", "Wed" := "T4", "Thu" := "T5", "Fri" := "T6", "Sat" := "T7", "Sun" := "CN"]

  /** `dayMap[d] || d`. */
  function DayLabel(d: string): (l: string)
    ensures d in DayMap ==> l == DayMap[d]
    ensures d !in DayMap ==> l == d
  {
    if d in DayMap then DayMap[d] else d
  }

  /** The list screen's labels agree with the form's `DAYS` table. */
  lemma DayMapAgreesWithForm()
    ensures DayMap.Keys == set d | d in ScheduleForm.DayKeys
    ensures forall i :: 0 <= i < 7 ==> DayLabel(ScheduleForm.DayKeys[i]) == ScheduleForm.DayLabels[i]
  {
  }

  const OnceText: string := "Một lần"
  const DailyText: string := "Hàng ngày"

  function Labels(repeat: seq<string>): (ls: seq<string>)
    ensures |ls| == |repeat|
    ensures forall i :: 0 <= i < |repeat| ==> ls[i] == DayLabel(repeat[i])
  {
    seq(|repeat|, i requires 0 <= i < |repeat| => DayLabel(repeat[i]))
  }

  /** `formatRepeatDays(repeat)` for a missing or list-valued `repeat`: once,
      daily for seven entries, otherwise the labels joined by ", ". */
  function FormatRepeatDays(repeat: Option<seq<string>>): (t: string)
    ensures repeat.None? || repeat.value == [] ==> t == OnceText
    ensures repeat.Some? && |repeat.value| == 7 ==> t == DailyText
    ensures repeat.Some? && 0 < |repeat.value| < 7 ==> t == JoinWith(Labels(repeat.value), ", ")
  {
    if repeat.None? || |repeat.value| == 0 then OnceText
    else if |repeat.value| == 7 then DailyText
    else JoinWith(Labels(repeat.value), ", ")
  }

  /** The form's "select all" shows as daily; no selection shows as once;
      a single day shows as its label. */
  lemma FormatFormSelections(days: seq<string>, i: nat)
    requires |days| != 7 && i < 7
    ensures FormatRepeatDays(Some(ScheduleForm.SelectAllDays(days))) == DailyText
    ensures FormatRepeatDays(Some(ScheduleForm.SelectAllDays(ScheduleForm.SelectAllDays(days)))) == OnceText
    ensures FormatRepeatDays(Some([ScheduleForm.DayKeys[i]])) == ScheduleForm.DayLabels[i]
  {
    DayMapAgreesWithForm();
  }
}

=== FILE: schedules.dfy ===
/** The schedule store of src/context/ScheduleContext.js. Its records use
    the field names `isEnabled` and `repeatDays` (the screens and the
    Raspberry Pi use `enabled` and `repeat`; see ScheduleForm and
    ScheduleChecker). */
module Schedules {
  import opened Common
  import opened Entities
  import opened Database

  datatype ScheduleState = ScheduleState(schedules: seq<Schedule>, isLoading: bool)

  const Initial: ScheduleState := ScheduleState([], true)

  /** A state change together with its side effects. */
  datatype Step = Step(state: ScheduleState, effects: Effects<Schedule>)

  /** `schedules.find(s => s.id === scheduleId)`, as a position. */
  function FindSchedule(ss: seq<Schedule>, id: string): (r: Option<nat>)
    ensures r.Some? ==> r.value < |ss| && ss[r.value].id == id && forall j :: 0 <= j < r.value ==> ss[j].id != id
    ensures r.None? ==> forall j :: 0 <= j < |ss| ==> ss[j].id != id
  {
    FindFirst(ss, (x: Schedule) => x.id == id)
  }

  // ---------------------------------------------------------------------
  // addSchedule

  /** The fields `addSchedule` takes from its argument; an empty `id` is
      falsy and gets replaced. */
  datatype ScheduleDraft = ScheduleDraft(id: string, deviceId: string, time: string, action: string, repeatDays: seq<string>)

  function GeneratedScheduleId(now: nat): string {
    "schedule-" + NatToString(now)
  }

  /** The schedule `addSchedule` builds: enabled, created `now`. */
  function NewSchedule(draft: ScheduleDraft, now: nat): (s: Schedule)
    ensures s.id == (if draft.id != "" then draft.id else GeneratedScheduleId(now))
    ensures s.isEnabled && s.createdAt == now
    ensures s.deviceId == draft.deviceId && s.time == draft.time && s.action == draft.action
    ensures s.repeatDays == draft.repeatDays
  {
    Schedule(if draft.id != "" then draft.id else GeneratedScheduleId(now),
             draft.deviceId, draft.time, draft.action, draft.repeatDays, true, now)
  }

  /** `addSchedule(schedule)`: exactly one schedule is appended. */
  function AddSchedule(s: ScheduleState, draft: ScheduleDraft, now: nat, authenticated: bool): (r: Step)
    ensures |r.state.schedules| == |s.schedules| + 1
    ensures r.state.schedules[..|s.schedules|] == s.schedules
    ensures r.state.schedules[|s.schedules|] == NewSchedule(draft, now)
    ensures r.state.isLoading == s.isLoading
    ensures r.effects.saved == Some(r.state.schedules)
    ensures r.effects.calls == (if authenticated then [SaveScheduleCall(NewSchedule(draft, now))] else [])
  {
    var added := NewSchedule(draft, now);
    var schedules := s.schedules + [added];
    Step(s.(schedules := schedules), Effects(Some(schedules), if authenticated then [SaveScheduleCall(added)] else []))
  }

  // ---------------------------------------------------------------------
  // updateSchedule, toggleSchedule

  /** The keys an `updates` object carries; `None` keeps the old value. */
  datatype SchedulePatch = SchedulePatch(
    id: Option<string>,
    deviceId: Option<string>,
    time: Option<string>,
    action: Option<string>,
    repeatDays: Option<seq<string>>,
    isEnabled: Option<bool>,
    createdAt: Option<int>)

  /** `{...schedule, ...updates}`. */
  function ApplySchedulePatch(s: Schedule, p: SchedulePatch): (r: Schedule)
    ensures r.id == p.id.GetOr(s.id) && r.deviceId == p.deviceId.GetOr(s.deviceId)
    ensures r.time == p.time.GetOr(s.time) && r.action == p.action.GetOr(s.action)
    ensures r.repeatDays == p.repeatDays.GetOr(s.repeatDays)
    ensures r.isEnabled == p.isEnabled.GetOr(s.isEnabled) && r.createdAt == p.createdAt.GetOr(s.createdAt)
  {
    Schedule(p.id.GetOr(s.id), p.deviceId.GetOr(s.deviceId), p.time.GetOr(s.time), p.action.GetOr(s.action),
             p.repeatDays.GetOr(s.repeatDays), p.isEnabled.GetOr(s.isEnabled), p.createdAt.GetOr(s.createdAt))
  }

  /** The patch `toggleSchedule` sends: `{isEnabled: value}`. */
  function EnabledPatch(value: bool): SchedulePatch {
    SchedulePatch(None, None, None, None, None, Some(value), None)
  }

  /** `updateSchedule(scheduleId, updates)`: merged into every schedule
      with that id and into no other. The first schedule that has the id
      afterwards is saved remotely. */
  function UpdateSchedule(s: ScheduleState, scheduleId: string, p: SchedulePatch, authenticated: bool): (r: Step)
    ensures |r.state.schedules| == |s.schedules|
    ensures forall i :: 0 <= i < |s.schedules| && s.schedules[i].id != scheduleId ==> r.state.schedules[i] == s.schedules[i]
    ensures forall i :: 0 <= i < |s.schedules| && s.schedules[i].id == scheduleId ==>
      r.state.schedules[i] == ApplySchedulePatch(s.schedules[i], p)
    ensures r.state.isLoading == s.isLoading
    ensures r.effects.saved == Some(r.state.schedules)
    ensures |r.effects.calls| == (if authenticated && FindSchedule(r.state.schedules, scheduleId).Some? then 1 else 0)
    ensures |r.effects.calls| == 1 ==>
      r.effects.calls[0] == SaveScheduleCall(r.state.schedules[FindSchedule(r.state.schedules, scheduleId).value])
  {
    var schedules := seq(|s.schedules|, i requires 0 <= i < |s.schedules| =>
      if s.schedules[i].id == scheduleId then ApplySchedulePatch(s.schedules[i], p) else s.schedules[i]);
    var calls :=
      if !authenticated then []
      else match FindSchedule(schedules, scheduleId)
        case None => []
        case Some(i) => [SaveScheduleCall(schedules[i])];
    Step(s.(schedules := schedules), Effects(Some(schedules), calls))
  }

  /** `toggleSchedule(scheduleId)`: sets `isEnabled` of the schedules with
      that id to the negation of the first one's; an unknown id changes
      nothing and has no effect. */
  function ToggleSchedule(s: ScheduleState, scheduleId: string, authenticated: bool): (r: Step)
    ensures FindSchedule(s.schedules, scheduleId).None? ==> r == Step(s, Effects(None, []))
    ensures FindSchedule(s.schedules, scheduleId).Some? ==>
      var flipped := !s.schedules[FindSchedule(s.schedules, scheduleId).value].isEnabled;
      && |r.state.schedules| == |s.schedules|
      && (forall i :: 0 <= i < |s.schedules| && s.schedules[i].id != scheduleId ==> r.state.schedules[i] == s.schedules[i])
      && (forall i :: 0 <= i < |s.schedules| && s.schedules[i].id == scheduleId ==>
            r.state.schedules[i] == s.schedules[i].(isEnabled := flipped))
      && r.effects.saved == Some(r.state.schedules)
      && r.effects.calls == (if authenticated then [SaveScheduleCall(r.state.schedules[FindSchedule(s.schedules, scheduleId).value])] else [])
  {
    match FindSchedule(s.schedules, scheduleId)
    case None => Step(s, Effects(None, []))
    case Some(i) => UpdateSchedule(s, scheduleId, EnabledPatch(!s.schedules[i].isEnabled), authenticated)
  }

  /** When the schedules sharing an id agree on `isEnabled` (in particular
      when ids are unique), toggling twice restores the list. */
  lemma ToggleTwiceRestores(s: ScheduleState, scheduleId: string, authenticated: bool)
    requires forall i, j ::
      0 <= i < |s.schedules| && 0 <= j < |s.schedules| && s.schedules[i].id == scheduleId && s.schedules[j].id == scheduleId
      ==> s.schedules[i].isEnabled == s.schedules[j].isEnabled
    ensures ToggleSchedule(ToggleSchedule(s, scheduleId, authenticated).state, scheduleId, authenticated).state.schedules
         == s.schedules
  {
    var once := ToggleSchedule(s, scheduleId, authenticated).state;
    if FindSchedule(s.schedules, scheduleId).Some? {
      var k := FindSchedule(s.schedules, scheduleId).value;
      assert FindSchedule(once.schedules, scheduleId) == Some(k) by {
        assert once.schedules[k].id == scheduleId;
        assert forall j :: 0 <= j < k ==> once.schedules[j].id != scheduleId;
      }
      var twice := ToggleSchedule(once, scheduleId, authenticated).state;
      assert forall i :: 0 <= i < |s.schedules| ==> twice.schedules[i] == s.schedules[i];
    }
  }

  // ---------------------------------------------------------------------
  // removeSchedule, getSchedulesForDevice

  /** `removeSchedule(scheduleId)`: exactly the schedules with that id go;
      the others stay in order. */
  function RemoveSchedule(s: ScheduleState, scheduleId: string, authenticated: bool): (r: Step)
    ensures forall i :: 0 <= i < |r.state.schedules| ==> r.state.schedules[i].id != scheduleId
    ensures forall i :: 0 <= i < |s.schedules| && s.schedules[i].id != scheduleId ==> s.schedules[i] in r.state.schedules
    ensures IsSubsequence(r.state.schedules, s.schedules)
    ensures |r.state.schedules| == |s.schedules| - CountWhere(s.schedules, (x: Schedule) => x.id == scheduleId)
    ensures r.state.isLoading == s.isLoading
    ensures r.effects.saved == Some(r.state.schedules)
    ensures r.effects.calls == (if authenticated then [DeleteScheduleCall(scheduleId)] else [])
  {
    var schedules := FilterOut(s.schedules, (x: Schedule) => x.id == scheduleId);
    Step(s.(schedules := schedules), Effects(Some(schedules), if authenticated then [DeleteScheduleCall(scheduleId)] else []))
  }

  /** `getSchedulesForDevice(deviceId)`: exactly the schedules of that
      device, in their order. */
  function SchedulesForDevice(s: ScheduleState, deviceId: string): (r: seq<Schedule>)
    ensures forall i :: 0 <= i < |r| ==> r[i].deviceId == deviceId
    ensures forall i :: 0 <= i < |s.schedules| && s.schedules[i].deviceId == deviceId ==> s.schedules[i] in r
    ensures IsSubsequence(r, s.schedules)
    ensures |r| == |s.schedules| - CountWhere(s.schedules, (x: Schedule) => x.deviceId != deviceId)
  {
    FilterOut(s.schedules, (x: Schedule) => x.deviceId != deviceId)
  }

  // ---------------------------------------------------------------------
  // Loading

  /** The `subscribeToSchedules` callback: the pushed list replaces the
      schedules, even when it is empty, and is cached. */
  function OnSchedulesPush(s: ScheduleState, pushed: seq<Schedule>): (r: Step)
    ensures r.state.schedules == pushed && !r.state.isLoading
    ensures r.effects.saved == Some(pushed) && r.effects.calls == []
  {
    Step(ScheduleState(pushed, false), Effects(Some(pushed), []))
  }

  /** `loadLocalSchedules()`: the cached list when there is one; otherwise
      the schedules stay as they were. */
  function LoadLocalSchedules(s: ScheduleState, cache: CacheEntry<Schedule>): (r: ScheduleState)
    ensures !r.isLoading
    ensures cache.Stored? ==> r.schedules == cache.items
    ensures !cache.Stored? ==> r.schedules == s.schedules
  {
    match cache
    case Stored(items) => ScheduleState(items, false)
    case _ => s.(isLoading := false)
  }

  /** One change the context makes to its schedules. */
  datatype ScheduleChange =
    | AddChange(draft: ScheduleDraft, now: nat)
    | UpdateChange(updateId: string, patch: SchedulePatch)
    | RemoveChange(removeId: string)
    | ToggleChange(toggleId: string)
    | PushChange(pushed: seq<Schedule>)

  /** A change either caches exactly the list it produces, or caches
      nothing and keeps the list. */
  function ApplyChange(s: ScheduleState, c: ScheduleChange, authenticated: bool): (r: Step)
    ensures r.effects.saved.Some? ==> r.effects.saved.value == r.state.schedules
    ensures r.effects.saved.None? ==> r.state.schedules == s.schedules
  {
    match c
    case AddChange(draft, now) => AddSchedule(s, draft, now, authenticated)
    case UpdateChange(id, p) => UpdateSchedule(s, id, p, authenticated)
    case RemoveChange(id) => RemoveSchedule(s, id, authenticated)
    case ToggleChange(id) => ToggleSchedule(s, id, authenticated)
    case PushChange(pushed) => OnSchedulesPush(s, pushed)
  }

  /** The state and the local cache after a run of changes, where
      `writes[i]` is how the cache write of `changes[i]` ended. A change
      that saves nothing, or whose write fails (`saveSchedulesLocal` logs
      the error and goes on), leaves the cache as it was. */
  function RunChanges(s: ScheduleState, cache: CacheEntry<Schedule>, changes: seq<ScheduleChange>,
                      writes: seq<Outcome>, authenticated: bool): (r: (ScheduleState, CacheEntry<Schedule>))
    requires |writes| == |changes|
    ensures changes == [] ==> r == (s, cache)
    decreases |changes|
  {
    if changes == [] then (s, cache)
    else
      var step := ApplyChange(s, changes[0], authenticated);
      var cached := if step.effects.saved.Some? && writes[0].Done? then Stored(step.effects.saved.value) else cache;
      RunChanges(step.state, cached, changes[1..], writes[1..], authenticated)
  }

  /** Every change writes the resulting list to the local cache. After a
      run that starts from a cache matching the list and whose writes all
      complete, the cache still matches, so a reload from it gives back the
      list the changes produced. A failed write in the final change leaves
      the list that was cached before it. */
  lemma {:induction false} CacheTracksState(s: ScheduleState, changes: seq<ScheduleChange>, writes: seq<Outcome>,
                                            authenticated: bool, t: ScheduleState)
    requires |writes| == |changes|
    ensures var r := RunChanges(s, Stored(s.schedules), changes, writes, authenticated);
      (forall i :: 0 <= i < |writes| ==> writes[i].Done?) ==>
        r.1 == Stored(r.0.schedules) && LoadLocalSchedules(t, r.1).schedules == r.0.schedules
    ensures changes != [] && writes[|writes| - 1].Fails? ==>
      var before := RunChanges(s, Stored(s.schedules), changes[..|changes| - 1], writes[..|writes| - 1], authenticated);
      RunChanges(s, Stored(s.schedules), changes, writes, authenticated).1 == before.1
    decreases |changes|
  {
    if changes != [] {
      var step := ApplyChange(s, changes[0], authenticated);
      CacheTracksState(step.state, changes[1..], writes[1..], authenticated, t);
      if writes[|writes| - 1].Fails? {
        LastWriteFails(s, Stored(s.schedules), changes, writes, authenticated);
      }
    }
  }

  /** A failed write in the final change leaves the cache the run before it
      produced. */
  lemma {:induction false} LastWriteFails(s: ScheduleState, cache: CacheEntry<Schedule>, changes: seq<ScheduleChange>,
                                          writes: seq<Outcome>, authenticated: bool)
    requires |writes| == |changes| && changes != [] && writes[|writes| - 1].Fails?
    ensures RunChanges(s, cache, changes, writes, authenticated).1
         == RunChanges(s, cache, changes[..|changes| - 1], writes[..|writes| - 1], authenticated).1
    decreases |changes|
  {
    if |changes| > 1 {
      var step := ApplyChange(s, changes[0], authenticated);
      var cached := if step.effects.saved.Some? && writes[0].Done? then Stored(step.effects.saved.value) else cache;
      LastWriteFails(step.state, cached, changes[1..], writes[1..], authenticated);
      assert changes[1..][..|changes| - 2] == changes[..|changes| - 1][1..];
      assert writes[1..][..|writes| - 2] == writes[..|writes| - 1][1..];
    }
  }
}

=== FILE: settings.dfy ===
/** The server addresses of src/screens/Settings/SettingsScreen.js and the
    URL state of src/context/DeviceContext.js behind it: the LED server and
    camera server addresses, their copies in local storage, the save
    handlers with their scheme check, the connection test and the
    connection label. */
module Settings {
  import opened Common
  import Devices

  /** `raspberryPiUrl` and `cameraUrl`. */
  datatype Urls = Urls(pi: string, camera: string)

  const DefaultUrls: Urls := Urls("http://10.0.2.2:8080", "http://10.0.2.2:8081")

  /** What local storage holds under the two URL keys (`None`: nothing). */
  datatype StoredUrls = StoredUrls(pi: Option<string>, camera: Option<string>)

  /** The scheme check both save handlers apply. */
  predicate HasWebScheme(url: string) {
    StartsWith(url, "http://") || StartsWith(url, "https://")
  }

  datatype Alert = Alert(title: string, message: string)

  const SuccessTitle: string := "Thành công"
  const ErrorTitle: string := "Lỗi"
  const SchemeErrorText: string := "URL phải bắt đầu bằng http:// hoặc https://"
  const LedSavedText: string := "Đã lưu địa chỉ LED server"
  const CameraSavedText: string := "Đã lưu địa chỉ Camera server"
  const ConnectedText: string := "Kết nối thành công với Raspberry Pi"
  const UnreachableText: string :=
    "Không thể kết nối với Raspberry Pi. Kiểm tra địa chỉ IP và đảm bảo server đang chạy."

  // ---------------------------------------------------------------------
  // Loading and saving

  /** `loadServerUrl()`: a stored address replaces the current one only when
      it is a non-empty string; `read` is `None` when reading storage threw,
      which changes nothing. */
  function LoadServerUrls(urls: Urls, read: Option<StoredUrls>): (r: Urls)
    ensures read.None? ==> r == urls
    ensures read.Some? && read.value.pi.Some? && read.value.pi.value != [] ==> r.pi == read.value.pi.value
    ensures read.Some? && (read.value.pi.None? || read.value.pi.value == []) ==> r.pi == urls.pi
    ensures read.Some? && read.value.camera.Some? && read.value.camera.value != [] ==> r.camera == read.value.camera.value
    ensures read.Some? && (read.value.camera.None? || read.value.camera.value == []) ==> r.camera == urls.camera
  {
    match read
    case None => urls
    case Some(stored) =>
      Urls(if stored.pi.Some? && stored.pi.value != [] then stored.pi.value else urls.pi,
           if stored.camera.Some? && stored.camera.value != [] then stored.camera.value else urls.camera)
  }

  /** Which of the two addresses a save handler writes. */
  datatype Target = LedServer | CameraServer

  /** The addresses and the storage after a save, its alert, and whether a
      connection check was scheduled (`setServerUrl` re-checks, the camera
      setter does not). */
  datatype Saved = Saved(urls: Urls, stored: StoredUrls, alert: Alert, recheck: bool)

  /** `handleSaveServerUrl()` / `handleSaveCameraUrl()` with `input` the text
      in the field and `write` how `AsyncStorage.setItem` ended: an address
      without an `http://` or `https://` prefix is refused and nothing
      changes; otherwise exactly the targeted address changes in memory, and
      in storage when the write completes. The handler does not await the
      setter, so the success alert shows either way; a rejected write ends
      `setServerUrl` before it schedules the re-check. */
  function SaveUrl(target: Target, input: string, urls: Urls, stored: StoredUrls, write: Outcome): (r: Saved)
    ensures !HasWebScheme(input) ==> r == Saved(urls, stored, Alert(ErrorTitle, SchemeErrorText), false)
    ensures HasWebScheme(input) && target == LedServer ==>
      && r.urls == urls.(pi := input)
      && r.stored == (if write.Done? then stored.(pi := Some(input)) else stored)
      && r.alert == Alert(SuccessTitle, LedSavedText) && (r.recheck <==> write.Done?)
    ensures HasWebScheme(input) && target == CameraServer ==>
      && r.urls == urls.(camera := input)
      && r.stored == (if write.Done? then stored.(camera := Some(input)) else stored)
      && r.alert == Alert(SuccessTitle, CameraSavedText) && !r.recheck
  {
    if !HasWebScheme(input) then Saved(urls, stored, Alert(ErrorTitle, SchemeErrorText), false)
    else match target
      case LedServer =>
        Saved(urls.(pi := input), if write.Done? then stored.(pi := Some(input)) else stored,
              Alert(SuccessTitle, LedSavedText), write.Done?)
      case CameraServer =>
        Saved(urls.(camera := input), if write.Done? then stored.(camera := Some(input)) else stored,
              Alert(SuccessTitle, CameraSavedText), false)
  }

  /** Only addresses with a web scheme are ever stored, and every stored
      address is one `loadServerUrl` adopts. */
  lemma SavedUrlsAreWebUrls(target: Target, input: string, urls: Urls, stored: StoredUrls, write: Outcome)
    requires stored.pi.Some? ==> HasWebScheme(stored.pi.value)
    requires stored.camera.Some? ==> HasWebScheme(stored.camera.value)
    ensures var s := SaveUrl(target, input, urls, stored, write).stored;
      && (s.pi.Some? ==> HasWebScheme(s.pi.value) && s.pi.value != [])
      && (s.camera.Some? ==> HasWebScheme(s.camera.value) && s.camera.value != [])
  {
  }

  /** An accepted address whose write completed survives a restart: loading
      the storage the save wrote, starting from the defaults, gives back the
      saved address for the target and leaves the other as it was stored. A
      refused address, or one whose write failed, leaves what a restart
      loads unchanged, though the address is in use until then. */
  lemma SaveThenLoad(target: Target, input: string, urls: Urls, stored: StoredUrls, write: Outcome)
    ensures var s := SaveUrl(target, input, urls, stored, write);
      var loaded := LoadServerUrls(DefaultUrls, Some(s.stored));
      && (HasWebScheme(input) && write.Done? && target == LedServer ==>
            loaded.pi == input && loaded.camera == LoadServerUrls(DefaultUrls, Some(stored)).camera)
      && (HasWebScheme(input) && write.Done? && target == CameraServer ==>
            loaded.camera == input && loaded.pi == LoadServerUrls(DefaultUrls, Some(stored)).pi)
      && (!HasWebScheme(input) || write.Fails? ==> loaded == LoadServerUrls(DefaultUrls, Some(stored)))
  {
    if HasWebScheme(input) {
      assert input != [] by {
        if StartsWith(input, "http://") { assert |input| >= 7; } else { assert |input| >= 8; }
      }
    }
  }

  // ---------------------------------------------------------------------
  // Connection

  /** `handleTestConnection()`: the alert for what `checkConnection`
      returned. */
  function TestConnectionAlert(connected: bool): (a: Alert)
    ensures a.title == SuccessTitle <==> connected
    ensures connected ==> a.message == ConnectedText
    ensures !connected ==> a == Alert(ErrorTitle, UnreachableText)
  {
    if connected then Alert(SuccessTitle, ConnectedText) else Alert(ErrorTitle, UnreachableText)
  }

  const ConnectedLabel: string := "Đã kết nối"
  const ConnectingLabel: string := "Đang kết nối..."
  const DisconnectedLabel: string := "Mất kết nối"

  /** The text next to the connection dot. */
  function StatusLabel(c: Devices.ConnStatus): (l: string)
    ensures l == ConnectedLabel <==> c == Devices.Connected
    ensures l == ConnectingLabel <==> c == Devices.Connecting
    ensures l == DisconnectedLabel <==> c == Devices.Disconnected
  {
    match c
    case Connected => ConnectedLabel
    case Connecting => ConnectingLabel
    case Disconnected => DisconnectedLabel
  }

  /** Testing the connection: the label passes through "connecting" and ends
      on "connected" exactly when the Pi answered OK, which is also exactly
      when the alert reports success. */
  lemma TestConnectionAgreesWithLabel(s: Devices.DeviceState, probe: Devices.HttpOutcome)
    ensures var c := Devices.CheckConnection(s, probe);
      && StatusLabel(c.trace[0]) == ConnectingLabel
      && StatusLabel(c.state.connectionStatus) != ConnectingLabel
      && (StatusLabel(c.state.connectionStatus) == ConnectedLabel <==> Devices.Ok(probe))
      && (TestConnectionAlert(c.reachable).title == SuccessTitle <==>
            StatusLabel(c.state.connectionStatus) == ConnectedLabel)
  {
  }
}

=== FILE: sync.dfy ===
/** How the parts fit together: what the app writes, the database gives
    back, and the Raspberry Pi's schedule checker and LED server make of
    it. */
module Sync {
  import opened Common
  import opened Json
  import opened Entities
  import opened Listing
  import opened Database
  import ScheduleChecker
  import ScheduleForm
  import ScheduleList

  // ---------------------------------------------------------------------
  // App -> database -> app

  /** A device saved by `saveDevice` is read back by `getDevices` as that
      same device, at the position of its key. */
  lemma {:induction false} SavedDeviceIsListed(db: Db, uid: string, d: Device, serverNow: int)
    requires db.Valid()
    ensures var after := SaveDevice(db, Some(uid), d, serverNow, Done).state;
      var listed := GetDevices(after, Some(uid), Done);
      exists i :: 0 <= i < |listed| && DeviceFromObj(listed[i]) == Some(d)
  {
    var after := SaveDevice(db, Some(uid), d, serverNow, Done).state;
    var n := UserNode(after.devices, uid);
    assert n.children == UserNode(db.devices, uid).children[d.id := StoredDevice(d, serverNow)];
    assert d.id in n.children;
    var i :| 0 <= i < |n.order| && n.order[i] == d.id;
    var stored := StoredDevice(d, serverNow);
    assert "id" in stored;
    var o := SnapshotList(n)[i];
    assert o == stored;
    forall f | f in DeviceFields
      ensures f in o && o[f] == DeviceToObj(d)[f]
    {
      assert f in stored;
    }
    DeviceDecodeEncoded(d, o);
    assert GetDevices(after, Some(uid), Done) == SnapshotList(n);
  }

  // ---------------------------------------------------------------------
  // Schedule form -> Raspberry Pi

  /** The Pi names weekdays 0..6 (Monday..Sunday) with exactly the keys the
      schedule form stores in `repeat`, in the same order. */
  lemma CurrentDayIsFormKey(weekday: nat)
    requires weekday < 7
    ensures ScheduleChecker.CurrentDay(weekday) == ScheduleForm.DayKeys[weekday]
  {
  }

  /** The form's "HH:MM" is the text the checker compares against its
      clock for the same hour and minute. */
  lemma FormTimeIsCheckerTime(hour: nat, minute: nat)
    requires hour < 24 && minute < 60
    ensures ScheduleForm.FormatTime(ScheduleForm.Clock(hour, minute)) == ScheduleChecker.CurrentTime(hour, minute)
  {
  }

  /** A record as the checker sees a schedule the form saved, once the
      write has reached the database under key `key` of user `uid`. */
  function FormRecord(f: ScheduleForm.Form, existing: Option<Obj>, key: string, uid: string): (o: Obj)
    requires f.time.WellFormed()
    ensures "id" in o && o["id"] == JStr(key)
    ensures forall k :: k in ScheduleForm.Payload(f, existing) ==> k in o
  {
    ScheduleForm.Payload(f, existing)["id" := JStr(key)]["uid" := JStr(uid)]
  }

  /** A schedule saved by the form, enabled, fires on the Pi at its own
      minute: a one-time schedule unless it already ran today, a repeating
      one exactly on the days the form selected. */
  lemma FormScheduleFiresAtItsTime(f: ScheduleForm.Form, existing: Option<Obj>, key: string, uid: string,
                                   weekday: nat, today: string, executed: map<Json, string>)
    requires f.time.Clock? && f.time.WellFormed() && weekday < 7
    requires PyTruthy(ScheduleForm.EnabledFlag(existing))
    ensures var o := FormRecord(f, existing, key, uid);
      var v := ScheduleChecker.ShouldExecute(o, ScheduleChecker.CurrentTime(f.time.hour, f.time.minute),
                                             ScheduleChecker.CurrentDay(weekday), today, executed);
      && (f.repeatDays == [] ==> (v == ScheduleChecker.Fire <==> !(JStr(key) in executed && executed[JStr(key)] == today)))
      && (f.repeatDays != [] ==> (v == ScheduleChecker.Fire <==> ScheduleChecker.CurrentDay(weekday) in f.repeatDays))
  {
    var o := FormRecord(f, existing, key, uid);
    var day := ScheduleChecker.CurrentDay(weekday);
    assert o["time"] == JStr(ScheduleChecker.CurrentTime(f.time.hour, f.time.minute));
    assert o["enabled"] == ScheduleForm.EnabledFlag(existing);
    var items := StringsToJson(f.repeatDays);
    assert o["repeat"] == JList(items);
    if f.repeatDays != [] {
      assert JStr(day) in items <==> day in f.repeatDays by {
        if day in f.repeatDays {
          var j :| 0 <= j < |f.repeatDays| && f.repeatDays[j] == day;
          assert items[j] == JStr(day);
        }
      }
    }
  }

  /** At every other minute the form's schedule stays quiet. */
  lemma FormScheduleQuietOtherwise(f: ScheduleForm.Form, existing: Option<Obj>, key: string, uid: string,
                                   hour: nat, minute: nat, weekday: nat, today: string, executed: map<Json, string>)
    requires f.time.Clock? && f.time.WellFormed() && weekday < 7 && hour < 24 && minute < 60
    requires hour != f.time.hour || minute != f.time.minute
    ensures ScheduleChecker.ShouldExecute(FormRecord(f, existing, key, uid), ScheduleChecker.CurrentTime(hour, minute),
                                          ScheduleChecker.CurrentDay(weekday), today, executed) == ScheduleChecker.Skip
  {
  }

  /** The list screen shows "once" for a form schedule exactly when the Pi
      treats it as one-time. */
  lemma OnceLabelMatchesChecker(f: ScheduleForm.Form, existing: Option<Obj>, key: string, uid: string)
    requires f.time.WellFormed()
    requires forall i :: 0 <= i < |f.repeatDays| ==> f.repeatDays[i] in ScheduleForm.DayKeys
    ensures ScheduleList.FormatRepeatDays(Some(f.repeatDays)) == ScheduleList.OnceText
            <==> ScheduleChecker.OneTime(FormRecord(f, existing, key, uid))
  {
    var o := FormRecord(f, existing, key, uid);
    assert o["repeat"] == JList(StringsToJson(f.repeatDays));
    if 0 < |f.repeatDays| < 7 {
      var labels := ScheduleList.Labels(f.repeatDays);
      ScheduleList.DayMapAgreesWithForm();
      assert labels[0] in ScheduleForm.DayLabels;
      JoinWithStartsWith(labels, ", ");
    }
  }

  /** A join starts with its first part. */
  lemma {:induction false} JoinWithStartsWith(parts: seq<string>, sep: string)
    requires |parts| > 0
    ensures StartsWith(JoinWith(parts, sep), parts[0])
  {
    if |parts| > 1 {
      var j := JoinWith(parts, sep);
      assert j == parts[0] + sep + JoinWith(parts[1..], sep);
      assert j[..|parts[0]|] == parts[0];
    }
  }

  // ---------------------------------------------------------------------
  // ScheduleContext -> Raspberry Pi

  /** A schedule written through ScheduleContext stores `isEnabled` and
      `repeatDays`, names the checker never reads: at its minute the Pi
      treats it as an enabled one-time schedule, whatever its switch and
      its days say. */
  lemma ContextScheduleIgnoresSwitch(s: Schedule, serverNow: int, uid: string,
                                     weekday: nat, today: string, executed: map<Json, string>)
    requires weekday < 7
    ensures var o := StoredSchedule(s, serverNow)["id" := JStr(s.id)]["uid" := JStr(uid)];
      && ScheduleChecker.OneTime(o)
      && (ScheduleChecker.ShouldExecute(o, s.time, ScheduleChecker.CurrentDay(weekday), today, executed)
            == ScheduleChecker.Fire
          <==> !(JStr(s.id) in executed && executed[JStr(s.id)] == today))
  {
    var o := StoredSchedule(s, serverNow)["id" := JStr(s.id)]["uid" := JStr(uid)];
    assert "enabled" !in o && "repeat" !in o;
    assert o["time"] == JStr(s.time);
  }
}

=== FILE: theme.dfy ===
/** The theme preference of src/context/ThemeContext.js: a mode that is
    either the system's or a fixed light or dark one. */
module Theme {
  import opened Common

  datatype ThemeMode = System | Light | Dark

  /** The strings `THEME_MODES` maps the modes to (also the stored form). */
  function ModeName(m: ThemeMode): string {
    match m
    case System => "system"
    case Light => "light"
    case Dark => "dark"
  }

  /** The mode a stored string names, if any. */
  function ParseMode(s: string): (r: Option<ThemeMode>)
    ensures r.Some? ==> ModeName(r.value) == s
  {
    if s == "system" then Some(System)
    else if s == "light" then Some(Light)
    else if s == "dark" then Some(Dark)
    else None
  }

  /** Every mode survives being stored and read back, and only mode names
      are read back as modes. */
  lemma ModeNameRoundTrip(m: ThemeMode, s: string)
    ensures ParseMode(ModeName(m)) == Some(m)
    ensures ParseMode(s).Some? <==> s in {"system", "light", "dark"}
  {
  }

  /** `isDarkMode`: the system's scheme (`useColorScheme()`, `None` when
      unknown) decides in system mode; otherwise the mode does. */
  function IsDark(mode: ThemeMode, systemScheme: Option<string>): (dark: bool)
    ensures mode == System ==> (dark <==> systemScheme == Some("dark"))
    ensures mode != System ==> (dark <==> mode == Dark)
  {
    if mode == System then systemScheme == Some("dark") else mode == Dark
  }

  /** The mode after `setTheme(m)`, and the string it persists. */
  datatype Applied = Applied(mode: ThemeMode, stored: string)

  function SetTheme(m: ThemeMode): (r: Applied)
    ensures r.mode == m && ParseMode(r.stored) == Some(m)
  {
    Applied(m, ModeName(m))
  }

  /** `toggleTheme()`: light when the app is dark, dark otherwise. */
  function ToggleTheme(mode: ThemeMode, systemScheme: Option<string>): (r: Applied)
    ensures r.mode != System
    ensures IsDark(r.mode, systemScheme) == !IsDark(mode, systemScheme)
    ensures ParseMode(r.stored) == Some(r.mode)
  {
    SetTheme(if IsDark(mode, systemScheme) then Light else Dark)
  }

  /** Toggling twice from a fixed mode comes back to it. */
  lemma ToggleTwiceFromFixed(mode: ThemeMode, systemScheme: Option<string>)
    requires mode != System
    ensures ToggleTheme(ToggleTheme(mode, systemScheme).mode, systemScheme).mode == mode
  {
  }

  /** `loadThemePreference()`: `saved` is what storage returns (`None` for
      nothing stored or a failed read). Only a mode name is adopted. */
  function LoadThemePreference(mode: ThemeMode, saved: Option<string>): (r: ThemeMode)
    ensures saved.Some? && ParseMode(saved.value).Some? ==> r == ParseMode(saved.value).value
    ensures saved.None? || ParseMode(saved.value).None? ==> r == mode
  {
    if saved.Some? && ParseMode(saved.value).Some? then ParseMode(saved.value).value else mode
  }
}
